=== FILE: README.md ===
# FarmGather core, modelled in Dafny

FarmGather is a Paper plugin for a farming mini-game. Players harvest crops
with a special farm hoe. Same-block harvests build a combo streak that raises
the experience gained. Experience climbs a piecewise polynomial level curve up
to a cap. Hoe skills (sweep, focus, double tap, shears) are stored on the
player profile. The profile lives in an active-session map in front of a
pluggable store: in-memory, Redis, or a database behind a Redis cache.

This project models, as immutable datatypes and pure functions:

- the experience curve and `addXp` loop of `ProgressionService` (`Progression`);
- the combo window and streak of `ComboService` (`Combo`);
- the profile-state transitions of `HarvestManager.attemptHarvest`: guards,
  action cooldown, override housekeeping, bonus figures, rollback on cancel,
  and the commit (`Harvest`);
- energy regeneration, the focus skill and per-player skill cooldowns of
  `SkillManager` and `PlayerSkillState` (`Skills`);
- the player profile, the hoe skill enum and its case-insensitive lookup
  (`Profiles`, `HoeSkills`);
- the skill loadout codec (`SkillCodec`);
- the Redis hash form of a profile (`RedisStore`);
- the database row form of a profile (`JdbcStore`);
- the store contract with its in-memory, Redis, database and cache-aside
  implementations (`Stores`);
- the session map of `ProfileManager` (`Sessions`);
- the `level`, `givehoe` and `stats` admin decisions (`Commands`);
- the world command whitelist and interaction rule of `WorldRuleListener`
  (`WorldRules`);
- the piecewise curve builder of `PluginConfig` (`Config`).

Java semantics the code relies on are written out:

- `String.split` drops trailing empty strings;
- `trim` removes characters up to U+0020;
- `isBlank` uses Java's whitespace test;
- `Integer.parseInt` and `Long.parseLong` take an optional `+` or `-`, then
  decimal digits of any script `Character.digit` knows (ASCII, Arabic-Indic,
  Devanagari, fullwidth and the other Unicode decimal digits of the Basic
  Multilingual Plane), and check the range. Java reads a string one UTF-16
  unit at a time, so a digit outside that plane is refused; the model refuses
  it too;
- the `(long)` cast truncates toward zero;
- `Math.round` is `floor(x + 0.5)`.

These live in `JavaText` and `JavaMath`; the `Option`, `Result` and `Outcome`
datatypes are in `Wrappers`.

Exceptions and failed futures become `Result`/`Outcome` values. The clock is a
`now` parameter. Random draws are a `Draws` parameter. The harvest event's
listeners are a `decide` function from the offered figures to a verdict. The
iteration order of the session map is an `order` parameter.

Source paths below are relative to the repository root. All of them are under
`src/main/java/wiki/creeper/farmGather/`.

## Model

| member | source | states |
|---|---|---|
| Progression.EvaluateFormula | src/main/java/wiki/creeper/farmGather/progression/ProgressionService.java:71-80 | A tag containing "(L-100)" always gives the high-tier polynomial, which is checked first. Otherwise a tag containing "L^2" gives the low tier. Any other tag is the unsupported-formula error, carrying that tag. |
| Progression.FirstCovering | src/main/java/wiki/creeper/farmGather/progression/ProgressionService.java:58-60 | The index found is the first entry whose inclusive range holds the level: no earlier entry covers it. No index is found only when no entry covers it. |
| Progression.CostBelowCap | src/main/java/wiki/creeper/farmGather/progression/ProgressionService.java:57-68 | Below the cap, the "no formula" error happens exactly when no range covers the level. Otherwise the cost is the first covering entry's formula times its scale and the global multiplier. |
| Progression.XpToNextLevel | src/main/java/wiki/creeper/farmGather/progression/ProgressionService.java:53-69 | The +∞ sentinel is returned exactly when level ≥ cap, never as an error. Below the cap the result succeeds exactly when the covering-cost lookup does, with that finite cost, and otherwise carries its error. A level no range covers is the "no formula" error. |
| Progression.Climb | src/main/java/wiki/creeper/farmGather/progression/ProgressionService.java:32-40 | The level loop never lowers the level and stops at most at the cap. The levels reached are consecutive, start+1 onwards, one per level gained. Stopping below the cap means the leftover is less than that level's cost. A failure happens only below the cap. |
| Progression.ClimbSpends | src/main/java/wiki/creeper/farmGather/progression/ProgressionService.java:32-40 | The experience left after the loop is the starting experience minus the cost of every level passed. |
| Progression.AddXp | src/main/java/wiki/creeper/farmGather/progression/ProgressionService.java:23-51 | A non-positive amount changes nothing and reaches no level. The profile ends with the returned level and leftover, and the levels reached are consecutive. A positive grant ends at or below the cap, with exactly 0 XP at the cap. Below the cap the leftover is less than the next cost. A failure only happens for a positive grant below the cap. |
| Progression.ClimbExtends | src/main/java/wiki/creeper/farmGather/progression/ProgressionService.java:32-40 | Climbing with extra experience passes through the same levels as the smaller climb, then continues from its end with the leftover plus the extra. Failures happen at the same level. |
| Progression.SplitGrant | src/main/java/wiki/creeper/farmGather/progression/ProgressionService.java:23-51 | Granting a then b leaves the profile exactly where granting a + b at once does. The same levels are reached in the same order, and any failure is the same. |
| Progression.TiersPositiveAndJoined | src/main/java/wiki/creeper/farmGather/progression/ProgressionService.java:74-78 | Both polynomials cost a positive amount at every level (levels unbounded). They meet at level 100, where both give 95375. |
| Combo.ComboWindow | src/main/java/wiki/creeper/farmGather/progression/ComboService.java:18-24 | The window is never below the minimum or the decayed value, and it is one of the two. |
| Combo.ApplyCombo | src/main/java/wiki/creeper/farmGather/progression/ComboService.java:26-39 | The streak continues exactly on the same block type before the stored expiry. Then the count goes up by one; otherwise it resets to 1. A present override replaces the level-based window. The new expiry is now plus the window in milliseconds, truncated. No field other than last block, count and expiry changes. |
| Combo.WindowShrinks | src/main/java/wiki/creeper/farmGather/progression/ComboService.java:18-24 | With a non-negative base and decay, a higher level never gets a longer window. |
| Combo.OverrideDecides | src/main/java/wiki/creeper/farmGather/progression/ComboService.java:27 | With an override present, the outcome depends on neither the level nor the configured curve. |
| Combo.StreakLength | src/main/java/wiki/creeper/farmGather/progression/ComboService.java:30-36 | A run of n same-block harvests, each inside the window the previous one opened, adds n to a streak the first harvest continues, and leaves exactly n otherwise. |
| HoeSkills.FromKey | src/main/java/wiki/creeper/farmGather/player/HoeSkillType.java:9-16 | A found constant's name equals the key ignoring case. An unknown key is the IllegalArgumentException case, and then no constant matches. |
| HoeSkills.DeclarationOrder | src/main/java/wiki/creeper/farmGather/player/HoeSkillType.java:3-7 | There are exactly four constants, each once, in declaration order, and ordinals match their positions. |
| HoeSkills.MatchIsUnique | src/main/java/wiki/creeper/farmGather/player/HoeSkillType.java:10-13 | A key matches at most one constant ignoring case, so the lookup is unambiguous. |
| HoeSkills.FromKeyName | src/main/java/wiki/creeper/farmGather/player/HoeSkillType.java:9-14 | Looking up a constant's own name gives that constant. |
| HoeSkills.FromKeyLowerName | src/main/java/wiki/creeper/farmGather/player/HoeSkillType.java:9-14 | Looking up the lower-cased name gives the constant too. |
| HoeSkills.FromKeyEmpty | src/main/java/wiki/creeper/farmGather/player/HoeSkillType.java:15 | The empty key names no constant and is refused. |
| Profiles.Fresh | src/main/java/wiki/creeper/farmGather/player/PlayerProfile.java:9-41 | A new profile has: level 1, energy 100 and no XP; no streak and no override; no skills, no block type and no guild. Its uuid is the one given and its energy tick is the construction time. |
| Profiles.SetSkill | src/main/java/wiki/creeper/farmGather/player/PlayerProfile.java:159-161 | The skill is stored under its own type; every other entry and every other field is kept. |
| Profiles.ClearSkills | src/main/java/wiki/creeper/farmGather/player/PlayerProfile.java:167-169 | The skill map is empty afterwards and nothing else changes. |
| Profiles.SetComboOverride | src/main/java/wiki/creeper/farmGather/player/PlayerProfile.java:187-190 | Both the window and the expiry are set, and nothing else changes. |
| Profiles.ClearComboOverride | src/main/java/wiki/creeper/farmGather/player/PlayerProfile.java:200-203 | Both halves of the override become zero, and nothing else changes. |
| Profiles.AddRawXp | src/main/java/wiki/creeper/farmGather/player/PlayerProfile.java:63-65 | The XP grows by exactly the amount; the level and every other field stay. |
| Profiles.SetSkillOrder | src/main/java/wiki/creeper/farmGather/player/PlayerProfile.java:159-161 | Setting two different skills commutes; a later setting of the same skill wins. |
| Profiles.OverrideSetThenClear | src/main/java/wiki/creeper/farmGather/player/PlayerProfile.java:187-203 | Clearing undoes any setting of the override, and a fresh profile has none to clear. |
| SkillCodec.Encode | src/main/java/wiki/creeper/farmGather/storage/ProfileSkillCodec.java:12-27 | The result is null exactly when no skill has a positive level. Otherwise it is non-empty, with no leading or trailing comma. |
| SkillCodec.DecodeToken | src/main/java/wiki/creeper/farmGather/storage/ProfileSkillCodec.java:35-48 | A pair decodes exactly when Java's split on ":" gives two parts, the type is known ignoring case, and the level is a positive int. The type found matches the name ignoring case, and the level is exactly the int parsed from the second part. |
| SkillCodec.ScriptDigitLevel | src/main/java/wiki/creeper/farmGather/storage/ProfileSkillCodec.java:36-44 | "SWEEP:" followed by a fullwidth digit three decodes as SWEEP at level 3, as `Integer.parseInt` reads it. |
| SkillCodec.ApplyTokens | src/main/java/wiki/creeper/farmGather/storage/ProfileSkillCodec.java:34-49 | Afterwards each type holds the level of its last well-formed pair. A type with no such pair keeps what it held, and no other type appears. |
| SkillCodec.Decode | src/main/java/wiki/creeper/farmGather/storage/ProfileSkillCodec.java:29-50 | Null or blank text gives no skills, and every decoded level is positive. |
| SkillCodec.DecodeInto | src/main/java/wiki/creeper/farmGather/storage/ProfileSkillCodec.java:29-33 | The old skills are always replaced by the decoded ones, and nothing else in the profile changes. |
| SkillCodec.EncodeDecode | src/main/java/wiki/creeper/farmGather/storage/ProfileSkillCodec.java:12-50 | Decoding the encoding gives back exactly the skills held at a positive level. |
| SkillCodec.DropMalformed | src/main/java/wiki/creeper/farmGather/storage/ProfileSkillCodec.java:38-47 | A malformed pair is dropped on its own: decoding with it equals decoding without it, wherever it sits. |
| SkillCodec.LaterPairWins | src/main/java/wiki/creeper/farmGather/storage/ProfileSkillCodec.java:41-44 | Of two well-formed pairs for one type, the later one's level is kept. |
| RedisStore.Key | src/main/java/wiki/creeper/farmGather/storage/RedisPlayerDataStore.java:72-74 | The key is "farmgather:profile:" followed by exactly the uuid's text. |
| RedisStore.KeyInjective | src/main/java/wiki/creeper/farmGather/storage/RedisPlayerDataStore.java:72-74 | Two players never share a hash key. |
| RedisStore.FieldNamesDistinct | src/main/java/wiki/creeper/farmGather/storage/RedisPlayerDataStore.java:78-103 | The hash field names written are pairwise distinct. |
| RedisStore.Serialize | src/main/java/wiki/creeper/farmGather/storage/RedisPlayerDataStore.java:76-105 | The uuid and level are always written. The last block type and guild id are written only when present, and the skills only when some level is positive. |
| RedisStore.Get | src/main/java/wiki/creeper/farmGather/storage/RedisPlayerDataStore.java:108-130 | A hash field read is null exactly when the field is absent. |
| RedisStore.IntOr | src/main/java/wiki/creeper/farmGather/storage/RedisPlayerDataStore.java:133-142 | The parsed int is used, or the fallback when the field is missing or not an int. Digits of any script `Character.digit` accepts count. |
| RedisStore.LongOr | src/main/java/wiki/creeper/farmGather/storage/RedisPlayerDataStore.java:144-153 | The parsed long is used, or the fallback when the field is missing or not a long. Digits of any script `Character.digit` accepts count. |
| RedisStore.RealOr | src/main/java/wiki/creeper/farmGather/storage/RedisPlayerDataStore.java:155-164 | The parsed double is used, or the fallback when the field is missing or does not parse. |
| RedisStore.NormalOverride | src/main/java/wiki/creeper/farmGather/storage/RedisPlayerDataStore.java:118-124 | The override is kept only when both its window and its expiry are positive; otherwise both halves read as zero. |
| RedisStore.Apply | src/main/java/wiki/creeper/farmGather/storage/RedisPlayerDataStore.java:107-131 | Every numeric field reads as its parsed value when present and parseable, and otherwise as the fresh profile's value: level 1, energy 100, energy tick now, and 0 for the rest. The override is kept exactly when both halves read positive, and otherwise both are 0. An absent last block type or guild id reads as none, and the skills are the decoding of the skills field. |
| RedisStore.ApplyNothing | src/main/java/wiki/creeper/farmGather/storage/RedisPlayerDataStore.java:107-131 | A hash with none of the fields reads as a fresh profile. |
| RedisStore.Restored | src/main/java/wiki/creeper/farmGather/storage/RedisPlayerDataStore.java:96-124 | What reads back keeps only skills the profile had, and either no override or the profile's own window. |
| RedisStore.SerializeApply | src/main/java/wiki/creeper/farmGather/storage/RedisPlayerDataStore.java:76-131 | Applying the serialized form rebuilds the profile, whatever the clock reads. The exceptions are non-positive skills and a half-set override, which are dropped. This holds when the int and long fields are in range and the double text form reads back each of the profile's seven double fields. |
| RedisStore.IntegersReadBack | src/main/java/wiki/creeper/farmGather/storage/RedisPlayerDataStore.java:79-116 | The level and combo count, when in int range, are read back as written, with no assumption about the double text form. |
| RedisStore.ClockReadingsReadBack | src/main/java/wiki/creeper/farmGather/storage/RedisPlayerDataStore.java:83-130 | The energy tick, last harvest, cooldown end, combo expiry and last guild harvest, when in long range, are read back as written, whatever the clock reads at load. |
| RedisStore.OptionalsReadBack | src/main/java/wiki/creeper/farmGather/storage/RedisPlayerDataStore.java:86-129 | The last block type and guild id, present or absent, are read back as written. The skills read back as exactly those at a positive level, whenever every level fits an int. |
| RedisStore.SomeTextReadsBack | src/main/java/wiki/creeper/farmGather/storage/RedisPlayerDataStore.java:155-164 | For every profile there is a double text form that reads back each of its seven double fields, so the read-back lemmas apply to every profile. |
| RedisStore.Load | src/main/java/wiki/creeper/farmGather/storage/RedisPlayerDataStore.java:36-50 | An absent or empty hash is no profile, not a default one. Otherwise the profile is the hash applied to a fresh profile for that uuid. |
| RedisStore.Delete | src/main/java/wiki/creeper/farmGather/storage/RedisPlayerDataStore.java:57 | After the `del` the player has no hash, and every other key is untouched. |
| RedisStore.LoadAfterDelete | src/main/java/wiki/creeper/farmGather/storage/RedisPlayerDataStore.java:36-57 | After the `del` the player loads as no profile, and every other player loads as before. |
| RedisStore.Save | src/main/java/wiki/creeper/farmGather/storage/RedisPlayerDataStore.java:53-63 | The player's hash is deleted and then written, so it becomes exactly the serialized payload, a full replace. Every other key is untouched. |
| RedisStore.LoadAfterSave | src/main/java/wiki/creeper/farmGather/storage/RedisPlayerDataStore.java:36-63 | Loading right after a save reads the saved profile back, less what the hash cannot hold, when the double text form reads back the profile's double fields. |
| RedisStore.SaveIsolated | src/main/java/wiki/creeper/farmGather/storage/RedisPlayerDataStore.java:53-74 | A save leaves every other player's load unchanged. |
| Stores.RedisLoad | src/main/java/wiki/creeper/farmGather/storage/RedisPlayerDataStore.java:36-50 | A Redis load fails exactly on a fault or a closed pool. Otherwise it answers the hash lookup. |
| Stores.RedisSave | src/main/java/wiki/creeper/farmGather/storage/RedisPlayerDataStore.java:53-63 | A Redis save fails exactly on a fault or a closed pool. A closed pool or a failure before the `del` writes nothing; a failure after it leaves the player's hash deleted. A save that completes replaces the player's hash. |
| Stores.RedisClose | src/main/java/wiki/creeper/farmGather/storage/RedisPlayerDataStore.java:66-70 | Closing shuts the pool, always completes, and keeps the hashes. |
| Stores.Load | src/main/java/wiki/creeper/farmGather/storage/HybridPlayerDataStore.java:22-45 | In memory, the map entry or none. Redis answers its hash lookup. The database fails exactly on a fault or after close, and otherwise maps the player's row or finds none. The hybrid fails at once when its cache is closed; it returns a cache hit as it is, and on a miss or failed cache read it answers what the primary answers. |
| Stores.Save | src/main/java/wiki/creeper/farmGather/storage/HybridPlayerDataStore.java:48-56 | In memory, the entry for the profile's uuid is overwritten and the save always completes. Redis saves as `RedisSave`. The database fails exactly on a fault or after close, writing nothing, and otherwise upserts the bound row. A hybrid save fails exactly when the primary's does or its cache is closed. The cache is written only when it is open and the primary took the call. |
| Stores.Close | src/main/java/wiki/creeper/farmGather/storage/JdbcPlayerDataStore.java:144-152 | Closing the in-memory store empties it and completes, and closing Redis always completes and closes its pool. The database store is closed even when its close hook fails, and the close fails exactly then. A hybrid close ends as its primary's close ends. It closes the cache only when the primary's close completes, and otherwise leaves the cache open. |
| Stores.MemoryNeverFails | src/main/java/wiki/creeper/farmGather/storage/InMemoryPlayerDataStore.java:14-28 | No in-memory operation fails, and an unknown uuid loads as none. |
| Stores.MemoryCloseForgets | src/main/java/wiki/creeper/farmGather/storage/InMemoryPlayerDataStore.java:25-28 | After the in-memory store is closed, every load finds nothing. |
| Stores.LoadAfterSave | src/main/java/wiki/creeper/farmGather/storage/InMemoryPlayerDataStore.java:14-22 | On a healthy store, whose Redis text forms read back the profile's double fields, a save completes and a load finds the profile again. The in-memory store gives it exactly; Redis, the database and the hybrid give it less the non-positive skills and a half-set override. |
| Stores.SaveIsolated | src/main/java/wiki/creeper/farmGather/storage/InMemoryPlayerDataStore.java:19-22 | On every store, a save of one player leaves what any other player loads unchanged. |
| Stores.RedisSaveIsolated | src/main/java/wiki/creeper/farmGather/storage/RedisPlayerDataStore.java:53-63 | A Redis save of one player, completed or failed at any point, leaves what any other player reads from that cache unchanged. |
| Stores.HybridHitSkipsPrimary | src/main/java/wiki/creeper/farmGather/storage/HybridPlayerDataStore.java:23-31 | A cache hit is returned unchanged, and neither the primary nor the cache is touched. |
| Stores.HybridMissAsksPrimary | src/main/java/wiki/creeper/farmGather/storage/HybridPlayerDataStore.java:24-42 | On an open cache, a miss or a failed cache read answers what the primary answers, including its failure. A record found there is written into the cache when the cache accepts it. An empty or failed answer leaves the cache alone. |
| Stores.HybridSaveFollowsPrimary | src/main/java/wiki/creeper/farmGather/storage/HybridPlayerDataStore.java:48-56 | A hybrid save fails exactly when the primary's does or the cache is closed. Over an open cache and a primary that takes the call, the outcome is the primary's: a cache failure is swallowed and both stores are written. A closed cache or a primary that throws leaves the cache untouched. |
| Stores.HybridCloseFollowsPrimary | src/main/java/wiki/creeper/farmGather/storage/HybridPlayerDataStore.java:59-69 | A hybrid close fails exactly as its primary's does. A primary close that throws escapes the `exceptionally`, so the cache stays open; otherwise the cache is closed after the primary. |
| Stores.HybridCloseOverFailingDatabase | src/main/java/wiki/creeper/farmGather/storage/HybridPlayerDataStore.java:59-69 | Over a database whose close hook fails, the hybrid close fails with that error. The database is closed, and the cache is still open and answers loads as before. |
| Stores.HybridClosedCacheThrows | src/main/java/wiki/creeper/farmGather/storage/HybridPlayerDataStore.java:22-56 | Once the cache is closed, a hybrid load fails with the store unchanged, without asking the primary. A hybrid save fails with the cache unchanged; the primary still takes the save it was handed first. |
| Stores.HybridStaleAfterFailedCacheWrite | src/main/java/wiki/creeper/farmGather/storage/HybridPlayerDataStore.java:23-56 | After a swallowed cache-write failure before the `del`, the next load answers the older cached copy. |
| Stores.HybridMissAfterPartialCacheWrite | src/main/java/wiki/creeper/farmGather/storage/HybridPlayerDataStore.java:23-56 | After a swallowed cache-write failure after the `del`, the player has no cached hash. The next load misses the cache and answers what the primary answers after the save. A primary that throws keeps the cache write from starting. |
| Stores.RedisLosesAfterPartialSave | src/main/java/wiki/creeper/farmGather/storage/RedisPlayerDataStore.java:36-63 | On its own, a Redis store whose save fails after the `del` reports the failure, and the next load finds no profile. |
| Stores.DurableClosedRefuses | src/main/java/wiki/creeper/farmGather/storage/JdbcPlayerDataStore.java:111-152 | After close, even a failed one, the database store refuses every load and save, because its executor is already shut. |
| JdbcStore.Bind | src/main/java/wiki/creeper/farmGather/storage/JdbcPlayerDataStore.java:184-204 | Every field is bound as the profile holds it. The skills column is NULL exactly when no skill has a positive level. |
| JdbcStore.MapProfile | src/main/java/wiki/creeper/farmGather/storage/JdbcPlayerDataStore.java:154-182 | The profile has the uuid asked for and every other column as stored. The override is kept exactly when both its halves are positive, and otherwise both are 0. The skills are the decoding of the skills column. |
| JdbcStore.MapBind | src/main/java/wiki/creeper/farmGather/storage/JdbcPlayerDataStore.java:154-204 | A row bound from a profile maps back to it, less the skills at a non-positive level and a half-set override: exactly what a Redis hash reads back. |
| Sessions.LoadProfile | src/main/java/wiki/creeper/farmGather/player/ProfileManager.java:19-26 | The session holds the stored profile, or a fresh one when the store has none. A failed load adds no session. |
| Sessions.Unload | src/main/java/wiki/creeper/farmGather/player/ProfileManager.java:28-34 | The session is removed and exactly the removed profile is saved. Without a session nothing is saved; other sessions stay. |
| Sessions.Flush | src/main/java/wiki/creeper/farmGather/player/ProfileManager.java:36-42 | The current profile is saved and the sessions are kept. Without a session nothing happens. |
| Sessions.GetProfile | src/main/java/wiki/creeper/farmGather/player/ProfileManager.java:44-46 | The result is the session's profile, or none when there is no session. The store is not consulted. |
| Sessions.FlushAllSync | src/main/java/wiki/creeper/farmGather/player/ProfileManager.java:52-54 | The active sessions are unchanged. |
| Sessions.CloseSession | src/main/java/wiki/creeper/farmGather/player/ProfileManager.java:56-59 | Every session is saved, then the store is closed. A failed save stops before the close. |
| Sessions.FlushAllToMemory | src/main/java/wiki/creeper/farmGather/player/ProfileManager.java:52-54 | Flushing into the in-memory store completes, leaves every active profile stored, and keeps the sessions. |
| Sessions.UnloadThenLoad | src/main/java/wiki/creeper/farmGather/player/ProfileManager.java:19-34 | A player who leaves and returns, against a healthy store whose Redis text forms read back their double fields, gets back the profile they left with, as the store keeps it. |
| Sessions.ReloadReplaces | src/main/java/wiki/creeper/farmGather/player/ProfileManager.java:23 | Loading twice keeps one session per player, holding the second load's profile. |
| Skills.CooldownEnd | src/main/java/wiki/creeper/farmGather/skills/PlayerSkillState.java:11-13 | A cooldown never set reads as 0. |
| Skills.SetCooldownEnd | src/main/java/wiki/creeper/farmGather/skills/PlayerSkillState.java:15-17 | The type's cooldown end becomes the value, with no stacking. Every other type and the focus end stay. |
| Skills.SetFocusActiveUntil | src/main/java/wiki/creeper/farmGather/skills/PlayerSkillState.java:19-25 | The focus end is set without touching any cooldown. |
| Skills.CooldownDefaults | src/main/java/wiki/creeper/farmGather/skills/PlayerSkillState.java:8-17 | A new state has no cooldown and no active focus. A later setting of the same cooldown replaces the earlier one. |
| Skills.OnQuit | src/main/java/wiki/creeper/farmGather/skills/SkillManager.java:59-62 | The quitting player's state is removed and every other state is kept. |
| Skills.TickOne | src/main/java/wiki/creeper/farmGather/skills/SkillManager.java:153-167 | A full or away player is untouched. Anyone else gains the regeneration amount, capped at the maximum, and the tick time is stamped. |
| Skills.TickEnergy | src/main/java/wiki/creeper/farmGather/skills/SkillManager.java:146-169 | Every online session is ticked, offline sessions are untouched, and no session appears or disappears. |
| Skills.TicksFill | src/main/java/wiki/creeper/farmGather/skills/SkillManager.java:165-167 | A present player's energy after n ticks is min(max, energy + Gain(regen, n)): the regeneration amount is added once per tick and the sum is capped. The last harvest time is untouched. |
| Skills.HandleFocus | src/main/java/wiki/creeper/farmGather/skills/SkillManager.java:116-144 | The focus is refused for its cooldown exactly when now is before the cooldown end. It is refused for energy exactly when energy is below the cost. Either refusal changes nothing. An activation spends the energy (never below 0), stamps the tick, and sets the 3-second override until now plus the duration. It also sets the focus cooldown and leaves other cooldowns alone. |
| Skills.FocusTwice | src/main/java/wiki/creeper/farmGather/skills/SkillManager.java:119-124 | A second focus before the cooldown runs out is refused and changes nothing. |
| Harvest.FirstGuard | src/main/java/wiki/creeper/farmGather/harvest/HarvestManager.java:76-93 | The guards fail in the fixed order tool, world, harvestable, busy; all of them pass together. |
| Harvest.ExpireCooldown | src/main/java/wiki/creeper/farmGather/harvest/HarvestManager.java:95-98 | An elapsed cooldown is reset to 0 and nothing else changes. The reset never changes whether the player is still on cooldown. |
| Harvest.SelectOverride | src/main/java/wiki/creeper/farmGather/harvest/HarvestManager.java:104-109 | The override is passed on exactly when its expiry is after now. An expired, non-zero one is cleared; a zero one is left. |
| Harvest.XpBonus | src/main/java/wiki/creeper/farmGather/harvest/HarvestManager.java:123 | The bonus is min(max(0, combo − 1) × per-stack, cap): never above the cap, and non-negative for non-negative settings. |
| Harvest.BaseXp | src/main/java/wiki/creeper/farmGather/harvest/HarvestManager.java:124-125 | The experience is the base times (1 + bonus), rounded to within half a point. |
| Harvest.GuildChance | src/main/java/wiki/creeper/farmGather/harvest/HarvestManager.java:130-132 | The guild chance never exceeds its cap. |
| Harvest.GuildBonus | src/main/java/wiki/creeper/farmGather/harvest/HarvestManager.java:127-137 | The guild point is granted exactly with guild members active in the same world and a draw under the chance. |
| Harvest.DoubleTapLevel | src/main/java/wiki/creeper/farmGather/harvest/HarvestManager.java:141-145 | Double tap is considered exactly when the skill is held at a positive level and enabled. |
| Harvest.DoubleTapChance | src/main/java/wiki/creeper/farmGather/harvest/HarvestManager.java:147-148 | The double-tap chance never exceeds 0.50. |
| Harvest.DoubleTapRoll | src/main/java/wiki/creeper/farmGather/harvest/HarvestManager.java:141-159 | A double tap triggers exactly for the held skill, on the same block inside the window, with the draw under the capped chance. The multiplier is 1 unless it triggers. Otherwise it is 2, or 1.3 + 0.05 per level above 1 when double taps multiply. |
| Harvest.Provisional | src/main/java/wiki/creeper/farmGather/harvest/HarvestManager.java:119-178 | The event is offered the combo count and window, the bonus, the rounded experience plus one on a guild bonus, the extra drop, and the double-tap roll. |
| Harvest.RollBack | src/main/java/wiki/creeper/farmGather/harvest/HarvestManager.java:180-185 | A cancel restores the combo count, expiry and last block type to their earlier values. |
| Harvest.Clamped | src/main/java/wiki/creeper/farmGather/harvest/HarvestManager.java:190-195 | Committed experience is never negative and the multiplier never below 1. Values already in range are kept, and nothing else changes. |
| Harvest.Commit | src/main/java/wiki/creeper/farmGather/harvest/HarvestManager.java:187-211 | The commit sets the event's count and an expiry of now plus the non-negative window. It grants the clamped experience through addXp and stamps the harvest time, cooldown end and guild time. A curve failure leaves the combo committed and nothing after it. |
| Harvest.AttemptHarvest | src/main/java/wiki/creeper/farmGather/harvest/HarvestManager.java:70-93 | With no profile, "not loaded" is returned first. A failing guard is returned with the profile unchanged. |
| Harvest.CooldownGate | src/main/java/wiki/creeper/farmGather/harvest/HarvestManager.java:95-102 | Past the guards, the attempt is refused for the action cooldown exactly when now is before the stored end. A refusal leaves the profile untouched. |
| Harvest.CancelRollsBack | src/main/java/wiki/creeper/farmGather/harvest/HarvestManager.java:180-185 | A cancelled harvest keeps the streak fields from before the attempt; only the cooldown reset and override housekeeping remain. |
| Harvest.HarvestCommits | src/main/java/wiki/creeper/farmGather/harvest/HarvestManager.java:197-211 | A completed harvest passed every guard and the cooldown. It stamps the harvest and guild times, sets the next cooldown end, and sets an expiry no earlier than now. The committed figures are in range and the uuid is kept. |
| Harvest.HarvestThenCooldown | src/main/java/wiki/creeper/farmGather/harvest/HarvestManager.java:206-210 | Right after a completed harvest, another attempt before the action cooldown ends is refused and changes nothing. |
| Harvest.BonusGrows | src/main/java/wiki/creeper/farmGather/harvest/HarvestManager.java:123 | The bonus never shrinks as the streak grows, and never passes its cap. |
| Harvest.BonusSaturates | src/main/java/wiki/creeper/farmGather/harvest/HarvestManager.java:123-125 | Streaks past the cap earn the same bonus and the same experience. |
| Commands.ClampLevel | src/main/java/wiki/creeper/farmGather/command/FarmGatherCommand.java:298-302 | The level is max(1, min(cap, v)): in range it is kept, above the cap it is the cap, below 1 it is 1. |
| Commands.HandleLevel | src/main/java/wiki/creeper/farmGather/command/FarmGatherCommand.java:281-304 | "get" changes nothing, and an unknown action is refused. A missing value, or one `Integer.parseInt` refuses, is refused; digits of any script count. Set and add change only the level and XP: the level lands in [1, cap] and the XP becomes 0. |
| Commands.LevelSetAndAdd | src/main/java/wiki/creeper/farmGather/command/FarmGatherCommand.java:297-304 | "set v" gives the clamp of v, and "add v" gives the clamp of level + v. Both reset XP and land in [1, cap]. |
| Commands.LevelSetTwice | src/main/java/wiki/creeper/farmGather/command/FarmGatherCommand.java:297-304 | Setting a level twice equals setting it once, and the action's letter case does not matter. |
| Commands.GiveHoeCheck | src/main/java/wiki/creeper/farmGather/command/FarmGatherCommand.java:171-190 | An unknown skill is refused first, then a level `Integer.parseInt` refuses (digits of any script count). A pair is accepted exactly for a known skill and a level in 1..5, and carries that skill and the parsed level. |
| Commands.GiveHoeAccepts | src/main/java/wiki/creeper/farmGather/command/FarmGatherCommand.java:171-190 | Every skill, named in either case, is accepted at every level from 1 to 5. |
| Commands.ScriptDigitGiveHoe | src/main/java/wiki/creeper/farmGather/command/FarmGatherCommand.java:171-190 | A fullwidth "３" gives a level-3 hoe, as `Integer.parseInt` reads it. |
| Commands.ScriptDigitLevelSet | src/main/java/wiki/creeper/farmGather/command/FarmGatherCommand.java:281-304 | "level set" with Arabic-Indic "٣٤" sets level 34 and resets the XP. |
| Commands.GiveHoeRefusesRange | src/main/java/wiki/creeper/farmGather/command/FarmGatherCommand.java:186-189 | A level outside 1..5 is always refused, as out of range when the skill is known. |
| Commands.StatsDisplay | src/main/java/wiki/creeper/farmGather/command/FarmGatherCommand.java:343-349 | "MAX" shows exactly at or above the cap, or when no range covers the level. An unsupported formula escapes. Otherwise the covering cost is shown. |
| Commands.StatsAfterGrant | src/main/java/wiki/creeper/farmGather/command/FarmGatherCommand.java:343-349 | After a grant that stops below the cap, the amount shown exceeds the XP left. After one that reaches the cap, "MAX" shows and no XP is left. |
| WorldRules.Slashed | src/main/java/wiki/creeper/farmGather/world/WorldRuleListener.java:44-46 | A label always starts with "/": one already led by "/" is kept, otherwise "/" is prepended. |
| WorldRules.NormalizeEntry | src/main/java/wiki/creeper/farmGather/world/WorldRuleListener.java:43-47 | A stored whitelist entry always starts with "/". |
| WorldRules.WhitelistOf | src/main/java/wiki/creeper/farmGather/world/WorldRuleListener.java:39-48 | The whitelist holds exactly the normalised forms of the non-null, non-blank entries. |
| WorldRules.Reload | src/main/java/wiki/creeper/farmGather/world/WorldRuleListener.java:35-49 | After a reload the restricted worlds are exactly the harvest worlds, and every whitelist entry is "/"-led. Nothing from before survives. |
| WorldRules.FirstSpace | src/main/java/wiki/creeper/farmGather/world/WorldRuleListener.java:147 | The split point is the first whitespace character, or the end of the message. |
| WorldRules.CommandLabel | src/main/java/wiki/creeper/farmGather/world/WorldRuleListener.java:147-149 | The label is "/"-led. |
| WorldRules.CommandCancelled | src/main/java/wiki/creeper/farmGather/world/WorldRuleListener.java:136-155 | Nothing is cancelled outside the restricted worlds, with the bypass permission, or for a missing or blank message. Otherwise a command is cancelled exactly when its label is not whitelisted. |
| WorldRules.WhitelistedCommandPasses | src/main/java/wiki/creeper/farmGather/world/WorldRuleListener.java:136-155 | A command whose first word is a configured whitelist entry (one without spaces) is never cancelled, whatever arguments follow. |
| WorldRules.InteractCancelled | src/main/java/wiki/creeper/farmGather/world/WorldRuleListener.java:71-97 | Only main-hand block clicks in a restricted world are cancelled, and they are cancelled exactly when the item is not a farm hoe. |
| WorldRules.InteractAfterReload | src/main/java/wiki/creeper/farmGather/world/WorldRuleListener.java:35-97 | After a reload, a main-hand block click in a configured harvest world is cancelled exactly when the player does not hold a farm hoe. Nothing else is cancelled. |
| WorldRules.InteractIgnoresWorldOrder | src/main/java/wiki/creeper/farmGather/world/WorldRuleListener.java:35-52 | Two configurations naming the same harvest worlds, in any order and with any repeats, cancel the same interactions. |
| Config.ParseRange | src/main/java/wiki/creeper/farmGather/config/PluginConfig.java:373-377 | The minimum is the first element and the maximum the last; elements in between are ignored. An empty list is the failure case. |
| Config.BuildEntry | src/main/java/wiki/creeper/farmGather/config/PluginConfig.java:392-401 | An entry is built exactly when scale, formula and a non-empty range are present. It carries that scale, that formula and the parsed range. |
| Config.BuildFrom | src/main/java/wiki/creeper/farmGather/config/PluginConfig.java:392-401 | The build succeeds exactly when every map builds, and then entry i is map i's entry. Otherwise the error is that of the first map that fails: every earlier map builds. |
| Config.BuildPiecewise | src/main/java/wiki/creeper/farmGather/config/PluginConfig.java:392-401 | The result has exactly one entry per raw map, in input order. It fails exactly when some map is malformed, and then with the first malformed map's error. |
| JavaText.JavaSplitJoin | src/main/java/wiki/creeper/farmGather/storage/ProfileSkillCodec.java:21-34 | Java's split undoes a join of non-empty, separator-free pieces. |
| JavaText.ParseShowInt | src/main/java/wiki/creeper/farmGather/storage/RedisPlayerDataStore.java:133-142 | parseInt reads back the decimal form of any int in range. |
| JavaText.ScriptDigits | src/main/java/wiki/creeper/farmGather/storage/RedisPlayerDataStore.java:133-142 | parseInt reads fullwidth and Arabic-Indic digits ("３" is 3, "-٣٤" is -34). It refuses a digit outside the Basic Multilingual Plane, a lone sign, and a trailing letter. |
| JavaText.DigitRun | src/main/java/wiki/creeper/farmGather/storage/RedisPlayerDataStore.java:133-142 | Every digit `Character.digit` accepts lies in a run of ten consecutive Basic Multilingual Plane characters, starting at a zero, whose k-th character reads as k. |

## Left out

- Asynchronous execution. Futures, executors and `join` become sequential return values.
- The JDBC SQL text, connections and table creation. A table is a map from uuid to `JdbcStore.Row`, and the upsert replaces the whole row.
- The Jedis calls, connection pools and storage fallback wiring. A Redis hash is a `map` from field to text. Fault flags say which operations fail, and whether a failing save fails before or after its `del`.
- `String.valueOf(double)` and `Double.parseDouble` in the hash. They are a `RealText` parameter. Java's text reads back every finite double; the read-back lemmas ask this only of the values actually written (`RedisStore.ReadsBack`, `RedisStore.RealsReadBackFor`), and `RedisStore.SomeTextReadsBack` shows such a text exists for every profile.
- Bukkit and Paper surfaces: items and their tags, material tags, drops and inventory, boss bars, messages, permissions and player lookup.
- `GuildService`: its context is a parameter of the harvest.
- The random draws and the `log2` of the extra-drop roll. They are the `Draws` parameter; the extra drop arrives as a boolean.
- The event's listeners, modelled as the `decide` parameter. Listeners that mutate the profile object directly are not modelled; only the event's figures come back.
- `MathUtil.wrapDegrees` and the view-angle and target-distance settings: nothing in the harvest path reads them, and the `OUT_OF_RANGE` and `VIEW_ANGLE` results are never returned. `last_yaw`, `last_pitch` and `last_target_distance` are stored and loaded as plain values.
- `onLeftClick` and `refreshActiveHoeSkill` of `SkillManager`: they deal with items.
- World reset and configuration loading from Bukkit sections.
- Java `int` and `long` overflow: values are unbounded integers. This covers `level + value` in `level add`, the `(long)` casts of milliseconds, and the `int` arithmetic of the low-tier polynomial `375 + 50 * level + 9 * level * level` (ProgressionService.java:77), which overflows from level 15445 on.
- NaN and the infinities of doubles: values are reals.
- `toLowerCase(Locale.ROOT)` beyond ASCII: only ASCII letters are lowered.
- Null keys and null skill-type strings. A key is always a string.
- The `ClassCastException` `buildPiecewise` raises for a non-numeric scale or non-list range. Raw entries are already typed.
- The difference between a thrown exception and a failed future for the caller. Both are a failed outcome. A call to a closed store and a failing database close hook throw at once (`Fault.StoreClosed`, `Fault.CloseFailed`); inside the hybrid they escape its `exceptionally` handlers, and the model follows that.
- The flush that `level set|add` triggers after the change.
- `Skills.HandleFocus`: the check for whether the player holds the focus skill happens before the call. The skill level is passed in.
- `Harvest.AttemptHarvest`: its own contract covers the guards only. The cooldown, cancel and commit paths are stated by `Harvest.CooldownGate`, `Harvest.CancelRollsBack` and `Harvest.HarvestCommits`.
- `Combo.ApplyCombo`: the count is at least 1 only when the previous count is non-negative. This holds for every count the plugin stores.
- `Sessions.FlushAllSync`: its contract only says the sessions are kept. The stored result is stated for the in-memory store by `Sessions.FlushAllToMemory`, because the others depend on fault flags and save order.
- `Commands.StatsDisplay`: a finite but huge cost that a double would show as infinite is shown as an amount.
- `RedisStore.SerializeApply`: it holds for int and long values in range, and for double fields the text form reads back. `IntegersReadBack`, `ClockReadingsReadBack` and `OptionalsReadBack` need no assumption about the double text.
- Object sharing in the in-memory store: Java stores the live profile object, so the session and the store alias it and later changes show through a load (`InMemoryPlayerDataStore.java:19-22`, `ProfileManager.java:22-23`). The model stores a value, so a load returns the profile as it was when saved.
- Hash fields other than the nineteen the plugin writes. `RedisStore.Hash` is keyed by those fields, so a hash holding only foreign fields cannot be represented. Java would load it as a default profile rather than as none (`RedisPlayerDataStore.java:40-44`).
- `RedisStore.Apply`: the `(float)` narrowing of the yaw and pitch read back is not modelled. The value read is kept as a real.
- `JdbcStore.MapProfile`: `getFloat` on the yaw and pitch columns is not modelled. The value stored is kept as a real.

=== FILE: combo.dfy ===
/**
 * `ComboService`: the combo window, which shrinks linearly with the player's
 * level down to a floor, and the streak counter, which grows while the same
 * block is harvested before the previous harvest's window runs out.
 */
module Combo {
  import opened Wrappers
  import opened Config
  import opened Profiles
  import opened JavaMath

  /** `ComboResult`: the new streak length, the window used and whether the
      streak went on rather than restarting. */
  datatype ComboResult = ComboResult(comboCount: int, windowSeconds: real, continued: bool)

  /** `computeComboWindow`: `base · (1 − decay · level)` seconds, never below the minimum. */
  function ComboWindow(cfg: ComboConfig, level: int): (r: real)
    ensures r >= cfg.minWindowSec
    ensures r >= cfg.baseWindowSec * (1.0 - cfg.perLevelDecayRate * level as real)
    ensures r == cfg.minWindowSec || r == cfg.baseWindowSec * (1.0 - cfg.perLevelDecayRate * level as real)
  {
    MaxReal(cfg.baseWindowSec * (1.0 - cfg.perLevelDecayRate * level as real), cfg.minWindowSec)
  }

  /** The window in effect: a present override replaces the level-based one. */
  function EffectiveWindow(cfg: ComboConfig, level: int, override: Option<real>): real {
    override.GetOr(ComboWindow(cfg, level))
  }

  /** The streak continues: the same block as last time (no previous block never
      matches) and no later than the stored expiry. */
  predicate Continues(p: Profile, blockType: string, now: int) {
    p.lastBlockType == Some(blockType) && now <= p.comboExpireAt
  }

  /** `applyCombo`: the profile afterwards and the result. Exactly the last block
      type, the count and the expiry change; the expiry is `now` plus the window
      in milliseconds, cast toward zero. */
  function ApplyCombo(cfg: ComboConfig, p: Profile, blockType: string, now: int, level: int, override: Option<real>)
    : (r: (Profile, ComboResult))
    ensures r.1.continued <==> p.lastBlockType == Some(blockType) && now <= p.comboExpireAt
    ensures r.1.continued ==> r.1.comboCount == p.comboCount + 1
    ensures !r.1.continued ==> r.1.comboCount == 1
    ensures p.comboCount >= 0 ==> r.1.comboCount >= 1
    ensures override.Some? ==> r.1.windowSeconds == override.value
    ensures override.None? ==> r.1.windowSeconds == ComboWindow(cfg, level)
    ensures r.0.lastBlockType == Some(blockType) && r.0.comboCount == r.1.comboCount
    ensures r.0.comboExpireAt == now + Trunc(r.1.windowSeconds * 1000.0)
    ensures r.0.(lastBlockType := p.lastBlockType, comboCount := p.comboCount, comboExpireAt := p.comboExpireAt) == p
  {
    var window := EffectiveWindow(cfg, level, override);
    var continued := Continues(p, blockType, now);
    var count := if continued then p.comboCount + 1 else 1;
    (p.(lastBlockType := Some(blockType), comboCount := count, comboExpireAt := now + Trunc(window * 1000.0)),
     ComboResult(count, window, continued))
  }

  /** With a non-negative base and decay, a higher level never gets a longer window. */
  lemma WindowShrinks(cfg: ComboConfig, lo: int, hi: int)
    requires cfg.baseWindowSec >= 0.0 && cfg.perLevelDecayRate >= 0.0
    requires lo <= hi
    ensures ComboWindow(cfg, hi) <= ComboWindow(cfg, lo)
  {
    var b := cfg.baseWindowSec;
    var d := cfg.perLevelDecayRate;
    ScaleMonotone(lo as real, hi as real, d);
    ScaleMonotone(1.0 - d * hi as real, 1.0 - d * lo as real, b);
  }

  /** An override makes the outcome independent of the level and of the
      configured window curve. */
  lemma OverrideDecides(cfg: ComboConfig, other: ComboConfig, p: Profile, blockType: string, now: int,
                        level: int, otherLevel: int, w: real)
    ensures ApplyCombo(cfg, p, blockType, now, level, Some(w)) == ApplyCombo(other, p, blockType, now, otherLevel, Some(w))
  {
  }

  /** Harvests of one block type at the given clock readings, with no override. */
  function Streak(cfg: ComboConfig, p: Profile, blockType: string, times: seq<int>, level: int): Profile
    decreases |times|
  {
    if |times| == 0 then p
    else Streak(cfg, ApplyCombo(cfg, p, blockType, times[0], level, None).0, blockType, times[1..], level)
  }

  /** Each harvest after the first falls inside the window the previous one opened. */
  predicate Paced(times: seq<int>, windowMillis: int) {
    forall i | 0 <= i < |times| - 1 :: times[i + 1] <= times[i] + windowMillis
  }

  /** A paced run of `n` harvests of one block adds `n` to a streak the first
      harvest continues, and leaves a streak of exactly `n` otherwise. */
  lemma {:induction false} StreakLength(cfg: ComboConfig, p: Profile, blockType: string, times: seq<int>, level: int)
    requires |times| > 0
    requires Paced(times, Trunc(ComboWindow(cfg, level) * 1000.0))
    ensures Streak(cfg, p, blockType, times, level).comboCount ==
              (if Continues(p, blockType, times[0]) then p.comboCount else 0) + |times|
    ensures Streak(cfg, p, blockType, times, level).lastBlockType == Some(blockType)
    decreases |times|
  {
    var q := ApplyCombo(cfg, p, blockType, times[0], level, None).0;
    if |times| > 1 {
      var rest := times[1..];
      assert rest[0] == times[1];
      assert Continues(q, blockType, rest[0]);
      assert Paced(rest, Trunc(ComboWindow(cfg, level) * 1000.0)) by {
        forall i | 0 <= i < |rest| - 1
          ensures rest[i + 1] <= rest[i] + Trunc(ComboWindow(cfg, level) * 1000.0)
        {
          assert rest[i] == times[i + 1] && rest[i + 1] == times[i + 2];
        }
      }
      StreakLength(cfg, q, blockType, rest, level);
    }
  }
}

=== FILE: command.dfy ===
/**
 * The decisions of three `/fg` sub-commands: `level set|add`, which clamps the
 * new level into `[1, cap]` and clears the experience; `givehoe`, which
 * validates the skill name and a level between 1 and 5 before any item exists;
 * and `stats`, which shows "MAX" in place of an unreachable next level.
 * Messages, permissions and player lookup are not part of this model.
 */
module Commands {
  import opened Wrappers
  import opened HoeSkills
  import opened Profiles
  import opened Config
  import JavaText
  import Progression

  // ---------------------------------------------------------------------------
  // level
  // ---------------------------------------------------------------------------

  /** Why `level` did not change the profile: the value is missing, is not an
      `int`, or the action is none of get, set and add. */
  datatype LevelError = MissingValue | NotAnInteger | UnknownAction

  /** `max(1, min(cap, v))`. */
  function ClampLevel(cap: int, v: int): (r: int)
    ensures r >= 1
    ensures cap >= 1 ==> r <= cap
    ensures 1 <= v <= cap ==> r == v
    ensures v > cap && cap >= 1 ==> r == cap
    ensures v < 1 ==> r == 1
  {
    var low := if cap <= v then cap else v;
    if 1 >= low then 1 else low
  }

  /** `handleLevel` once the target's profile is found: `get` changes nothing;
      `set v` and `add v` put the clamped level in place and reset the
      experience to 0. The action is matched after lowercasing. */
  function HandleLevel(cap: int, p: Profile, action: string, value: Option<string>): (r: Result<Profile, LevelError>)
    ensures JavaText.ToLower(action) == "get" ==> r == Success(p)
    ensures JavaText.ToLower(action) !in {"get", "set", "add"} ==> r == Failure(UnknownAction)
    ensures JavaText.ToLower(action) in {"set", "add"} && value.None? ==> r == Failure(MissingValue)
    ensures JavaText.ToLower(action) in {"set", "add"} && value.Some? && JavaText.ParseJavaInt(value.value).None? ==>
              r == Failure(NotAnInteger)
    ensures r.Success? ==> r.value.(level := p.level, xp := p.xp) == p
    ensures r.Success? && r.value != p ==> r.value.xp == 0.0 && r.value.level >= 1
    ensures r.Success? && cap >= 1 ==> r.value.level == p.level || 1 <= r.value.level <= cap
  {
    var verb := JavaText.ToLower(action);
    if verb == "get" then Success(p)
    else if verb != "set" && verb != "add" then Failure(UnknownAction)
    else if value.None? then Failure(MissingValue)
    else match JavaText.ParseJavaInt(value.value)
      case None => Failure(NotAnInteger)
      case Some(v) =>
        var target := if verb == "set" then v else p.level + v;
        Success(p.(level := ClampLevel(cap, target), xp := 0.0))
  }

  /** Setting a level with a valid cap always lands in `[1, cap]` with no
      experience; adding is setting the sum. */
  lemma LevelSetAndAdd(cap: int, p: Profile, text: string)
    requires cap >= 1
    requires JavaText.ParseJavaInt(text).Some?
    ensures var v := JavaText.ParseJavaInt(text).value;
            && HandleLevel(cap, p, "set", Some(text)) == Success(p.(level := ClampLevel(cap, v), xp := 0.0))
            && HandleLevel(cap, p, "add", Some(text)) == Success(p.(level := ClampLevel(cap, p.level + v), xp := 0.0))
            && 1 <= HandleLevel(cap, p, "set", Some(text)).value.level <= cap
            && 1 <= HandleLevel(cap, p, "add", Some(text)).value.level <= cap
  {
    assert JavaText.ToLower("set") == "set";
    assert JavaText.ToLower("add") == "add";
  }

  /** Setting a level is idempotent, and its letter case does not matter. */
  lemma LevelSetTwice(cap: int, p: Profile, text: string)
    requires JavaText.ParseJavaInt(text).Some?
    ensures var once := HandleLevel(cap, p, "set", Some(text));
            && once.Success?
            && HandleLevel(cap, once.value, "set", Some(text)) == once
            && HandleLevel(cap, p, "SET", Some(text)) == once
  {
    assert JavaText.ToLower("set") == "set";
    assert JavaText.ToLower("SET") == "set";
  }

  // ---------------------------------------------------------------------------
  // givehoe
  // ---------------------------------------------------------------------------

  /** The levels a skill hoe can be given with. */
  const MIN_HOE_LEVEL: int := 1
  const MAX_HOE_LEVEL: int := 5

  /** Why `givehoe` refused, in the order it checks. */
  datatype GiveHoeError = UnknownSkill | LevelNotNumber | LevelOutOfRange

  /** `handleGiveHoe` once the target is online: the skill name first, then the
      level text, then its range; only an accepted pair makes a hoe. */
  function GiveHoeCheck(skillKey: string, levelText: string): (r: Result<(SkillType, int), GiveHoeError>)
    ensures FromKey(skillKey).Failure? <==> r == Failure(UnknownSkill)
    ensures r == Failure(LevelNotNumber) <==> FromKey(skillKey).Success? && JavaText.ParseJavaInt(levelText).None?
    ensures r.Success? <==>
              FromKey(skillKey).Success? && JavaText.ParseJavaInt(levelText).Some?
              && MIN_HOE_LEVEL <= JavaText.ParseJavaInt(levelText).value <= MAX_HOE_LEVEL
    ensures r.Success? ==> NameMatches(skillKey, r.value.0) && r.value.1 == JavaText.ParseJavaInt(levelText).value
  {
    match FromKey(skillKey)
    case Failure(_) => Failure(UnknownSkill)
    case Success(t) =>
      match JavaText.ParseJavaInt(levelText)
      case None => Failure(LevelNotNumber)
      case Some(level) =>
        if level < MIN_HOE_LEVEL || level > MAX_HOE_LEVEL then Failure(LevelOutOfRange)
        else Success((t, level))
  }

  /** Every skill at every allowed level is accepted when written as the skill's
      name (in either case) and the level's decimal form. */
  lemma GiveHoeAccepts(t: SkillType, level: int)
    requires MIN_HOE_LEVEL <= level <= MAX_HOE_LEVEL
    ensures GiveHoeCheck(Name(t), JavaText.ShowInt(level)) == Success((t, level))
    ensures GiveHoeCheck(JavaText.ToLower(Name(t)), JavaText.ShowInt(level)) == Success((t, level))
  {
    FromKeyName(t);
    FromKeyLowerName(t);
    JavaText.ParseShowInt(level, JavaText.INT_MIN, JavaText.INT_MAX);
  }

  /** The level may be written in any script's decimal digits, as
      `Integer.parseInt` reads them: a fullwidth three gives a level-3 hoe. */
  lemma ScriptDigitGiveHoe()
    ensures GiveHoeCheck("sweep", "\U{FF13}") == Success((Sweep, 3))
  {
  }

  /** `level set` with Arabic-Indic digits sets the level they spell. */
  lemma ScriptDigitLevelSet(cap: int, p: Profile)
    requires cap >= 34
    ensures HandleLevel(cap, p, "set", Some("\U{0663}\U{0664}")) == Success(p.(level := 34, xp := 0.0))
  {
    JavaText.ScriptDigits();
    LevelSetAndAdd(cap, p, "\U{0663}\U{0664}");
    assert ClampLevel(cap, 34) == 34;
  }

  /** A level outside 1..5 is refused whatever the skill, unless the skill is
      unknown, which is reported first. */
  lemma GiveHoeRefusesRange(skillKey: string, level: int)
    requires JavaText.InIntRange(level) && !(MIN_HOE_LEVEL <= level <= MAX_HOE_LEVEL)
    ensures GiveHoeCheck(skillKey, JavaText.ShowInt(level)).Failure?
    ensures FromKey(skillKey).Success? ==> GiveHoeCheck(skillKey, JavaText.ShowInt(level)) == Failure(LevelOutOfRange)
  {
    JavaText.ParseShowInt(level, JavaText.INT_MIN, JavaText.INT_MAX);
  }

  // ---------------------------------------------------------------------------
  // stats
  // ---------------------------------------------------------------------------

  /** What `stats` shows as the experience to the next level. */
  datatype NextDisplay = Max | Amount(xp: real)

  /** `handleStats`: "MAX" at or above the cap and where no curve entry covers
      the level; an unsupported formula tag is not caught and escapes. */
  function StatsDisplay(cfg: ProgressionConfig, level: int): (r: Result<NextDisplay, Progression.CurveError>)
    ensures r == Success(Max) <==>
              level >= cfg.cap || Progression.CostBelowCap(cfg, level) == Failure(Progression.NoFormulaForLevel(level))
    ensures r.Failure? <==>
              (level < cfg.cap && Progression.CostBelowCap(cfg, level).Failure?
               && Progression.CostBelowCap(cfg, level).error.UnsupportedFormula?)
    ensures r.Success? && r.value.Amount? ==>
              level < cfg.cap && Progression.CostBelowCap(cfg, level) == Success(r.value.xp)
  {
    match Progression.XpToNextLevel(cfg, level)
    case Success(Infinite) => Success(Max)
    case Success(Finite(c)) => Success(Amount(c))
    case Failure(NoFormulaForLevel(_)) => Success(Max)
    case Failure(e) => Failure(e)
  }

  /** After a grant that stops below the cap, `stats` shows an amount that the
      remaining experience has not reached; after one that reaches the cap it
      shows "MAX". */
  lemma StatsAfterGrant(cfg: ProgressionConfig, p: Profile, amount: real)
    requires amount > 0.0
    requires Progression.AddXp(cfg, p, amount).Success?
    ensures var g := Progression.AddXp(cfg, p, amount).value;
            && (g.1.level < cfg.cap ==>
                  StatsDisplay(cfg, g.1.level).Success? && StatsDisplay(cfg, g.1.level).value.Amount?
                  && g.0.xp < StatsDisplay(cfg, g.1.level).value.xp)
            && (g.1.level == cfg.cap ==> StatsDisplay(cfg, g.1.level) == Success(Max) && g.0.xp == 0.0)
  {
  }
}

=== FILE: harvest.dfy ===
/**
 * The profile-state transitions of `HarvestManager.attemptHarvest`: the guard
 * sequence, the action cooldown, the combo-override housekeeping, the combo
 * step, the experience figures offered to the harvest event, and the rollback
 * or commit that follows the event's verdict.
 *
 * The event's listeners are a `decide` parameter: they see the provisional
 * figures and either cancel the harvest or let it proceed with figures of
 * their choosing. Random draws are parameters too.
 */
module Harvest {
  import opened Wrappers
  import opened Config
  import opened HoeSkills
  import opened Profiles
  import opened JavaMath
  import Combo
  import Progression

  /** `HarvestResult.FailReason`. */
  datatype FailReason =
    | ProfileNotLoaded | WrongWorld | InvalidTool | NotHarvestable | ActionCooldown
    | BusyState | OutOfRange | ViewAngle | Cancelled

  /** `GuildService.GuildContext`. */
  datatype GuildContext = GuildContext(sameWorldActive: bool, activeMembers: int)

  /** What the server reports about the attempt: the tool, the block's world
      and type, whether the block is harvestable, whether the player is busy,
      the clock reading and the guild context. */
  datatype Surroundings = Surroundings(
    holdsFarmHoe: bool,
    world: string,
    harvestable: bool,
    busy: bool,
    blockType: string,
    now: int,
    guild: GuildContext
  )

  /** The random draws of one attempt: uniform reals in `[0, 1)` for the guild
      bonus and the double tap, and the outcome of the extra-drop roll. */
  datatype Draws = Draws(guild: real, extraDrop: bool, doubleTap: real)

  /** The figures a `FarmGatherHarvestEvent` carries and its listeners may change. */
  datatype Figures = Figures(
    comboCount: int,
    windowSeconds: real,
    xpBonusPercent: real,
    xpGained: int,
    guildBonus: bool,
    extraDrop: bool,
    doubleTap: bool,
    doubleTapMultiplier: real
  )

  /** What the event's listeners leave behind: cancelled, or figures to commit. */
  datatype Verdict = Cancel | Proceed(figures: Figures)

  datatype HarvestResult = Failed(reason: FailReason) | Harvested(figures: Figures, levelUp: Progression.LevelUpResult)

  /** The session's profile afterwards (absent when none was loaded) and the
      result, or the curve defect `addXp` threw after the combo was committed. */
  datatype Attempt = Attempt(profile: Option<Profile>, result: Result<HarvestResult, Progression.CurveError>)

  // ---------------------------------------------------------------------------
  // Steps
  // ---------------------------------------------------------------------------

  /** The guards after the profile lookup, in order: tool, world, block, busy. */
  function FirstGuard(cfg: HarvestConfig, s: Surroundings): (r: Option<FailReason>)
    ensures r.None? <==> s.holdsFarmHoe && s.world in cfg.worlds && s.harvestable && !s.busy
    ensures !s.holdsFarmHoe ==> r == Some(InvalidTool)
    ensures s.holdsFarmHoe && s.world !in cfg.worlds ==> r == Some(WrongWorld)
    ensures s.holdsFarmHoe && s.world in cfg.worlds && !s.harvestable ==> r == Some(NotHarvestable)
    ensures s.holdsFarmHoe && s.world in cfg.worlds && s.harvestable && s.busy ==> r == Some(BusyState)
  {
    if !s.holdsFarmHoe then Some(InvalidTool)
    else if s.world !in cfg.worlds then Some(WrongWorld)
    else if !s.harvestable then Some(NotHarvestable)
    else if s.busy then Some(BusyState)
    else None
  }

  /** An action cooldown that has run out is reset to 0. The reset never changes
      whether the player is still on cooldown. */
  function ExpireCooldown(p: Profile, now: int): (r: Profile)
    ensures 0 < p.actionCooldownEnd <= now ==> r.actionCooldownEnd == 0
    ensures !(0 < p.actionCooldownEnd <= now) ==> r == p
    ensures r.(actionCooldownEnd := p.actionCooldownEnd) == p
    ensures now < r.actionCooldownEnd <==> now < p.actionCooldownEnd
  {
    if p.actionCooldownEnd > 0 && now >= p.actionCooldownEnd then p.(actionCooldownEnd := 0) else p
  }

  /** The stored override is handed to the combo step while it lasts; one that
      has expired is cleared. */
  function SelectOverride(p: Profile, now: int): (r: (Profile, Option<real>))
    ensures r.1.Some? <==> p.comboOverrideUntil > now
    ensures r.1.Some? ==> r.1.value == p.comboOverrideWindow && r.0 == p
    ensures r.1.None? && p.comboOverrideUntil != 0 ==> r.0 == ClearComboOverride(p)
    ensures p.comboOverrideUntil == 0 ==> r.0 == p
  {
    if p.comboOverrideUntil > now then (p, Some(p.comboOverrideWindow))
    else if p.comboOverrideUntil != 0 then (ClearComboOverride(p), None)
    else (p, None)
  }

  /** The cooldown reset and the override housekeeping, which persist whatever
      the event decides. */
  function Housekeeping(p: Profile, now: int): Profile {
    SelectOverride(ExpireCooldown(p, now), now).0
  }

  /** The experience bonus of a streak: a fixed share per harvest after the
      first, capped. */
  function XpBonus(cfg: ComboConfig, comboCount: int): (r: real)
    ensures r <= cfg.xpBonusCap
    ensures cfg.xpBonusPerStack >= 0.0 && cfg.xpBonusCap >= 0.0 ==> r >= 0.0
    ensures comboCount >= 1 ==> r == MinReal((comboCount - 1) as real * cfg.xpBonusPerStack, cfg.xpBonusCap)
    ensures comboCount <= 1 ==> r == MinReal(0.0, cfg.xpBonusCap)
  {
    var stacks := if comboCount - 1 > 0 then comboCount - 1 else 0;
    MinReal(stacks as real * cfg.xpBonusPerStack, cfg.xpBonusCap)
  }

  /** The base experience scaled by the bonus, rounded to the nearest whole point. */
  function BaseXp(basePerHarvest: real, bonus: real): (r: int)
    ensures r as real - 0.5 <= basePerHarvest * (1.0 + bonus) < r as real + 0.5
  {
    Round(basePerHarvest * (1.0 + bonus))
  }

  /** The guild bonus chance: a base plus a share per active member, capped. */
  function GuildChance(cfg: GuildBonusConfig, ctx: GuildContext): (r: real)
    ensures r <= cfg.chanceCap
  {
    MinReal(cfg.baseChance + cfg.perMemberInc * ctx.activeMembers as real, cfg.chanceCap)
  }

  /** Whether the guild bonus point is granted: only with guild members active
      in the same world, and only when the draw falls under the chance. */
  function GuildBonus(cfg: GuildBonusConfig, ctx: GuildContext, draw: real): (r: bool)
    ensures r ==> ctx.sameWorldActive && draw < cfg.chanceCap
    ensures r <==> ctx.sameWorldActive && draw < GuildChance(cfg, ctx)
  {
    ctx.sameWorldActive && draw < GuildChance(cfg, ctx)
  }

  /** The chance cap of a double tap. */
  const DOUBLE_TAP_CHANCE_CAP: real := 0.5

  /** The player's double-tap level, when the skill is held, enabled and positive. */
  function DoubleTapLevel(cfg: DoubleTapConfig, p: Profile): (r: Option<int>)
    ensures r.Some? <==> DoubleTap in p.skills && cfg.enabled && p.skills[DoubleTap] > 0
    ensures r.Some? ==> r.value == p.skills[DoubleTap] && r.value >= 1
  {
    if DoubleTap in p.skills && cfg.enabled && p.skills[DoubleTap] > 0 then Some(p.skills[DoubleTap]) else None
  }

  /** A double tap may happen only on the same block as the previous harvest,
      within the configured window after it. */
  predicate DoubleTapWindow(cfg: DoubleTapConfig, before: Profile, blockType: string, now: int) {
    before.lastBlockType == Some(blockType) && (now - before.lastHarvestAt) as real <= cfg.windowSec * 1000.0
  }

  /** The double-tap chance at a skill level, never above the cap. */
  function DoubleTapChance(cfg: DoubleTapConfig, level: int): (r: real)
    ensures r <= DOUBLE_TAP_CHANCE_CAP
  {
    MinReal(cfg.chanceBase + cfg.chancePerLevel * (level - 1) as real, DOUBLE_TAP_CHANCE_CAP)
  }

  /** The double-tap roll against the profile as it was before the combo step:
      whether it triggered and the drop multiplier, which is 1 unless it did. */
  function DoubleTapRoll(cfg: PluginConfig, before: Profile, blockType: string, now: int, draw: real): (r: (bool, real))
    ensures r.0 <==> DoubleTapLevel(cfg.skills.doubleTap, before).Some?
                     && DoubleTapWindow(cfg.skills.doubleTap, before, blockType, now)
                     && draw < DoubleTapChance(cfg.skills.doubleTap, before.skills[DoubleTap])
    ensures r.0 ==> draw < DOUBLE_TAP_CHANCE_CAP
    ensures !r.0 ==> r.1 == 1.0
    ensures r.0 && !cfg.extraDrop.doubletapMultiplies ==> r.1 == 2.0
    ensures r.0 && cfg.extraDrop.doubletapMultiplies ==> r.1 == 1.3 + 0.05 * (before.skills[DoubleTap] - 1) as real
  {
    match DoubleTapLevel(cfg.skills.doubleTap, before)
    case None => (false, 1.0)
    case Some(level) =>
      if DoubleTapWindow(cfg.skills.doubleTap, before, blockType, now)
         && draw < DoubleTapChance(cfg.skills.doubleTap, level)
      then (true, if cfg.extraDrop.doubletapMultiplies then 1.3 + 0.05 * (level - 1) as real else 2.0)
      else (false, 1.0)
  }

  /** The figures offered to the harvest event. */
  function Provisional(cfg: PluginConfig, before: Profile, s: Surroundings, draws: Draws, combo: Combo.ComboResult): (r: Figures)
    ensures r.comboCount == combo.comboCount && r.windowSeconds == combo.windowSeconds
    ensures r.xpBonusPercent == XpBonus(cfg.combo, combo.comboCount)
    ensures r.guildBonus == GuildBonus(cfg.xp.guildBonus, s.guild, draws.guild)
    ensures r.xpGained == BaseXp(cfg.xp.basePerHarvest, r.xpBonusPercent) + (if r.guildBonus then 1 else 0)
    ensures r.extraDrop == draws.extraDrop
    ensures (r.doubleTap, r.doubleTapMultiplier) == DoubleTapRoll(cfg, before, s.blockType, s.now, draws.doubleTap)
  {
    var bonus := XpBonus(cfg.combo, combo.comboCount);
    var base := BaseXp(cfg.xp.basePerHarvest, bonus);
    var guild := GuildBonus(cfg.xp.guildBonus, s.guild, draws.guild);
    var tap := DoubleTapRoll(cfg, before, s.blockType, s.now, draws.doubleTap);
    Figures(combo.comboCount, combo.windowSeconds, bonus, if guild then base + 1 else base,
            guild, draws.extraDrop, tap.0, tap.1)
  }

  /** A cancelled event puts back the streak fields the combo step changed. */
  function RollBack(combined: Profile, before: Profile): (r: Profile)
    ensures r.comboCount == before.comboCount && r.comboExpireAt == before.comboExpireAt
    ensures r.lastBlockType == before.lastBlockType
  {
    combined.(comboCount := before.comboCount, comboExpireAt := before.comboExpireAt, lastBlockType := before.lastBlockType)
  }

  /** The figures as committed: experience not below 0, multiplier not below 1. */
  function Clamped(f: Figures): (r: Figures)
    ensures r.xpGained >= 0 && r.doubleTapMultiplier >= 1.0
    ensures f.xpGained >= 0 ==> r.xpGained == f.xpGained
    ensures f.doubleTapMultiplier >= 1.0 ==> r.doubleTapMultiplier == f.doubleTapMultiplier
    ensures r.(xpGained := f.xpGained, doubleTapMultiplier := f.doubleTapMultiplier) == f
  {
    f.(xpGained := if f.xpGained > 0 then f.xpGained else 0,
       doubleTapMultiplier := MaxReal(1.0, f.doubleTapMultiplier))
  }

  /** The commit after a proceeding event: the streak takes the event's count and
      an expiry of the event's window (never negative) from now; the experience
      is granted when positive; the harvest time, the next action cooldown and
      the guild harvest time are stamped. A curve defect thrown by `addXp`
      leaves the streak committed and nothing after it. */
  function Commit(cfg: PluginConfig, p: Profile, now: int, f: Figures): (r: Attempt)
    ensures r.profile.Some?
    ensures var q := p.(comboCount := f.comboCount, comboExpireAt := now + Trunc(MaxReal(f.windowSeconds, 0.0) * 1000.0));
            && (r.result.Failure? ==>
                  r.profile.value == q && Progression.AddXp(cfg.progression, q, Clamped(f).xpGained as real).Failure?)
            && (r.result.Success? ==>
                  && Progression.AddXp(cfg.progression, q, Clamped(f).xpGained as real).Success?
                  && r.result.value == Harvested(Clamped(f), Progression.AddXp(cfg.progression, q, Clamped(f).xpGained as real).value.1)
                  && r.profile.value ==
                       Progression.AddXp(cfg.progression, q, Clamped(f).xpGained as real).value.0
                         .(lastHarvestAt := now,
                           actionCooldownEnd := now + Trunc(cfg.harvest.actionCooldownSec * 1000.0),
                           lastGuildHarvestAt := now))
  {
    var committed := Clamped(f);
    var xp := committed.xpGained;
    var q := p.(comboCount := f.comboCount, comboExpireAt := now + Trunc(MaxReal(f.windowSeconds, 0.0) * 1000.0));
    var granted :=
      if xp > 0 then Progression.AddXp(cfg.progression, q, xp as real)
      else Success((q, Progression.LevelUpResult(q.level, q.xp, [])));
    match granted
    case Failure(e) => Attempt(Some(q), Failure(e))
    case Success(g) =>
      var stamped := g.0.(lastHarvestAt := now,
                          actionCooldownEnd := now + Trunc(cfg.harvest.actionCooldownSec * 1000.0),
                          lastGuildHarvestAt := now);
      Attempt(Some(stamped), Success(Harvested(committed, g.1)))
  }

  // ---------------------------------------------------------------------------
  // attemptHarvest
  // ---------------------------------------------------------------------------

  /** The combo step of an attempt that passed the cooldown gate: the profile
      after housekeeping, the profile after the combo step, and its result. */
  function ComboStep(cfg: PluginConfig, p: Profile, s: Surroundings): (Profile, Profile, Combo.ComboResult) {
    var before := SelectOverride(ExpireCooldown(p, s.now), s.now);
    var combined := Combo.ApplyCombo(cfg.combo, before.0, s.blockType, s.now, before.0.level, before.1);
    (before.0, combined.0, combined.1)
  }

  /** `attemptHarvest` for the session's profile (`None` when not loaded). */
  function AttemptHarvest(cfg: PluginConfig, session: Option<Profile>, s: Surroundings, draws: Draws,
                          decide: Figures -> Verdict): (r: Attempt)
    ensures session.None? ==> r == Attempt(None, Success(Failed(ProfileNotLoaded)))
    ensures session.Some? && FirstGuard(cfg.harvest, s).Some? ==>
              r == Attempt(session, Success(Failed(FirstGuard(cfg.harvest, s).value)))
  {
    match session
    case None => Attempt(None, Success(Failed(ProfileNotLoaded)))
    case Some(p) =>
      match FirstGuard(cfg.harvest, s)
      case Some(reason) => Attempt(Some(p), Success(Failed(reason)))
      case None =>
        var ready := ExpireCooldown(p, s.now);
        if s.now < ready.actionCooldownEnd then Attempt(Some(ready), Success(Failed(ActionCooldown)))
        else
          var (before, combined, combo) := ComboStep(cfg, p, s);
          match decide(Provisional(cfg, before, s, draws, combo))
          case Cancel => Attempt(Some(RollBack(combined, before)), Success(Failed(Cancelled)))
          case Proceed(f) => Commit(cfg, combined, s.now, f)
  }

  // ---------------------------------------------------------------------------
  // Properties
  // ---------------------------------------------------------------------------

  /** The profile passes every guard before the clock is read. */
  predicate GuardsPass(cfg: PluginConfig, session: Option<Profile>, s: Surroundings) {
    session.Some? && FirstGuard(cfg.harvest, s).None?
  }

  /** Past the guards, the attempt is refused for the action cooldown exactly
      when the clock is before the stored end, and then the profile is untouched. */
  lemma CooldownGate(cfg: PluginConfig, session: Option<Profile>, s: Surroundings, draws: Draws, decide: Figures -> Verdict)
    requires GuardsPass(cfg, session, s)
    ensures var r := AttemptHarvest(cfg, session, s, draws, decide);
            (r.result == Success(Failed(ActionCooldown)) <==> s.now < session.value.actionCooldownEnd)
    ensures s.now < session.value.actionCooldownEnd ==>
              AttemptHarvest(cfg, session, s, draws, decide).profile == session
  {
    var p := session.value;
    if s.now >= p.actionCooldownEnd {
      var (before, combined, combo) := ComboStep(cfg, p, s);
      match decide(Provisional(cfg, before, s, draws, combo))
      case Cancel =>
      case Proceed(f) =>
        assert Commit(cfg, combined, s.now, f).result != Success(Failed(ActionCooldown));
    }
  }

  /** A cancelled harvest leaves the streak as it was: only the cooldown reset
      and the override housekeeping survive. */
  lemma CancelRollsBack(cfg: PluginConfig, p: Profile, s: Surroundings, draws: Draws, decide: Figures -> Verdict)
    requires GuardsPass(cfg, Some(p), s) && s.now >= p.actionCooldownEnd
    requires decide(Provisional(cfg, ComboStep(cfg, p, s).0, s, draws, ComboStep(cfg, p, s).2)) == Cancel
    ensures var r := AttemptHarvest(cfg, Some(p), s, draws, decide);
            && r.result == Success(Failed(Cancelled))
            && r.profile == Some(Housekeeping(p, s.now))
            && r.profile.value.comboCount == p.comboCount
            && r.profile.value.comboExpireAt == p.comboExpireAt
            && r.profile.value.lastBlockType == p.lastBlockType
  {
    var (before, combined, combo) := ComboStep(cfg, p, s);
    assert RollBack(combined, before) == before;
  }

  /** A committed harvest stamps the harvest time, sets the next action
      cooldown and an expiry no earlier than now, and adds exactly the
      committed experience through `addXp`. */
  lemma HarvestCommits(cfg: PluginConfig, p: Profile, s: Surroundings, draws: Draws, decide: Figures -> Verdict)
    requires AttemptHarvest(cfg, Some(p), s, draws, decide).result.Success?
    requires AttemptHarvest(cfg, Some(p), s, draws, decide).result.value.Harvested?
    ensures var r := AttemptHarvest(cfg, Some(p), s, draws, decide);
            var q := r.profile.value;
            && GuardsPass(cfg, Some(p), s) && s.now >= p.actionCooldownEnd
            && q.lastHarvestAt == s.now && q.lastGuildHarvestAt == s.now
            && q.actionCooldownEnd == s.now + Trunc(cfg.harvest.actionCooldownSec * 1000.0)
            && q.comboExpireAt >= s.now
            && q.comboCount == r.result.value.figures.comboCount
            && r.result.value.figures.xpGained >= 0 && r.result.value.figures.doubleTapMultiplier >= 1.0
            && q.uuid == p.uuid
  {
    var r := AttemptHarvest(cfg, Some(p), s, draws, decide);
    assert FirstGuard(cfg.harvest, s).None?;
    CooldownGate(cfg, Some(p), s, draws, decide);
    var (before, combined, combo) := ComboStep(cfg, p, s);
    match decide(Provisional(cfg, before, s, draws, combo))
    case Cancel =>
    case Proceed(f) =>
      var c := Clamped(f);
      var q := combined.(comboCount := f.comboCount, comboExpireAt := s.now + Trunc(MaxReal(f.windowSeconds, 0.0) * 1000.0));
      assert q.comboExpireAt >= s.now;
      var g := Progression.AddXp(cfg.progression, q, c.xpGained as real).value;
      assert g.0 == q.(level := g.1.level, xp := g.1.remainingXp);
  }

  /** Right after a committed harvest, the same attempt again before the action
      cooldown runs out is refused and changes nothing. */
  lemma HarvestThenCooldown(cfg: PluginConfig, p: Profile, s: Surroundings, draws: Draws, decide: Figures -> Verdict,
                            later: int, draws2: Draws, decide2: Figures -> Verdict)
    requires AttemptHarvest(cfg, Some(p), s, draws, decide).result.Success?
    requires AttemptHarvest(cfg, Some(p), s, draws, decide).result.value.Harvested?
    requires later < s.now + Trunc(cfg.harvest.actionCooldownSec * 1000.0)
    ensures var first := AttemptHarvest(cfg, Some(p), s, draws, decide);
            var second := AttemptHarvest(cfg, first.profile, s.(now := later), draws2, decide2);
            second == Attempt(first.profile, Success(Failed(ActionCooldown)))
  {
    HarvestCommits(cfg, p, s, draws, decide);
    var first := AttemptHarvest(cfg, Some(p), s, draws, decide);
    CooldownGate(cfg, first.profile, s.(now := later), draws2, decide2);
  }

  /** The streak bonus grows with the streak and never passes its cap. */
  lemma BonusGrows(cfg: ComboConfig, lo: int, hi: int)
    requires cfg.xpBonusPerStack >= 0.0 && lo <= hi
    ensures XpBonus(cfg, lo) <= XpBonus(cfg, hi) <= cfg.xpBonusCap
  {
    var perStack, cap := cfg.xpBonusPerStack, cfg.xpBonusCap;
    if lo >= 1 {
      ScaleMonotone((lo - 1) as real, (hi - 1) as real, perStack);
      assert XpBonus(cfg, lo) == MinReal((lo - 1) as real * perStack, cap);
      assert XpBonus(cfg, hi) == MinReal((hi - 1) as real * perStack, cap);
    } else if hi >= 1 {
      ScaleMonotone(0.0, (hi - 1) as real, perStack);
      assert XpBonus(cfg, lo) == MinReal(0.0, cap);
      assert XpBonus(cfg, hi) == MinReal((hi - 1) as real * perStack, cap);
    }
  }

  /** Past its cap a streak earns no more: two streaks both past the cap earn
      the same experience. */
  lemma BonusSaturates(cfg: ComboConfig, base: real, lo: int, hi: int)
    requires cfg.xpBonusPerStack >= 0.0 && lo <= hi
    requires lo >= 1 && (lo - 1) as real * cfg.xpBonusPerStack >= cfg.xpBonusCap
    ensures XpBonus(cfg, hi) == XpBonus(cfg, lo) == cfg.xpBonusCap
    ensures BaseXp(base, XpBonus(cfg, hi)) == BaseXp(base, XpBonus(cfg, lo))
  {
    ScaleMonotone((lo - 1) as real, (hi - 1) as real, cfg.xpBonusPerStack);
  }
}

=== FILE: hoe_skill_type.dfy ===
/**
 * The four hoe skills, their enum names and declaration order, and the
 * case-insensitive name lookup used by the skill codec and the admin command.
 */
module HoeSkills {
  import opened Wrappers
  import JavaText

  datatype SkillType = Sweep | Focus | DoubleTap | Shears

  /** `HoeSkillType.values()`: the constants in declaration order. */
  const AllTypes: seq<SkillType> := [Sweep, Focus, DoubleTap, Shears]

  /** `name()`: the constant's identifier. */
  function Name(t: SkillType): string {
    match t
    case Sweep => "SWEEP"
    case Focus => "FOCUS"
    case DoubleTap => "DOUBLETAP"
    case Shears => "SHEARS"
  }

  /** `ordinal()`: the position in declaration order. */
  function Ordinal(t: SkillType): (i: nat)
    ensures i < |AllTypes| && AllTypes[i] == t
  {
    match t
    case Sweep => 0
    case Focus => 1
    case DoubleTap => 2
    case Shears => 3
  }

  /** Maps a character onto the upper-case ASCII letter it equals under
      `String.equalsIgnoreCase`. Java compares the upper-case forms and then the
      lower-case forms of those; against an upper-case ASCII letter that admits
      the lower-case letter and four non-ASCII characters: the long s (U+017F)
      for S, the dotless i (U+0131) and dotted capital I (U+0130) for I, and the
      Kelvin sign (U+212A) for K. */
  function FoldChar(c: char): char {
    if 'a' <= c <= 'z' then (c as int - 32) as char
    else if c == '\U{17F}' then 'S'
    else if c == '\U{131}' || c == '\U{130}' then 'I'
    else if c == '\U{212A}' then 'K'
    else c
  }

  /** `Name(t).equalsIgnoreCase(key)`. */
  predicate NameMatches(key: string, t: SkillType) {
    |key| == |Name(t)| && forall i | 0 <= i < |key| :: FoldChar(key[i]) == Name(t)[i]
  }

  datatype KeyError = UnknownSkillType(key: string)

  /** `HoeSkillType.fromKey`: the first constant, in declaration order, whose
      name equals the key ignoring case; an unknown key is the
      `IllegalArgumentException` case. */
  function FromKey(key: string): (r: Result<SkillType, KeyError>)
    ensures r.Success? ==> NameMatches(key, r.value)
    ensures r.Failure? ==> r.error == UnknownSkillType(key) && forall t :: !NameMatches(key, t)
  {
    if NameMatches(key, Sweep) then Success(Sweep)
    else if NameMatches(key, Focus) then Success(Focus)
    else if NameMatches(key, DoubleTap) then Success(DoubleTap)
    else if NameMatches(key, Shears) then Success(Shears)
    else Failure(UnknownSkillType(key))
  }

  /** The enum holds exactly the four skills, each once, in declaration order. */
  lemma DeclarationOrder()
    ensures |AllTypes| == 4
    ensures forall t :: t in AllTypes
    ensures forall i, j | 0 <= i < j < |AllTypes| :: AllTypes[i] != AllTypes[j]
    ensures forall i | 0 <= i < |AllTypes| :: Ordinal(AllTypes[i]) == i
  {
    forall t ensures t in AllTypes {
      assert AllTypes[Ordinal(t)] == t;
    }
  }

  /** A key matches at most one constant, so the lookup is unambiguous. */
  lemma MatchIsUnique(key: string, t: SkillType, u: SkillType)
    requires NameMatches(key, t) && NameMatches(key, u)
    ensures t == u
  {
    assert Name(t)[0] == FoldChar(key[0]) == Name(u)[0];
    assert Name(t)[1] == FoldChar(key[1]) == Name(u)[1];
  }

  /** `fromKey(t.name())` is `t`. */
  lemma FromKeyName(t: SkillType)
    ensures FromKey(Name(t)) == Success(t)
  {
    assert NameMatches(Name(t), t);
    if FromKey(Name(t)).Success? {
      MatchIsUnique(Name(t), t, FromKey(Name(t)).value);
    }
  }

  /** `fromKey` of the lower-cased name is `t` too. */
  lemma FromKeyLowerName(t: SkillType)
    ensures FromKey(JavaText.ToLower(Name(t))) == Success(t)
  {
    var k := JavaText.ToLower(Name(t));
    assert NameMatches(k, t);
    if FromKey(k).Success? {
      MatchIsUnique(k, t, FromKey(k).value);
    }
  }

  /** The empty key names no constant. */
  lemma FromKeyEmpty()
    ensures FromKey("") == Failure(UnknownSkillType(""))
  {
  }
}

=== FILE: java_math.dfy ===
/**
 * The numeric conversions the plugin leans on, with doubles read as reals:
 * the `(long)` cast, `Math.round`, and `Math.max`/`Math.min` on doubles.
 * NaN, the infinities and the saturation of out-of-range casts are not modelled.
 */
module JavaMath {

  /** The `(long)` cast of a double: rounds toward zero. */
  function Trunc(x: real): (r: int)
    ensures x >= 0.0 ==> r as real <= x < r as real + 1.0
    ensures x < 0.0 ==> r as real - 1.0 < x <= r as real
    ensures x >= 0.0 ==> r >= 0
  {
    if x >= 0.0 then x.Floor else -((-x).Floor)
  }

  /** `Math.round(double)`: the nearest integer, halves rounded up. */
  function Round(x: real): (r: int)
    ensures r as real - 0.5 <= x < r as real + 0.5
  {
    (x + 0.5).Floor
  }

  function MaxReal(a: real, b: real): (r: real)
    ensures r >= a && r >= b && (r == a || r == b)
  {
    if a >= b then a else b
  }

  function MinReal(a: real, b: real): (r: real)
    ensures r <= a && r <= b && (r == a || r == b)
  {
    if a <= b then a else b
  }

  /** Scaling by a non-negative factor keeps the order. */
  lemma ScaleMonotone(a: real, b: real, k: real)
    requires a <= b && k >= 0.0
    ensures a * k <= b * k
  {
    assert b * k - a * k == (b - a) * k;
  }
}

=== FILE: java_text.dfy ===
/**
 * The pieces of `java.lang.String`, `Character`, `Integer.parseInt`,
 * `Long.parseLong` and `String.valueOf` that the plugin's persistence and
 * command handling depend on, written out so that their edge cases are
 * explicit: Java's whitespace classes, `trim`, `split` (which drops trailing
 * empty strings) and decimal parsing with a range check.
 */
module JavaText {
  import opened Wrappers

  const INT_MIN: int := -0x8000_0000
  const INT_MAX: int := 0x7FFF_FFFF
  const LONG_MIN: int := -0x8000_0000_0000_0000
  const LONG_MAX: int := 0x7FFF_FFFF_FFFF_FFFF

  /** A value a Java `int` can hold. */
  predicate InIntRange(n: int) { INT_MIN <= n <= INT_MAX }

  /** A value a Java `long` can hold. */
  predicate InLongRange(n: int) { LONG_MIN <= n <= LONG_MAX }

  // ---------------------------------------------------------------------------
  // Character classes
  // ---------------------------------------------------------------------------

  /** `Character.isWhitespace`: the ASCII controls 9-13 and 28-31, the space, and
      the Unicode space, line and paragraph separators other than the no-break ones. */
  predicate IsWhitespace(c: char) {
    || c == ' '
    || ('\t' <= c <= '\r')
    || ('\U{1C}' <= c <= '\U{1F}')
    || c == '\U{1680}'
    || ('\U{2000}' <= c <= '\U{2006}')
    || ('\U{2008}' <= c <= '\U{200A}')
    || c == '\U{2028}' || c == '\U{2029}' || c == '\U{205F}' || c == '\U{3000}'
  }

  /** The regular-expression class `\s`: `[ \t\n\x0B\f\r]`. */
  predicate IsRegexSpace(c: char) {
    c == ' ' || ('\t' <= c <= '\r')
  }

  /** `String.isBlank`: empty, or whitespace only. */
  predicate IsBlank(s: string) {
    forall i | 0 <= i < |s| :: IsWhitespace(s[i])
  }

  /** `String.trim` strips characters whose code is at most U+0020. */
  predicate IsTrimmable(c: char) { c <= ' ' }

  /** `toLowerCase(Locale.ROOT)` on one character, for the ASCII letters. */
  function LowerChar(c: char): (r: char)
    ensures 'A' <= c <= 'Z' ==> 'a' <= r <= 'z' && r as int == c as int + 32
    ensures !('A' <= c <= 'Z') ==> r == c
  {
    if 'A' <= c <= 'Z' then (c as int + 32) as char else c
  }

  /** `toLowerCase(Locale.ROOT)` on a string, for the ASCII letters. */
  function ToLower(s: string): (r: string)
    ensures |r| == |s|
    ensures forall i | 0 <= i < |s| :: r[i] == LowerChar(s[i])
  {
    seq(|s|, i requires 0 <= i < |s| => LowerChar(s[i]))
  }

  /** `String.startsWith`. */
  predicate StartsWith(s: string, prefix: string) {
    |prefix| <= |s| && s[..|prefix|] == prefix
  }

  /** `String.contains`: `sub` occurs somewhere in `s`. */
  predicate Contains(s: string, sub: string) {
    StartsWith(s, sub) || (|s| > 0 && Contains(s[1..], sub))
  }

  // ---------------------------------------------------------------------------
  // trim
  // ---------------------------------------------------------------------------

  /** Drops the leading trimmable characters. */
  function TrimStart(s: string): (r: string)
    ensures |r| <= |s| && r == s[|s| - |r|..]
    ensures |r| > 0 ==> !IsTrimmable(r[0])
    ensures forall k | 0 <= k < |s| - |r| :: IsTrimmable(s[k])
  {
    if |s| > 0 && IsTrimmable(s[0]) then TrimStart(s[1..]) else s
  }

  /** Drops the trailing trimmable characters. */
  function TrimEnd(s: string): (r: string)
    ensures |r| <= |s| && r == s[..|r|]
    ensures |r| > 0 ==> !IsTrimmable(r[|r| - 1])
    ensures forall k | |r| <= k < |s| :: IsTrimmable(s[k])
  {
    if |s| > 0 && IsTrimmable(s[|s| - 1]) then TrimEnd(s[..|s| - 1]) else s
  }

  /** `String.trim`: the longest middle part that neither starts nor ends with a
      character at or below U+0020; everything cut off is at or below U+0020. */
  function Trim(s: string): (r: string)
    ensures |s| - |TrimStart(s)| + |r| <= |s|
    ensures r == s[|s| - |TrimStart(s)|..|s| - |TrimStart(s)| + |r|]
    ensures forall k | 0 <= k < |s| - |TrimStart(s)| :: IsTrimmable(s[k])
    ensures forall k | |s| - |TrimStart(s)| + |r| <= k < |s| :: IsTrimmable(s[k])
    ensures |r| > 0 ==> !IsTrimmable(r[0]) && !IsTrimmable(r[|r| - 1])
  {
    var a := TrimStart(s);
    var r := TrimEnd(a);
    TrimTail(s, a, r);
    r
  }

  lemma TrimTail(s: string, a: string, r: string)
    requires |a| <= |s| && a == s[|s| - |a|..]
    requires |r| <= |a| && r == a[..|r|]
    requires forall k | |r| <= k < |a| :: IsTrimmable(a[k])
    ensures r == s[|s| - |a|..|s| - |a| + |r|]
    ensures forall k | |s| - |a| + |r| <= k < |s| :: IsTrimmable(s[k])
  {
    var i := |s| - |a|;
    forall k | i + |r| <= k < |s|
      ensures IsTrimmable(s[k])
    {
      assert s[k] == a[k - i];
    }
  }

  // ---------------------------------------------------------------------------
  // split on one separator character
  // ---------------------------------------------------------------------------

  /** The index of the first `c` in `s`, or `|s|` when there is none. */
  function IndexOf(s: string, c: char): (i: nat)
    ensures i <= |s|
    ensures i < |s| ==> s[i] == c
    ensures forall j | 0 <= j < i :: s[j] != c
  {
    if |s| == 0 then 0 else if s[0] == c then 0 else 1 + IndexOf(s[1..], c)
  }

  /** Every piece between separators, empty pieces included. */
  function SplitOn(s: string, c: char): (pieces: seq<string>)
    ensures |pieces| >= 1
    decreases |s|
  {
    var i := IndexOf(s, c);
    if i == |s| then [s] else [s[..i]] + SplitOn(s[i + 1..], c)
  }

  /** Removes the empty strings at the end of a list. */
  function DropTrailingEmpty(pieces: seq<string>): (r: seq<string>)
    ensures |r| <= |pieces| && r == pieces[..|r|]
    ensures |r| > 0 ==> r[|r| - 1] != ""
    ensures forall k | |r| <= k < |pieces| :: pieces[k] == ""
  {
    if |pieces| > 0 && pieces[|pieces| - 1] == "" then DropTrailingEmpty(pieces[..|pieces| - 1])
    else pieces
  }

  /** `String.split` with a one-character separator and limit 0: a string
      without the separator is returned whole (even when empty); otherwise the
      pieces are returned with trailing empty pieces removed. */
  function JavaSplit(s: string, c: char): seq<string> {
    if IndexOf(s, c) == |s| then [s] else DropTrailingEmpty(SplitOn(s, c))
  }

  /** `String.join`: the pieces with one separator between neighbours. */
  function Join(pieces: seq<string>, c: char): string
    requires |pieces| >= 1
  {
    if |pieces| == 1 then pieces[0] else pieces[0] + [c] + Join(pieces[1..], c)
  }

  /** No piece contains the separator. */
  predicate SeparatorFree(pieces: seq<string>, c: char) {
    forall k, j | 0 <= k < |pieces| && 0 <= j < |pieces[k]| :: pieces[k][j] != c
  }

  lemma IndexOfJoined(t: string, c: char, rest: string)
    requires forall j | 0 <= j < |t| :: t[j] != c
    ensures IndexOf(t + [c] + rest, c) == |t|
  {
    var s := t + [c] + rest;
    if |t| > 0 {
      assert s[1..] == t[1..] + [c] + rest;
      IndexOfJoined(t[1..], c, rest);
    }
  }

  lemma IndexOfAbsent(t: string, c: char)
    requires forall j | 0 <= j < |t| :: t[j] != c
    ensures IndexOf(t, c) == |t|
  {
    if |t| > 0 {
      IndexOfAbsent(t[1..], c);
    }
  }

  /** Splitting a joined list of separator-free pieces gives the pieces back. */
  lemma {:induction false} SplitOnJoin(pieces: seq<string>, c: char)
    requires |pieces| >= 1
    requires SeparatorFree(pieces, c)
    ensures SplitOn(Join(pieces, c), c) == pieces
  {
    var t := pieces[0];
    if |pieces| == 1 {
      IndexOfAbsent(t, c);
    } else {
      var rest := Join(pieces[1..], c);
      var s := t + [c] + rest;
      IndexOfJoined(t, c, rest);
      assert s[..|t|] == t;
      assert s[|t| + 1..] == rest;
      assert SeparatorFree(pieces[1..], c) by {
        forall k, j | 0 <= k < |pieces| - 1 && 0 <= j < |pieces[1..][k]|
          ensures pieces[1..][k][j] != c
        {
          assert pieces[1..][k] == pieces[k + 1];
        }
      }
      SplitOnJoin(pieces[1..], c);
    }
  }

  /** `String.split` undoes a join of non-empty, separator-free pieces. */
  lemma JavaSplitJoin(pieces: seq<string>, c: char)
    requires |pieces| >= 1
    requires SeparatorFree(pieces, c)
    requires forall k | 0 <= k < |pieces| :: pieces[k] != ""
    ensures JavaSplit(Join(pieces, c), c) == pieces
  {
    var s := Join(pieces, c);
    if |pieces| == 1 {
      IndexOfAbsent(pieces[0], c);
    } else {
      IndexOfJoined(pieces[0], c, Join(pieces[1..], c));
      SplitOnJoin(pieces, c);
    }
  }

  // ---------------------------------------------------------------------------
  // Decimal integers: String.valueOf and Integer.parseInt / Long.parseLong
  // ---------------------------------------------------------------------------

  /** An ASCII digit, the only kind `String.valueOf` writes. */
  predicate IsDigit(c: char) { '0' <= c <= '9' }

  /** The zero of the Unicode decimal-digit (general category Nd) run in the
      Basic Multilingual Plane that holds code point `c`. The runs, in code
      point order: ASCII, Arabic-Indic, Extended Arabic-Indic, NKo, Devanagari,
      Bengali, Gurmukhi, Gujarati, Oriya, Tamil, Telugu, Kannada, Malayalam,
      Sinhala Lith, Thai, Lao, Tibetan, Myanmar, Myanmar Shan, Khmer, Mongolian,
      Limbu, New Tai Lue, Tai Tham Hora, Tai Tham, Balinese, Sundanese, Lepcha,
      Ol Chiki, Vai, Saurashtra, Kayah Li, Javanese, Myanmar Tai Laing, Cham,
      Meetei Mayek and Fullwidth; each holds the digits 0-9 in order. */
  function DigitZero(c: int): (r: Option<int>)
    ensures r.Some? ==> r.value <= c < r.value + 10
    ensures 0x30 <= c < 0x3A ==> r == Some(0x30)
    ensures c < 0x30 || 0x3A <= c < 0x660 ==> r.None?
  {
    if 0x0030 <= c < 0x003A then Some(0x0030)
    else if 0x0660 <= c < 0x066A then Some(0x0660)
    else if 0x06F0 <= c < 0x06FA then Some(0x06F0)
    else if 0x07C0 <= c < 0x07CA then Some(0x07C0)
    else if 0x0966 <= c < 0x0970 then Some(0x0966)
    else if 0x09E6 <= c < 0x09F0 then Some(0x09E6)
    else if 0x0A66 <= c < 0x0A70 then Some(0x0A66)
    else if 0x0AE6 <= c < 0x0AF0 then Some(0x0AE6)
    else if 0x0B66 <= c < 0x0B70 then Some(0x0B66)
    else if 0x0BE6 <= c < 0x0BF0 then Some(0x0BE6)
    else if 0x0C66 <= c < 0x0C70 then Some(0x0C66)
    else if 0x0CE6 <= c < 0x0CF0 then Some(0x0CE6)
    else if 0x0D66 <= c < 0x0D70 then Some(0x0D66)
    else if 0x0DE6 <= c < 0x0DF0 then Some(0x0DE6)
    else if 0x0E50 <= c < 0x0E5A then Some(0x0E50)
    else if 0x0ED0 <= c < 0x0EDA then Some(0x0ED0)
    else if 0x0F20 <= c < 0x0F2A then Some(0x0F20)
    else if 0x1040 <= c < 0x104A then Some(0x1040)
    else if 0x1090 <= c < 0x109A then Some(0x1090)
    else if 0x17E0 <= c < 0x17EA then Some(0x17E0)
    else if 0x1810 <= c < 0x181A then Some(0x1810)
    else if 0x1946 <= c < 0x1950 then Some(0x1946)
    else if 0x19D0 <= c < 0x19DA then Some(0x19D0)
    else if 0x1A80 <= c < 0x1A8A then Some(0x1A80)
    else if 0x1A90 <= c < 0x1A9A then Some(0x1A90)
    else if 0x1B50 <= c < 0x1B5A then Some(0x1B50)
    else if 0x1BB0 <= c < 0x1BBA then Some(0x1BB0)
    else if 0x1C40 <= c < 0x1C4A then Some(0x1C40)
    else if 0x1C50 <= c < 0x1C5A then Some(0x1C50)
    else if 0xA620 <= c < 0xA62A then Some(0xA620)
    else if 0xA8D0 <= c < 0xA8DA then Some(0xA8D0)
    else if 0xA900 <= c < 0xA90A then Some(0xA900)
    else if 0xA9D0 <= c < 0xA9DA then Some(0xA9D0)
    else if 0xA9F0 <= c < 0xA9FA then Some(0xA9F0)
    else if 0xAA50 <= c < 0xAA5A then Some(0xAA50)
    else if 0xABF0 <= c < 0xABFA then Some(0xABF0)
    else if 0xFF10 <= c < 0xFF1A then Some(0xFF10)
    else None
  }

  /** `Character.digit(c, 10)`: the value of a decimal digit of any script, or
      `None` where Java returns -1. Java reads one UTF-16 unit at a time, so a
      digit outside the Basic Multilingual Plane (two units) is no digit. */
  function CharDigit(c: char): (r: Option<nat>)
    ensures r.Some? ==> r.value < 10
    ensures r.Some? <==> DigitZero(c as int).Some?
    ensures IsDigit(c) ==> r == Some(c as int - '0' as int)
    ensures c < '0' || ('9' < c < '\U{0660}') ==> r.None?
  {
    match DigitZero(c as int)
    case None => None
    case Some(z) => Some(c as int - z)
  }

  /** Every decimal digit sits in a run of ten consecutive code points, from
      its zero up, that read as 0 to 9 in order: the `k`-th character of the
      run of any digit reads as `k`. */
  lemma DigitRun(c: char, k: nat)
    requires CharDigit(c).Some? && k < 10
    ensures var z := c as int - CharDigit(c).value;
            && DigitZero(z) == Some(z)
            && (0x30 <= z + k < 0xD800 || 0xE000 <= z + k < 0x10000)
            && CharDigit((z + k) as char) == Some(k)
  {
  }

  predicate AllDigits(s: string) {
    forall i | 0 <= i < |s| :: CharDigit(s[i]).Some?
  }

  function DigitChar(d: nat): (c: char)
    requires d < 10
    ensures IsDigit(c) && CharDigit(c) == Some(d)
  {
    ('0' as int + d) as char
  }

  /** The value of a run of decimal digits, most significant first. */
  function DigitsValue(s: string): nat
    requires AllDigits(s)
  {
    if |s| == 0 then 0
    else DigitsValue(s[..|s| - 1]) * 10 + CharDigit(s[|s| - 1]).value
  }

  /** The decimal digits of `n`, without leading zeros. */
  function ShowNat(n: nat): (s: string)
    ensures |s| >= 1
  {
    if n < 10 then [DigitChar(n)] else ShowNat(n / 10) + [DigitChar(n % 10)]
  }

  /** `String.valueOf(int)` / `String.valueOf(long)`: an optional minus sign and the digits. */
  function ShowInt(n: int): string {
    if n < 0 then "-" + ShowNat(-n) else ShowNat(n)
  }

  /** The text `Integer.parseInt` and `Long.parseLong` accept before the range
      check: an optional ASCII `+` or `-` followed by at least one decimal digit
      of any script (`Character.digit`). */
  predicate IsDecimal(s: string) {
    if |s| > 0 && (s[0] == '-' || s[0] == '+') then |s| > 1 && AllDigits(s[1..])
    else |s| > 0 && AllDigits(s)
  }

  /** The signed value of a well-formed decimal. */
  function DecimalValue(s: string): int
    requires IsDecimal(s)
  {
    if s[0] == '-' then -(DigitsValue(s[1..]) as int)
    else if s[0] == '+' then DigitsValue(s[1..])
    else DigitsValue(s)
  }

  /** The common core of `Integer.parseInt` and `Long.parseLong`: the value, or
      `None` where Java throws `NumberFormatException` (bad text, or a value
      outside `[lo, hi]`). */
  function ParseInteger(s: string, lo: int, hi: int): (r: Option<int>)
    ensures r.Some? <==> IsDecimal(s) && lo <= DecimalValue(s) <= hi
    ensures r.Some? ==> r.value == DecimalValue(s)
  {
    if IsDecimal(s) && lo <= DecimalValue(s) <= hi then Some(DecimalValue(s)) else None
  }

  /** `Integer.parseInt`. */
  function ParseJavaInt(s: string): (r: Option<int>)
    ensures r.Some? ==> InIntRange(r.value)
  {
    ParseInteger(s, INT_MIN, INT_MAX)
  }

  /** `Long.parseLong`. */
  function ParseJavaLong(s: string): (r: Option<int>)
    ensures r.Some? ==> InLongRange(r.value)
  {
    ParseInteger(s, LONG_MIN, LONG_MAX)
  }

  lemma {:induction false} ShowNatIsDigits(n: nat)
    ensures forall i | 0 <= i < |ShowNat(n)| :: IsDigit(ShowNat(n)[i])
    ensures AllDigits(ShowNat(n))
    ensures DigitsValue(ShowNat(n)) == n
  {
    var s := ShowNat(n);
    if n >= 10 {
      ShowNatIsDigits(n / 10);
      var prefix := ShowNat(n / 10);
      assert s[..|s| - 1] == prefix;
    }
  }

  /** `String.valueOf` never writes a separator the codecs use. */
  lemma ShowIntChars(n: int)
    ensures |ShowInt(n)| >= 1
    ensures forall i | 0 <= i < |ShowInt(n)| :: IsDigit(ShowInt(n)[i]) || ShowInt(n)[i] == '-'
  {
    if n < 0 { ShowNatIsDigits(-n); } else { ShowNatIsDigits(n); }
  }

  /** Digits of other scripts parse as Java parses them: fullwidth three is 3,
      Arabic-Indic three-four is 34 and takes a sign, while a mathematical
      digit outside the Basic Multilingual Plane, a lone sign and a letter do
      not parse. */
  lemma ScriptDigits()
    ensures ParseInteger("\U{FF13}", INT_MIN, INT_MAX) == Some(3)
    ensures ParseInteger("-\U{0663}\U{0664}", INT_MIN, INT_MAX) == Some(-34)
    ensures ParseInteger("\U{0663}\U{0664}", INT_MIN, INT_MAX) == Some(34)
    ensures ParseInteger("\U{1D7D1}", INT_MIN, INT_MAX) == None
    ensures ParseInteger("+", INT_MIN, INT_MAX) == None
    ensures ParseInteger("7a", INT_MIN, INT_MAX) == None
  {
  }

  /** Parsing what `String.valueOf` printed gives the number back, for every
      number in the accepted range. */
  lemma ParseShowInt(n: int, lo: int, hi: int)
    requires lo <= n <= hi
    ensures ParseInteger(ShowInt(n), lo, hi) == Some(n)
  {
    var s := ShowInt(n);
    if n < 0 {
      ShowNatIsDigits(-n);
      assert s[0] == '-' && s[1..] == ShowNat(-n);
      assert IsDecimal(s) && DecimalValue(s) == n;
    } else {
      ShowNatIsDigits(n);
      assert IsDigit(s[0]);
      assert IsDecimal(s) && DecimalValue(s) == n;
    }
  }
}

=== FILE: jdbc_store.dfy ===
/**
 * The data side of `JdbcPlayerDataStore`: one `player_profiles` row per
 * player, written by `bindProfile` and read back by `mapProfile`. The numeric
 * and text columns hold the profile's values as they are; the skills travel as
 * the codec's text, and the combo override is normalised on the way in.
 */
module JdbcStore {
  import opened Wrappers
  import opened JavaText
  import opened Profiles
  import SkillCodec
  import RedisStore

  /** One row: every scalar column as the profile holds it (the `skills` of
      `columns` is not a column and is never read), and the `hoe_skills` text,
      `None` for SQL NULL. */
  datatype Row = Row(columns: Profile, hoeSkills: Option<string>)

  /** `bindProfile`: each field into its column, the skills as their encoding,
      which is NULL when no skill has a positive level. */
  function Bind(p: Profile): (r: Row)
    ensures r.columns.(skills := p.skills) == p
    ensures r.hoeSkills.Some? <==> exists t | t in p.skills :: p.skills[t] > 0
  {
    Row(p.(skills := map[]), SkillCodec.Encode(p.skills))
  }

  /** `mapProfile` on `new PlayerProfile(uuid)`: every column is copied in, the
      override is kept only when both its halves are positive, and the skills
      are the decoding of the `hoe_skills` text. */
  function MapProfile(uuid: Uuid, row: Row): (p: Profile)
    ensures p.uuid == uuid
    ensures p.skills == SkillCodec.Decode(row.hoeSkills)
    ensures p.comboOverrideWindow > 0.0 <==> row.columns.comboOverrideWindow > 0.0 && row.columns.comboOverrideUntil > 0
    ensures p.comboOverrideWindow > 0.0 <==> p.comboOverrideUntil > 0
    ensures p.comboOverrideWindow > 0.0 ==>
              p.comboOverrideWindow == row.columns.comboOverrideWindow && p.comboOverrideUntil == row.columns.comboOverrideUntil
    ensures p.comboOverrideWindow >= 0.0 && p.comboOverrideUntil >= 0
    ensures p.(uuid := row.columns.uuid, skills := row.columns.skills,
               comboOverrideWindow := row.columns.comboOverrideWindow,
               comboOverrideUntil := row.columns.comboOverrideUntil) == row.columns
  {
    var ov := RedisStore.NormalOverride(row.columns.comboOverrideWindow, row.columns.comboOverrideUntil);
    row.columns.(uuid := uuid, skills := SkillCodec.Decode(row.hoeSkills),
                 comboOverrideWindow := ov.0, comboOverrideUntil := ov.1)
  }

  /** Round trip: a row bound from a profile maps back to the profile, less
      what a Redis hash also drops (skills at a non-positive level and a
      half-set override), so both stores read a profile back the same way. */
  lemma MapBind(p: Profile)
    requires forall t | t in p.skills :: p.skills[t] <= INT_MAX
    ensures MapProfile(p.uuid, Bind(p)) == RedisStore.Restored(p)
  {
    SkillCodec.EncodeDecode(p.skills);
    assert SkillCodec.Positive(p.skills) == RedisStore.Restored(p).skills;
  }
}

=== FILE: player_profile.dfy ===
/**
 * The per-player profile: progression, combo streak, energy, timing
 * bookkeeping, the equipped hoe-skill levels and the guild affiliation. Java's
 * mutable `PlayerProfile` becomes an immutable value; every setter returns the
 * updated value and leaves the other fields, and always the uuid, as they were.
 */
module Profiles {
  import opened Wrappers
  import opened HoeSkills

  /** A player's identity; `text` is `UUID.toString()`. */
  datatype Uuid = Uuid(text: string)

  datatype Profile = Profile(
    uuid: Uuid,
    level: int,
    xp: real,
    mastery: real,
    energy: real,
    lastEnergyTick: int,
    lastHarvestAt: int,
    actionCooldownEnd: int,
    lastBlockType: Option<string>,
    comboCount: int,
    comboExpireAt: int,
    comboOverrideWindow: real,
    comboOverrideUntil: int,
    lastYaw: real,
    lastPitch: real,
    lastTargetDistance: real,
    /** The level of each skill the player holds, keyed by its own type. */
    skills: map<SkillType, int>,
    guildId: Option<string>,
    lastGuildHarvestAt: int
  )

  const START_LEVEL: int := 1
  const START_ENERGY: real := 100.0

  /** No combo streak has been recorded. */
  predicate NoStreak(p: Profile) {
    p.lastBlockType == None && p.comboCount == 0 && p.comboExpireAt == 0
  }

  /** No combo-window override is stored: both halves are zero. */
  predicate NoOverride(p: Profile) {
    p.comboOverrideWindow == 0.0 && p.comboOverrideUntil == 0
  }

  /** Every field except the identity and the clock reading holds its Java default. */
  predicate IsFreshState(p: Profile) {
    && p.level == START_LEVEL && p.xp == 0.0 && p.mastery == 0.0
    && p.energy == START_ENERGY
    && p.lastHarvestAt == 0 && p.actionCooldownEnd == 0
    && NoStreak(p) && NoOverride(p)
    && p.lastYaw == 0.0 && p.lastPitch == 0.0 && p.lastTargetDistance == 0.0
    && p.skills == map[] && p.guildId == None && p.lastGuildHarvestAt == 0
  }

  /** `new PlayerProfile(uuid)`, constructed at clock reading `now`. */
  function Fresh(uuid: Uuid, now: int): (p: Profile)
    ensures p.uuid == uuid && p.lastEnergyTick == now
    ensures IsFreshState(p)
  {
    Profile(uuid, START_LEVEL, 0.0, 0.0, START_ENERGY, now, 0, 0, None, 0, 0, 0.0, 0,
            0.0, 0.0, 0.0, map[], None, 0)
  }

  /** `setSkill`: records `level` for `t` and replaces only that entry. */
  function SetSkill(p: Profile, t: SkillType, level: int): (r: Profile)
    ensures r.uuid == p.uuid
    ensures t in r.skills && r.skills[t] == level
    ensures r.skills.Keys == p.skills.Keys + {t}
    ensures forall u | u in p.skills && u != t :: r.skills[u] == p.skills[u]
    ensures r.(skills := p.skills) == p
  {
    p.(skills := p.skills[t := level])
  }

  /** `clearHoeSkills`: the player holds no skills afterwards. */
  function ClearSkills(p: Profile): (r: Profile)
    ensures r.uuid == p.uuid
    ensures |r.skills| == 0
    ensures r.(skills := p.skills) == p
  {
    p.(skills := map[])
  }

  /** `setComboOverride`: stores both the window and its expiry. */
  function SetComboOverride(p: Profile, windowSec: real, untilMillis: int): (r: Profile)
    ensures r.uuid == p.uuid
    ensures r.comboOverrideWindow == windowSec && r.comboOverrideUntil == untilMillis
    ensures r.(comboOverrideWindow := p.comboOverrideWindow, comboOverrideUntil := p.comboOverrideUntil) == p
  {
    p.(comboOverrideWindow := windowSec, comboOverrideUntil := untilMillis)
  }

  /** `clearComboOverride`: both halves of the override become zero. */
  function ClearComboOverride(p: Profile): (r: Profile)
    ensures r.uuid == p.uuid
    ensures NoOverride(r)
    ensures r.(comboOverrideWindow := p.comboOverrideWindow, comboOverrideUntil := p.comboOverrideUntil) == p
  {
    p.(comboOverrideWindow := 0.0, comboOverrideUntil := 0)
  }

  /** `PlayerProfile.addXp`: raw accumulation, no level-up processing. */
  function AddRawXp(p: Profile, amount: real): (r: Profile)
    ensures r.uuid == p.uuid
    ensures r.xp - p.xp == amount
    ensures r.level == p.level
    ensures r.(xp := p.xp) == p
  {
    p.(xp := p.xp + amount)
  }

  /** Setting two different skills gives the same profile in either order, and a
      later setting of the same skill wins. */
  lemma SetSkillOrder(p: Profile, t: SkillType, a: int, u: SkillType, b: int)
    ensures t != u ==> SetSkill(SetSkill(p, t, a), u, b) == SetSkill(SetSkill(p, u, b), t, a)
    ensures SetSkill(SetSkill(p, t, a), t, b) == SetSkill(p, t, b)
  {
  }

  /** Clearing an override undoes any setting of it, and a fresh profile already has none. */
  lemma OverrideSetThenClear(p: Profile, w: real, until: int, now: int)
    ensures ClearComboOverride(SetComboOverride(p, w, until)) == ClearComboOverride(p)
    ensures ClearComboOverride(Fresh(p.uuid, now)) == Fresh(p.uuid, now)
  {
  }
}

=== FILE: plugin_config.dfy ===
/**
 * The configuration records the core reads, and the two helpers that turn the
 * raw `progression.piecewise` list into typed curve entries.
 */
module Config {
  import opened Wrappers

  /** An inclusive level range `[min, max]`. */
  datatype Range = Range(min: int, max: int)

  /** One piece of the experience curve: its level range, a linear scale and the
      formula tag that selects the polynomial. */
  datatype PiecewiseEntry = PiecewiseEntry(range: Range, scale: real, formula: string)

  datatype ProgressionConfig = ProgressionConfig(
    cap: int,
    piecewise: seq<PiecewiseEntry>,
    globalCostMultiplier: real
  )

  datatype ComboConfig = ComboConfig(
    baseWindowSec: real,
    perLevelDecayRate: real,
    minWindowSec: real,
    xpBonusPerStack: real,
    xpBonusCap: real,
    intRoundingFromStack: int,
    intRoundingCap: int
  )

  datatype EnergyConfig = EnergyConfig(max: int, regenPerSec: real, regenIfAfk: bool)

  datatype FocusConfig = FocusConfig(
    enabled: bool,
    durationBase: real,
    durationPerLevel: real,
    cooldown: real,
    energyCost: real,
    minIntervalSec: real
  )

  datatype DoubleTapConfig = DoubleTapConfig(
    enabled: bool,
    windowSec: real,
    chanceBase: real,
    chancePerLevel: real
  )

  datatype SkillsConfig = SkillsConfig(energy: EnergyConfig, focus: FocusConfig, doubleTap: DoubleTapConfig)

  datatype GuildBonusConfig = GuildBonusConfig(baseChance: real, perMemberInc: real, chanceCap: real)

  datatype XpConfig = XpConfig(basePerHarvest: real, guildBonus: GuildBonusConfig)

  datatype ExtraDropConfig = ExtraDropConfig(doubletapMultiplies: bool)

  datatype HarvestConfig = HarvestConfig(worlds: seq<string>, actionCooldownSec: real)

  /** `WorldConfig`: the raw whitelist entries; `None` is a null list element. */
  datatype WorldConfig = WorldConfig(commandWhitelist: seq<Option<string>>)

  /** The parts of `PluginConfig` the harvest transition reads. */
  datatype PluginConfig = PluginConfig(
    harvest: HarvestConfig,
    combo: ComboConfig,
    xp: XpConfig,
    extraDrop: ExtraDropConfig,
    skills: SkillsConfig,
    progression: ProgressionConfig,
    world: WorldConfig
  )

  /** The runtime exceptions `buildPiecewise` can raise on a malformed entry. */
  datatype BuildError =
    | MissingScale(index: nat)     // a null "scale" fails when unboxed
    | MissingFormula(index: nat)   // a null "formula" fails on toString()
    | MissingRange(index: nat)     // a null "range" fails inside parseRange
    | EmptyRange(index: nat)       // IndexOutOfBoundsException inside parseRange

  /** `parseRange`: min from the first element, max from the last; the elements
      in between are ignored. An empty list is the `get(0)` failure. */
  function ParseRange(items: seq<int>): (r: Option<Range>)
    ensures r.Some? <==> |items| > 0
    ensures r.Some? ==> r.value.min == items[0] && r.value.max == items[|items| - 1]
  {
    if |items| == 0 then None else Some(Range(items[0], items[|items| - 1]))
  }

  /** One raw map of the `piecewise` list; a missing key reads as `None`. */
  datatype RawEntry = RawEntry(range: Option<seq<int>>, scale: Option<real>, formula: Option<string>)

  /** The entry one raw map becomes, or the exception it raises; Java evaluates
      `scale`, then `formula`, then `parseRange(range)`. */
  function BuildEntry(raw: RawEntry, index: nat): (r: Result<PiecewiseEntry, BuildError>)
    ensures r.Success? <==> raw.scale.Some? && raw.formula.Some? && raw.range.Some? && |raw.range.value| > 0
    ensures r.Success? ==> r.value.scale == raw.scale.value && r.value.formula == raw.formula.value
    ensures r.Success? ==> Some(r.value.range) == ParseRange(raw.range.value)
  {
    if raw.scale.None? then Failure(MissingScale(index))
    else if raw.formula.None? then Failure(MissingFormula(index))
    else if raw.range.None? then Failure(MissingRange(index))
    else match ParseRange(raw.range.value)
      case None => Failure(EmptyRange(index))
      case Some(range) => Success(PiecewiseEntry(range, raw.scale.value, raw.formula.value))
  }

  /** Map `i` is the first map at or after `from` that fails to build, and
      it fails with `e`. */
  predicate FirstFailure(raw: seq<RawEntry>, from: nat, i: nat, e: BuildError)
    requires i < |raw|
  {
    from <= i && BuildEntry(raw[i], i) == Failure(e)
    && forall j | from <= j < i :: BuildEntry(raw[j], j).Success?
  }

  /** A first failure after a map that builds is also the first failure
      counting from that map. */
  lemma FirstFailureBack(raw: seq<RawEntry>, from: nat, next: nat, e: BuildError)
    requires next == from + 1 <= |raw| && BuildEntry(raw[from], from).Success?
    requires exists i | next <= i < |raw| :: FirstFailure(raw, next, i, e)
    ensures exists i | from <= i < |raw| :: FirstFailure(raw, from, i, e)
  {
    var i :| next <= i < |raw| && FirstFailure(raw, next, i, e);
    assert FirstFailure(raw, from, i, e);
  }

  /** `BuilderUtil.buildPiecewise` over the raw maps from position `from` on. */
  function BuildFrom(raw: seq<RawEntry>, from: nat): (r: Result<seq<PiecewiseEntry>, BuildError>)
    requires from <= |raw|
    ensures r.Success? <==> forall i | from <= i < |raw| :: BuildEntry(raw[i], i).Success?
    ensures r.Success? ==> |r.value| == |raw| - from
    ensures r.Success? ==> forall i | from <= i < |raw| :: Success(r.value[i - from]) == BuildEntry(raw[i], i)
    ensures r.Failure? ==> exists i | from <= i < |raw| :: FirstFailure(raw, from, i, r.error)
    decreases |raw| - from
  {
    if from == |raw| then Success([])
    else match BuildEntry(raw[from], from)
      case Failure(e) => assert FirstFailure(raw, from, from, e); Failure(e)
      case Success(entry) =>
        match BuildFrom(raw, from + 1)
        case Failure(e) => FirstFailureBack(raw, from, from + 1, e); Failure(e)
        case Success(rest) => Success([entry] + rest)
  }

  /** `BuilderUtil.buildPiecewise`: one entry per raw map, in input order, or
      the exception of the first malformed map. */
  function BuildPiecewise(raw: seq<RawEntry>): (r: Result<seq<PiecewiseEntry>, BuildError>)
    ensures r.Success? ==> |r.value| == |raw|
    ensures r.Success? ==> forall i | 0 <= i < |raw| :: Success(r.value[i]) == BuildEntry(raw[i], i)
    ensures r.Success? <==> forall i | 0 <= i < |raw| :: BuildEntry(raw[i], i).Success?
    ensures r.Failure? ==> exists i | 0 <= i < |raw| :: FirstFailure(raw, 0, i, r.error)
  {
    BuildFrom(raw, 0)
  }
}

=== FILE: profile_manager.dfy ===
/**
 * `ProfileManager`: the map of active sessions, one profile per online
 * player, in front of a store. Loading falls back to a fresh profile when the
 * store has none; unloading removes the session and saves what it held.
 */
module Sessions {
  import opened Wrappers
  import opened Profiles
  import opened Stores
  import RedisStore

  datatype Session = Session(active: map<Uuid, Profile>, store: Store)

  /** `loadProfile`: the stored profile, or a fresh one made at `now` when the
      store has none, becomes the player's session. A failed load adds nothing. */
  function LoadProfile(s: Session, u: Uuid, now: int): (r: (Session, Result<Profile, Fault>))
    ensures r.0.store == Stores.Load(s.store, u, now).0
    ensures Stores.Load(s.store, u, now).1.Failure? ==>
              r.0.active == s.active && r.1 == Failure(Stores.Load(s.store, u, now).1.error)
    ensures Stores.Load(s.store, u, now).1.Success? ==>
              r.1 == Success(Stores.Load(s.store, u, now).1.value.GetOr(Fresh(u, now)))
              && r.0.active == s.active[u := r.1.value]
  {
    var (store', found) := Stores.Load(s.store, u, now);
    match found
    case Failure(e) => (s.(store := store'), Failure(e))
    case Success(opt) =>
      var p := opt.GetOr(Fresh(u, now));
      (Session(s.active[u := p], store'), Success(p))
  }

  /** `unloadProfile`: the session is removed and exactly the removed profile is
      saved; without a session nothing is saved. */
  function Unload(s: Session, u: Uuid): (r: (Session, Outcome<Fault>))
    ensures u !in r.0.active
    ensures forall v | v != u :: (v in r.0.active <==> v in s.active) && (v in r.0.active ==> r.0.active[v] == s.active[v])
    ensures u !in s.active ==> r == (s, Pass)
    ensures u in s.active ==> r.0.store == Stores.Save(s.store, s.active[u]).0 && r.1 == Stores.Save(s.store, s.active[u]).1
  {
    if u !in s.active then (s, Pass)
    else
      var (store', o) := Stores.Save(s.store, s.active[u]);
      (Session(s.active - {u}, store'), o)
  }

  /** `flush`: saves the current profile and keeps the session. */
  function Flush(s: Session, u: Uuid): (r: (Session, Outcome<Fault>))
    ensures r.0.active == s.active
    ensures u !in s.active ==> r == (s, Pass)
    ensures u in s.active ==> r.0.store == Stores.Save(s.store, s.active[u]).0 && r.1 == Stores.Save(s.store, s.active[u]).1
  {
    if u !in s.active then (s, Pass)
    else
      var (store', o) := Stores.Save(s.store, s.active[u]);
      (s.(store := store'), o)
  }

  /** `getProfile`: reads the session map only. */
  function GetProfile(s: Session, u: Uuid): (r: Option<Profile>)
    ensures r.Some? <==> u in s.active
    ensures r.Some? ==> r.value == s.active[u]
  {
    if u in s.active then Some(s.active[u]) else None
  }

  /** `order` lists each active player once: the order the map's values are
      visited in, which the map does not fix. */
  predicate IsOrder(order: seq<Uuid>, active: map<Uuid, Profile>) {
    && (forall i | 0 <= i < |order| :: order[i] in active)
    && (forall u | u in active :: u in order)
    && (forall i, j | 0 <= i < j < |order| :: order[i] != order[j])
  }

  /** Saves the profiles of `order` one after another, waiting for each; the
      first failed save ends the run. */
  function SaveAll(store: Store, active: map<Uuid, Profile>, order: seq<Uuid>): (r: (Store, Outcome<Fault>))
    requires forall i | 0 <= i < |order| :: order[i] in active
    decreases |order|
  {
    if |order| == 0 then (store, Pass)
    else
      var (store', o) := Stores.Save(store, active[order[0]]);
      if o.Fail? then (store', o)
      else SaveAll(store', active, order[1..])
  }

  /** `flushAllSync`: every active profile saved, the sessions kept. */
  function FlushAllSync(s: Session, order: seq<Uuid>): (r: (Session, Outcome<Fault>))
    requires IsOrder(order, s.active)
    ensures r.0.active == s.active
  {
    var (store', o) := SaveAll(s.store, s.active, order);
    (s.(store := store'), o)
  }

  /** `close`: every active profile saved and then the store closed; a failed
      save aborts before the store is closed. */
  function CloseSession(s: Session, order: seq<Uuid>): (r: (Session, Outcome<Fault>))
    requires IsOrder(order, s.active)
    ensures r.0.active == s.active
    ensures FlushAllSync(s, order).1.Fail? ==> r == FlushAllSync(s, order)
    ensures FlushAllSync(s, order).1.Pass? ==>
              r.0.store == Stores.Close(FlushAllSync(s, order).0.store).0 && r.1 == Stores.Close(FlushAllSync(s, order).0.store).1
  {
    var (flushed, o) := FlushAllSync(s, order);
    if o.Fail? then (flushed, o)
    else
      var (store', c) := Stores.Close(flushed.store);
      (flushed.(store := store'), c)
  }

  // ---------------------------------------------------------------------------
  // Properties
  // ---------------------------------------------------------------------------

  /** Against the in-memory store, saving a run of profiles never fails and
      leaves the store holding each of them, other records untouched. */
  lemma {:induction false} SaveAllToMemory(records: map<Uuid, Profile>, active: map<Uuid, Profile>, order: seq<Uuid>)
    requires forall i | 0 <= i < |order| :: order[i] in active
    requires forall u | u in active :: active[u].uuid == u
    ensures SaveAll(Memory(records), active, order).1 == Pass
    ensures var after := SaveAll(Memory(records), active, order).0;
            && after.Memory?
            && (forall i | 0 <= i < |order| :: order[i] in after.records && after.records[order[i]] == active[order[i]])
            && (forall v | v !in order :: (v in after.records <==> v in records) && (v in after.records ==> after.records[v] == records[v]))
    decreases |order|
  {
    if |order| > 0 {
      var u := order[0];
      var next := records[u := active[u]];
      SaveAllToMemory(next, active, order[1..]);
      var after := SaveAll(Memory(records), active, order).0;
      assert after == SaveAll(Memory(next), active, order[1..]).0;
      forall i | 0 <= i < |order| ensures order[i] in after.records && after.records[order[i]] == active[order[i]] {
        if i > 0 {
          assert order[1..][i - 1] == order[i];
        } else if u !in order[1..] {
        } else {
          var k :| 0 <= k < |order[1..]| && order[1..][k] == u;
          assert order[k + 1] == u;
        }
      }
    }
  }

  /** Flushing every session into the in-memory store leaves each player's
      current profile there and the sessions as they were. */
  lemma FlushAllToMemory(active: map<Uuid, Profile>, records: map<Uuid, Profile>, order: seq<Uuid>)
    requires IsOrder(order, active)
    requires forall u | u in active :: active[u].uuid == u
    ensures FlushAllSync(Session(active, Memory(records)), order).1 == Pass
    ensures var after := FlushAllSync(Session(active, Memory(records)), order).0;
            after.active == active && after.store.Memory?
            && forall u | u in active :: u in after.store.records && after.store.records[u] == active[u]
  {
    SaveAllToMemory(records, active, order);
    var after := FlushAllSync(Session(active, Memory(records)), order).0;
    forall u | u in active ensures u in after.store.records && after.store.records[u] == active[u] {
      var i :| 0 <= i < |order| && order[i] == u;
    }
  }

  /** A player who leaves and comes back against a healthy store gets the
      profile they left with, as the store keeps it. */
  lemma UnloadThenLoad(s: Session, u: Uuid, now: int)
    requires u in s.active && s.active[u].uuid == u
    requires Healthy(s.store) && RedisStore.Storable(s.active[u]) && TextsReadBack(s.store, s.active[u])
    ensures Unload(s, u).1 == Pass
    ensures LoadProfile(Unload(s, u).0, u, now).1 == Success(ReadBack(s.store, s.active[u]))
  {
    Stores.LoadAfterSave(s.store, s.active[u], now);
  }

  /** Loading twice keeps a single session for the player, holding the second load's profile. */
  lemma ReloadReplaces(s: Session, u: Uuid, now: int, later: int)
    requires LoadProfile(s, u, now).1.Success?
    requires LoadProfile(LoadProfile(s, u, now).0, u, later).1.Success?
    ensures var twice := LoadProfile(LoadProfile(s, u, now).0, u, later);
            twice.0.active == s.active[u := twice.1.value]
  {
  }
}

=== FILE: progression.dfy ===
/**
 * The experience curve and leveling of `ProgressionService`: a piecewise
 * lookup of the cost to the next level, and the loop that spends experience
 * level by level up to the cap.
 */
module Progression {
  import opened Wrappers
  import opened Config
  import opened Profiles
  import JavaText

  /** What `getXpToNextLevel` returns: a finite cost, or `Double.POSITIVE_INFINITY`
      once no further level exists. */
  datatype Cost = Finite(amount: real) | Infinite

  /** The configuration defects the curve can hit. */
  datatype CurveError =
    | NoFormulaForLevel(level: int)      // IllegalStateException: no range covers the level
    | UnsupportedFormula(formula: string) // IllegalArgumentException: unknown formula tag

  const HIGH_TIER_TAG: string := "(L-100)"
  const LOW_TIER_TAG: string := "L^2"

  /** The high-tier polynomial `95375 + 600·Δ + 18·Δ²` with `Δ = L − 100`. */
  function HighTier(level: int): real {
    var d := (level - 100) as real;
    95375.0 + 600.0 * d + 18.0 * d * d
  }

  /** The low-tier polynomial `375 + 50·L + 9·L²`. */
  function LowTier(level: int): real {
    var l := level as real;
    375.0 + 50.0 * l + 9.0 * l * l
  }

  /** `evaluateFormula`: the tag containing "(L-100)" is checked first, then "L^2". */
  function EvaluateFormula(formula: string, level: int): (r: Result<real, CurveError>)
    ensures r.Failure? <==> !JavaText.Contains(formula, HIGH_TIER_TAG) && !JavaText.Contains(formula, LOW_TIER_TAG)
    ensures r.Failure? ==> r.error == UnsupportedFormula(formula)
    ensures r.Success? ==> r.value == HighTier(level) || r.value == LowTier(level)
    ensures r.Success? && r.value != LowTier(level) ==> JavaText.Contains(formula, HIGH_TIER_TAG)
    ensures JavaText.Contains(formula, HIGH_TIER_TAG) ==> r == Success(HighTier(level))
  {
    if JavaText.Contains(formula, HIGH_TIER_TAG) then Success(HighTier(level))
    else if JavaText.Contains(formula, LOW_TIER_TAG) then Success(LowTier(level))
    else Failure(UnsupportedFormula(formula))
  }

  /** The range of `e` contains `level` (both bounds inclusive). */
  predicate Covers(e: PiecewiseEntry, level: int) {
    e.range.min <= level <= e.range.max
  }

  /** The position of the first entry whose range contains `level`. */
  function FirstCovering(entries: seq<PiecewiseEntry>, level: int): (r: Option<nat>)
    ensures r.Some? ==> r.value < |entries| && Covers(entries[r.value], level)
    ensures r.Some? ==> forall j | 0 <= j < r.value :: !Covers(entries[j], level)
    ensures r.None? ==> forall j | 0 <= j < |entries| :: !Covers(entries[j], level)
  {
    if |entries| == 0 then None
    else if Covers(entries[0], level) then Some(0)
    else match FirstCovering(entries[1..], level)
      case None => None
      case Some(i) => Some(i + 1)
  }

  /** The cost an entry's formula gives for `level`, scaled by the entry's scale
      and the global multiplier. */
  function EntryCost(cfg: ProgressionConfig, e: PiecewiseEntry, level: int): Result<real, CurveError> {
    match EvaluateFormula(e.formula, level)
    case Failure(err) => Failure(err)
    case Success(base) => Success(base * e.scale * cfg.globalCostMultiplier)
  }

  /** The cost to leave `level` when it is below the cap: the first covering
      entry decides, and a level no entry covers is a configuration gap. */
  function CostBelowCap(cfg: ProgressionConfig, level: int): (r: Result<real, CurveError>)
    requires level < cfg.cap
    ensures FirstCovering(cfg.piecewise, level).None? <==> r == Failure(NoFormulaForLevel(level))
    ensures FirstCovering(cfg.piecewise, level).Some? ==>
              r == EntryCost(cfg, cfg.piecewise[FirstCovering(cfg.piecewise, level).value], level)
  {
    match FirstCovering(cfg.piecewise, level)
    case None => Failure(NoFormulaForLevel(level))
    case Some(i) => EntryCost(cfg, cfg.piecewise[i], level)
  }

  /** `getXpToNextLevel`: infinite at or above the cap (never an error there),
      otherwise the first covering entry's formula times its scale and the global
      multiplier. */
  function XpToNextLevel(cfg: ProgressionConfig, level: int): (r: Result<Cost, CurveError>)
    ensures level >= cfg.cap <==> r == Success(Infinite)
    ensures level < cfg.cap ==> (r.Success? <==> CostBelowCap(cfg, level).Success?)
    ensures level < cfg.cap && r.Success? ==> r.value == Finite(CostBelowCap(cfg, level).value)
    ensures level < cfg.cap && r.Failure? ==> r.error == CostBelowCap(cfg, level).error
    ensures level < cfg.cap && FirstCovering(cfg.piecewise, level).None? ==>
              r == Failure(NoFormulaForLevel(level))
  {
    if level >= cfg.cap then Success(Infinite)
    else match CostBelowCap(cfg, level)
      case Failure(e) => Failure(e)
      case Success(c) => Success(Finite(c))
  }

  /** `LevelUpResult`: the final level, the experience left and every level reached. */
  datatype LevelUpResult = LevelUpResult(level: int, remainingXp: real, leveledTo: seq<int>) {
    /** `leveledUp()`. */
    predicate LeveledUp() { |leveledTo| > 0 }
  }

  /** `s` is `from + 1, from + 2, …` in order. */
  predicate Consecutive(s: seq<int>, from: int) {
    forall i | 0 <= i < |s| :: s[i] == from + 1 + i
  }

  /** The cost of leaving `level`, or 0 where the curve has none. */
  function CostOrZero(cfg: ProgressionConfig, level: int): real {
    if level >= cfg.cap then 0.0
    else match CostBelowCap(cfg, level)
      case Failure(_) => 0.0
      case Success(c) => c
  }

  /** The experience spent to go from level `from` to level `to`. */
  function Spent(cfg: ProgressionConfig, from: int, to: int): real
    decreases to - from
  {
    if from >= to then 0.0 else CostOrZero(cfg, from) + Spent(cfg, from + 1, to)
  }

  /** The `while (level < cap)` loop of `addXp`, before the cap clamp: pays the
      cost of each level while the experience covers it. */
  function Climb(cfg: ProgressionConfig, level: int, xp: real): (r: Result<LevelUpResult, CurveError>)
    decreases cfg.cap - level
    ensures level >= cfg.cap ==> r == Success(LevelUpResult(level, xp, []))
    ensures r.Success? ==> level <= r.value.level
    ensures r.Success? && level < cfg.cap ==> r.value.level <= cfg.cap
    ensures r.Success? ==> |r.value.leveledTo| == r.value.level - level
    ensures r.Success? ==> Consecutive(r.value.leveledTo, level)
    ensures r.Success? && r.value.level < cfg.cap ==>
              CostBelowCap(cfg, r.value.level).Success? && r.value.remainingXp < CostBelowCap(cfg, r.value.level).value
    ensures r.Failure? ==> level < cfg.cap
  {
    if level >= cfg.cap then Success(LevelUpResult(level, xp, []))
    else match CostBelowCap(cfg, level)
      case Failure(e) => Failure(e)
      case Success(c) =>
        if xp < c then Success(LevelUpResult(level, xp, []))
        else match Climb(cfg, level + 1, xp - c)
          case Failure(e) => Failure(e)
          case Success(next) => Success(next.(leveledTo := [level + 1] + next.leveledTo))
  }

  /** The experience a climb keeps is exactly what it started with minus the cost
      of every level it passed. */
  lemma {:induction false} ClimbSpends(cfg: ProgressionConfig, level: int, xp: real)
    ensures Climb(cfg, level, xp).Success? ==>
              Climb(cfg, level, xp).value.remainingXp == xp - Spent(cfg, level, Climb(cfg, level, xp).value.level)
    decreases cfg.cap - level
  {
    if level < cfg.cap && CostBelowCap(cfg, level).Success? {
      var c := CostBelowCap(cfg, level).value;
      if xp >= c {
        ClimbSpends(cfg, level + 1, xp - c);
      }
    }
  }

  /** `ProgressionService.addXp`: the profile afterwards and the result, or the
      curve's configuration defect. A non-positive amount changes nothing. */
  function AddXp(cfg: ProgressionConfig, p: Profile, amount: real): (r: Result<(Profile, LevelUpResult), CurveError>)
    ensures amount <= 0.0 ==> r == Success((p, LevelUpResult(p.level, p.xp, [])))
    ensures r.Success? ==> r.value.0 == p.(level := r.value.1.level, xp := r.value.1.remainingXp)
    ensures r.Success? ==> Consecutive(r.value.1.leveledTo, p.level)
    ensures r.Success? && p.level <= cfg.cap ==>
              p.level <= r.value.1.level && |r.value.1.leveledTo| == r.value.1.level - p.level
    ensures r.Success? && amount > 0.0 ==> r.value.1.level <= cfg.cap
    ensures r.Success? && amount > 0.0 && r.value.1.level == cfg.cap ==> r.value.1.remainingXp == 0.0
    ensures r.Success? && amount > 0.0 && r.value.1.level < cfg.cap ==>
              CostBelowCap(cfg, r.value.1.level).Success? &&
              r.value.1.remainingXp < CostBelowCap(cfg, r.value.1.level).value
    ensures r.Failure? ==> amount > 0.0 && p.level < cfg.cap
  {
    if amount <= 0.0 then Success((p, LevelUpResult(p.level, p.xp, [])))
    else Settle(cfg, p, Climb(cfg, p.level, p.xp + amount))
  }

  /** The end of `addXp`: a climb that reached the cap is clamped to the cap with
      no experience left, and the profile takes the final level and experience. */
  function Settle(cfg: ProgressionConfig, p: Profile, climbed: Result<LevelUpResult, CurveError>): Result<(Profile, LevelUpResult), CurveError> {
    match climbed
    case Failure(e) => Failure(e)
    case Success(c) =>
      var res := if c.level >= cfg.cap then LevelUpResult(cfg.cap, 0.0, c.leveledTo) else c;
      Success((p.(level := res.level, xp := res.remainingXp), res))
  }

  /** Prepends the levels already reached to a later climb's result. */
  function After(ups: seq<int>, r: Result<LevelUpResult, CurveError>): Result<LevelUpResult, CurveError> {
    match r
    case Failure(e) => Failure(e)
    case Success(v) => Success(v.(leveledTo := ups + v.leveledTo))
  }

  /** Continues a finished climb with `b` more experience, keeping the levels it
      already reached; a failed climb stays failed. */
  function Resume(cfg: ProgressionConfig, r: Result<LevelUpResult, CurveError>, b: real): Result<LevelUpResult, CurveError> {
    match r
    case Failure(e) => Failure(e)
    case Success(v) => After(v.leveledTo, Climb(cfg, v.level, v.remainingXp + b))
  }

  /** More experience follows the same path: the climb with `b` extra passes
      through every level the smaller climb reached and then continues from
      there with the leftover plus `b`; a failure happens at the same level. */
  lemma {:induction false} ClimbExtends(cfg: ProgressionConfig, level: int, xp: real, b: real)
    requires b >= 0.0
    ensures Climb(cfg, level, xp + b) == Resume(cfg, Climb(cfg, level, xp), b)
    decreases cfg.cap - level
  {
    if level >= cfg.cap {
      ResumeAtCap(cfg, level, xp, b);
    } else if CostBelowCap(cfg, level).Failure? {
    } else {
      var c := CostBelowCap(cfg, level).value;
      if xp < c {
        ResumeStopped(cfg, level, xp, b);
      } else {
        ClimbExtends(cfg, level + 1, xp - c, b);
        ResumeStep(cfg, level, xp, b, c);
      }
    }
  }

  lemma ResumeAtCap(cfg: ProgressionConfig, level: int, xp: real, b: real)
    requires level >= cfg.cap
    ensures Climb(cfg, level, xp + b) == Resume(cfg, Climb(cfg, level, xp), b)
  {
    var more := Climb(cfg, level, xp + b);
    assert more.value.leveledTo == [] + more.value.leveledTo;
  }

  lemma ResumeStopped(cfg: ProgressionConfig, level: int, xp: real, b: real)
    requires level < cfg.cap && CostBelowCap(cfg, level).Success? && xp < CostBelowCap(cfg, level).value
    ensures Climb(cfg, level, xp + b) == Resume(cfg, Climb(cfg, level, xp), b)
  {
    var more := Climb(cfg, level, xp + b);
    if more.Success? {
      assert more.value.leveledTo == [] + more.value.leveledTo;
    }
  }

  lemma ResumeStep(cfg: ProgressionConfig, level: int, xp: real, b: real, c: real)
    requires b >= 0.0
    requires level < cfg.cap && CostBelowCap(cfg, level) == Success(c) && c <= xp
    requires Climb(cfg, level + 1, xp - c + b) == Resume(cfg, Climb(cfg, level + 1, xp - c), b)
    ensures Climb(cfg, level, xp + b) == Resume(cfg, Climb(cfg, level, xp), b)
  {
    var inner := Climb(cfg, level + 1, xp - c);
    calc {
      Climb(cfg, level, xp + b);
      { ClimbStep(cfg, level, xp + b, c); assert xp + b - c == xp - c + b; }
      After([level + 1], Climb(cfg, level + 1, xp - c + b));
      After([level + 1], Resume(cfg, inner, b));
      { AfterResume(cfg, [level + 1], inner, b); }
      Resume(cfg, After([level + 1], inner), b);
      { ClimbStep(cfg, level, xp, c); }
      Resume(cfg, Climb(cfg, level, xp), b);
    }
  }

  /** Levels reached before a climb stay in front when it is resumed. */
  lemma AfterResume(cfg: ProgressionConfig, ups: seq<int>, r: Result<LevelUpResult, CurveError>, b: real)
    ensures After(ups, Resume(cfg, r, b)) == Resume(cfg, After(ups, r), b)
  {
    if r.Success? {
      var v := r.value;
      AfterAfter(ups, v.leveledTo, Climb(cfg, v.level, v.remainingXp + b));
    }
  }

  /** Prepending twice is prepending the concatenation. */
  lemma AfterAfter(a: seq<int>, b: seq<int>, r: Result<LevelUpResult, CurveError>)
    ensures After(a, After(b, r)) == After(a + b, r)
  {
    if r.Success? {
      assert a + (b + r.value.leveledTo) == (a + b) + r.value.leveledTo;
    }
  }

  /** One paid level: below the cap, with the cost covered, the climb reaches
      `level + 1` and continues from there. */
  lemma ClimbStep(cfg: ProgressionConfig, level: int, xp: real, c: real)
    requires level < cfg.cap && CostBelowCap(cfg, level) == Success(c) && c <= xp
    ensures Climb(cfg, level, xp) == After([level + 1], Climb(cfg, level + 1, xp - c))
  {
  }

  /** Grants `a` and then `b`, reporting every level reached across both grants. */
  function GrantThen(cfg: ProgressionConfig, p: Profile, a: real, b: real): Result<(Profile, LevelUpResult), CurveError> {
    match AddXp(cfg, p, a)
    case Failure(e) => Failure(e)
    case Success(first) =>
      match AddXp(cfg, first.0, b)
      case Failure(e) => Failure(e)
      case Success(second) => Success((second.0, second.1.(leveledTo := first.1.leveledTo + second.1.leveledTo)))
  }

  /** Granting `a` and then `b` leaves the profile where granting `a + b` at once
      does, with the same levels reached in the same order and the same failure:
      splitting a grant does not change the leveling. */
  lemma SplitGrant(cfg: ProgressionConfig, p: Profile, a: real, b: real)
    requires a > 0.0 && b > 0.0
    ensures AddXp(cfg, p, a + b) == GrantThen(cfg, p, a, b)
  {
    var first := Climb(cfg, p.level, p.xp + a);
    var whole := Climb(cfg, p.level, p.xp + (a + b));
    assert whole == Resume(cfg, first, b) by {
      assert p.xp + (a + b) == (p.xp + a) + b;
      ClimbExtends(cfg, p.level, p.xp + a, b);
    }
    calc {
      AddXp(cfg, p, a + b);
      { AddXpSettles(cfg, p, a + b); }
      Settle(cfg, p, whole);
      { SettleResume(cfg, p, first, b); }
      SettleThen(cfg, p, first, b);
      { GrantThenSettles(cfg, p, a, b); }
      GrantThen(cfg, p, a, b);
    }
  }

  /** A positive grant is the climb from the profile's level with the grant added
      to its experience, settled. */
  lemma AddXpSettles(cfg: ProgressionConfig, p: Profile, amount: real)
    requires amount > 0.0
    ensures AddXp(cfg, p, amount) == Settle(cfg, p, Climb(cfg, p.level, p.xp + amount))
  {
  }

  /** Settles a climb, then climbs again from the settled profile with `b` more
      experience and settles that, reporting the levels of both. */
  function SettleThen(cfg: ProgressionConfig, p: Profile, first: Result<LevelUpResult, CurveError>, b: real): Result<(Profile, LevelUpResult), CurveError> {
    match Settle(cfg, p, first)
    case Failure(e) => Failure(e)
    case Success(f) =>
      match Settle(cfg, f.0, Climb(cfg, f.0.level, f.0.xp + b))
      case Failure(e) => Failure(e)
      case Success(s) => Success((s.0, s.1.(leveledTo := f.1.leveledTo + s.1.leveledTo)))
  }

  /** Two positive grants in a row are two settled climbs in a row. */
  lemma GrantThenSettles(cfg: ProgressionConfig, p: Profile, a: real, b: real)
    requires a > 0.0 && b > 0.0
    ensures GrantThen(cfg, p, a, b) == SettleThen(cfg, p, Climb(cfg, p.level, p.xp + a), b)
  {
    AddXpSettles(cfg, p, a);
    var first := Settle(cfg, p, Climb(cfg, p.level, p.xp + a));
    if first.Success? {
      AddXpSettles(cfg, first.value.0, b);
    }
  }

  /** Settling a resumed climb is settling the first part and then the rest: the
      cap clamp in between loses nothing, because a climb that starts at the cap
      gains no level. */
  lemma SettleResume(cfg: ProgressionConfig, p: Profile, first: Result<LevelUpResult, CurveError>, b: real)
    ensures Settle(cfg, p, Resume(cfg, first, b)) == SettleThen(cfg, p, first, b)
  {
    if first.Success? {
      var v := first.value;
      if v.level >= cfg.cap {
        SettleResumeAtCap(cfg, p, v, b);
      } else {
        SettleAfter(cfg, p, v, Climb(cfg, v.level, v.remainingXp + b));
      }
    }
  }

  lemma SettleResumeAtCap(cfg: ProgressionConfig, p: Profile, v: LevelUpResult, b: real)
    requires v.level >= cfg.cap
    ensures Settle(cfg, p, Resume(cfg, Success(v), b)) == SettleThen(cfg, p, Success(v), b)
  {
    var q := p.(level := cfg.cap, xp := 0.0);
    assert Settle(cfg, p, Success(v)) == Success((q, LevelUpResult(cfg.cap, 0.0, v.leveledTo)));
    assert Climb(cfg, cfg.cap, 0.0 + b) == Success(LevelUpResult(cfg.cap, 0.0 + b, []));
    assert Climb(cfg, v.level, v.remainingXp + b) == Success(LevelUpResult(v.level, v.remainingXp + b, []));
    assert v.leveledTo + [] == v.leveledTo;
  }

  /** Settling a climb that continues from `v` is settling the continuation from
      the profile `v` left, with `v`'s levels in front. */
  lemma SettleAfter(cfg: ProgressionConfig, p: Profile, v: LevelUpResult, tail: Result<LevelUpResult, CurveError>)
    ensures Settle(cfg, p, After(v.leveledTo, tail)) ==
              match Settle(cfg, p.(level := v.level, xp := v.remainingXp), tail)
              case Failure(e) => Failure(e)
              case Success(second) => Success((second.0, second.1.(leveledTo := v.leveledTo + second.1.leveledTo)))
  {
  }

  /** Both tiers cost a positive amount at every level, and they agree at level 100
      where the high tier takes over. */
  lemma TiersPositiveAndJoined(level: int)
    ensures LowTier(level) > 0.0
    ensures HighTier(level) > 0.0
    ensures LowTier(100) == HighTier(100) == 95375.0
  {
    var l := level as real;
    assert LowTier(level) == 9.0 * (l + 25.0 / 9.0) * (l + 25.0 / 9.0) + 375.0 - 625.0 / 9.0;
    var d := (level - 100) as real;
    assert HighTier(level) == 18.0 * (d + 50.0 / 3.0) * (d + 50.0 / 3.0) + 95375.0 - 5000.0;
  }
}

=== FILE: redis_store.dfy ===
/**
 * The data side of `RedisPlayerDataStore`: one hash per player under a
 * prefixed key, the flat field map a profile is written as, and the lenient
 * reading back that falls to the fresh profile's value for any field that is
 * missing or does not parse.
 */
module RedisStore {
  import opened Wrappers
  import opened JavaText
  import opened HoeSkills
  import opened Profiles
  import SkillCodec

  const KEY_PREFIX: string := "farmgather:profile:"

  /** `key`: the prefix followed by the uuid's text. */
  function Key(u: Uuid): (k: string)
    ensures |k| == |KEY_PREFIX| + |u.text|
    ensures k[..|KEY_PREFIX|] == KEY_PREFIX && k[|KEY_PREFIX|..] == u.text
  {
    KEY_PREFIX + u.text
  }

  /** Two players never share a hash. */
  lemma KeyInjective(u: Uuid, v: Uuid)
    requires Key(u) == Key(v)
    ensures u == v
  {
    assert u.text == Key(u)[|KEY_PREFIX|..];
  }

  /** `String.valueOf(double)` and `Double.parseDouble`, which this model takes
      as given: the decimal text of a double is not modelled. */
  datatype RealText = RealText(show: real -> string, parse: string -> Option<real>)

  /** The text form reads `x` back from what it writes for it. Java's
      shortest-repr text does this for every finite double; a Dafny real has
      no such text, so the property is asked of the values actually written. */
  ghost predicate ReadsBack(text: RealText, x: real) {
    text.parse(text.show(x)) == Some(x)
  }

  /** The text form reads back every real field of `p`. */
  ghost predicate RealsReadBackFor(text: RealText, p: Profile) {
    && ReadsBack(text, p.xp) && ReadsBack(text, p.mastery) && ReadsBack(text, p.energy)
    && ReadsBack(text, p.comboOverrideWindow)
    && ReadsBack(text, p.lastYaw) && ReadsBack(text, p.lastPitch) && ReadsBack(text, p.lastTargetDistance)
  }

  /** For every profile some text form reads back its real fields: one that
      names each of the seven values by its place and reads the names back. */
  lemma SomeTextReadsBack(p: Profile) returns (text: RealText)
    ensures RealsReadBackFor(text, p)
  {
    var show := (x: real) =>
      if x == p.xp then "0" else if x == p.mastery then "1" else if x == p.energy then "2"
      else if x == p.comboOverrideWindow then "3" else if x == p.lastYaw then "4"
      else if x == p.lastPitch then "5" else if x == p.lastTargetDistance then "6" else "";
    var parse := (s: string) =>
      if s == "0" then Some(p.xp) else if s == "1" then Some(p.mastery) else if s == "2" then Some(p.energy)
      else if s == "3" then Some(p.comboOverrideWindow) else if s == "4" then Some(p.lastYaw)
      else if s == "5" then Some(p.lastPitch) else if s == "6" then Some(p.lastTargetDistance) else None;
    text := RealText(show, parse);
  }

  /** The hash fields `applyProfile` and `serializeProfile` know; any other
      field of a hash is never read, so the hash is keyed by these. */
  datatype Field =
    | UuidField
    | LevelField
    | XpField
    | MasteryField
    | EnergyField
    | LastEnergyTickField
    | LastHarvestAtField
    | ActionCooldownEndField
    | LastBlockTypeField
    | ComboCountField
    | ComboExpireAtField
    | ComboOverrideWindowField
    | ComboOverrideUntilField
    | LastYawField
    | LastPitchField
    | LastTargetDistanceField
    | HoeSkillsField
    | GuildIdField
    | LastGuildHarvestAtField

  /** The field's name in the hash. */
  function FieldName(f: Field): string {
    match f
    case UuidField => "uuid"
    case LevelField => "level"
    case XpField => "xp"
    case MasteryField => "mastery"
    case EnergyField => "energy"
    case LastEnergyTickField => "last_energy_tick"
    case LastHarvestAtField => "last_harvest_at"
    case ActionCooldownEndField => "action_cooldown_end"
    case LastBlockTypeField => "last_block_type"
    case ComboCountField => "combo_count"
    case ComboExpireAtField => "combo_expire_at"
    case ComboOverrideWindowField => "combo_override_window"
    case ComboOverrideUntilField => "combo_override_until"
    case LastYawField => "last_yaw"
    case LastPitchField => "last_pitch"
    case LastTargetDistanceField => "last_target_distance"
    case HoeSkillsField => "hoe_skills"
    case GuildIdField => "guild_id"
    case LastGuildHarvestAtField => "last_guild_harvest_at"
  }

  /** Distinct fields have distinct names. */
  lemma FieldNamesDistinct(f: Field, g: Field)
    requires FieldName(f) == FieldName(g)
    ensures f == g
  {
  }

  /** One player's hash. */
  type Hash = map<Field, string>

  /** The text `serializeProfile` writes for a field, or `None` when the field
      is left out: the last block type, the skill encoding and the guild id are
      omitted when absent (null). */
  function FieldValue(p: Profile, text: RealText, f: Field): Option<string> {
    match f
    case UuidField => Some(p.uuid.text)
    case LevelField => Some(ShowInt(p.level))
    case XpField => Some(text.show(p.xp))
    case MasteryField => Some(text.show(p.mastery))
    case EnergyField => Some(text.show(p.energy))
    case LastEnergyTickField => Some(ShowInt(p.lastEnergyTick))
    case LastHarvestAtField => Some(ShowInt(p.lastHarvestAt))
    case ActionCooldownEndField => Some(ShowInt(p.actionCooldownEnd))
    case LastBlockTypeField => p.lastBlockType
    case ComboCountField => Some(ShowInt(p.comboCount))
    case ComboExpireAtField => Some(ShowInt(p.comboExpireAt))
    case ComboOverrideWindowField => Some(text.show(p.comboOverrideWindow))
    case ComboOverrideUntilField => Some(ShowInt(p.comboOverrideUntil))
    case LastYawField => Some(text.show(p.lastYaw))
    case LastPitchField => Some(text.show(p.lastPitch))
    case LastTargetDistanceField => Some(text.show(p.lastTargetDistance))
    case HoeSkillsField => SkillCodec.Encode(p.skills)
    case GuildIdField => p.guildId
    case LastGuildHarvestAtField => Some(ShowInt(p.lastGuildHarvestAt))
  }

  /** `serializeProfile`: every field as text; the optional ones only when present. */
  function Serialize(p: Profile, text: RealText): (m: Hash)
    ensures UuidField in m && m[UuidField] == p.uuid.text
    ensures LevelField in m && m[LevelField] == ShowInt(p.level)
    ensures LastBlockTypeField in m <==> p.lastBlockType.Some?
    ensures GuildIdField in m <==> p.guildId.Some?
    ensures HoeSkillsField in m <==> exists t | t in p.skills :: p.skills[t] > 0
    ensures |m| > 0
  {
    var m := map f: Field | FieldValue(p, text, f).Some? :: FieldValue(p, text, f).value;
    assert UuidField in m;
    m
  }

  /** `data.get(key)`: the field, or `None` for Java's null. */
  function Get(data: Hash, key: Field): (r: Option<string>)
    ensures r.Some? <==> key in data
    ensures r.Some? ==> r.value == data[key]
  {
    if key in data then Some(data[key]) else None
  }

  /** `parseInt(value, fallback)`. */
  function IntOr(v: Option<string>, fallback: int): (r: int)
    ensures v.Some? && ParseJavaInt(v.value).Some? ==> r == ParseJavaInt(v.value).value
    ensures v.None? || ParseJavaInt(v.value).None? ==> r == fallback
  {
    if v.None? then fallback else ParseJavaInt(v.value).GetOr(fallback)
  }

  /** `parseLong(value, fallback)`. */
  function LongOr(v: Option<string>, fallback: int): (r: int)
    ensures v.Some? && ParseJavaLong(v.value).Some? ==> r == ParseJavaLong(v.value).value
    ensures v.None? || ParseJavaLong(v.value).None? ==> r == fallback
  {
    if v.None? then fallback else ParseJavaLong(v.value).GetOr(fallback)
  }

  /** `parseDouble(value, fallback)`. */
  function RealOr(text: RealText, v: Option<string>, fallback: real): (r: real)
    ensures v.Some? && text.parse(v.value).Some? ==> r == text.parse(v.value).value
    ensures v.None? || text.parse(v.value).None? ==> r == fallback
  {
    if v.None? then fallback else text.parse(v.value).GetOr(fallback)
  }

  /** The override is kept only when both its window and its expiry are positive;
      otherwise both halves read as zero. */
  function NormalOverride(window: real, until: int): (r: (real, int))
    ensures window > 0.0 && until > 0 ==> r == (window, until)
    ensures !(window > 0.0 && until > 0) ==> r == (0.0, 0)
  {
    if window > 0.0 && until > 0 then (window, until) else (0.0, 0)
  }

  /** `x` is what field `f` of `data` reads as a 32-bit integer: its parsed
      value when present and parseable, `fallback` otherwise. */
  predicate ReadsInt(data: Hash, f: Field, x: int, fallback: int) {
    if f in data && ParseJavaInt(data[f]).Some? then x == ParseJavaInt(data[f]).value else x == fallback
  }

  /** The same for a 64-bit integer. */
  predicate ReadsLong(data: Hash, f: Field, x: int, fallback: int) {
    if f in data && ParseJavaLong(data[f]).Some? then x == ParseJavaLong(data[f]).value else x == fallback
  }

  /** The same for a double read with `text`. */
  predicate ReadsReal(text: RealText, data: Hash, f: Field, x: real, fallback: real) {
    if f in data && text.parse(data[f]).Some? then x == text.parse(data[f]).value else x == fallback
  }

  /** `applyProfile` on `new PlayerProfile(uuid)` made at clock reading `now`:
      each numeric field parsed with the fresh profile's value as fallback, the
      optional strings taken as they are, the skills decoded. */
  function Apply(data: Hash, uuid: Uuid, now: int, text: RealText): (p: Profile)
    ensures p.uuid == uuid
    ensures p.lastBlockType == Get(data, LastBlockTypeField) && p.guildId == Get(data, GuildIdField)
    ensures p.skills == SkillCodec.Decode(Get(data, HoeSkillsField))
    ensures ReadsInt(data, LevelField, p.level, START_LEVEL)
    ensures ReadsInt(data, ComboCountField, p.comboCount, 0)
    ensures ReadsReal(text, data, XpField, p.xp, 0.0) && ReadsReal(text, data, MasteryField, p.mastery, 0.0)
    ensures ReadsReal(text, data, EnergyField, p.energy, START_ENERGY)
    ensures ReadsLong(data, LastEnergyTickField, p.lastEnergyTick, now)
    ensures ReadsLong(data, LastHarvestAtField, p.lastHarvestAt, 0)
    ensures ReadsLong(data, ActionCooldownEndField, p.actionCooldownEnd, 0)
    ensures ReadsLong(data, ComboExpireAtField, p.comboExpireAt, 0)
    ensures ReadsLong(data, LastGuildHarvestAtField, p.lastGuildHarvestAt, 0)
    ensures ReadsReal(text, data, LastYawField, p.lastYaw, 0.0) && ReadsReal(text, data, LastPitchField, p.lastPitch, 0.0)
    ensures ReadsReal(text, data, LastTargetDistanceField, p.lastTargetDistance, 0.0)
    ensures p.comboOverrideWindow > 0.0 <==> p.comboOverrideUntil > 0
    ensures p.comboOverrideWindow >= 0.0 && p.comboOverrideUntil >= 0
    ensures p.comboOverrideWindow > 0.0 <==>
              RealOr(text, Get(data, ComboOverrideWindowField), 0.0) > 0.0 && LongOr(Get(data, ComboOverrideUntilField), 0) > 0
    ensures p.comboOverrideWindow > 0.0 ==>
              ReadsReal(text, data, ComboOverrideWindowField, p.comboOverrideWindow, 0.0)
              && ReadsLong(data, ComboOverrideUntilField, p.comboOverrideUntil, 0)
  {
    var start := Fresh(uuid, now);
    var ov := NormalOverride(RealOr(text, Get(data, ComboOverrideWindowField), 0.0),
                             LongOr(Get(data, ComboOverrideUntilField), 0));
    Profile(
      uuid,
      IntOr(Get(data, LevelField), start.level),
      RealOr(text, Get(data, XpField), start.xp),
      RealOr(text, Get(data, MasteryField), start.mastery),
      RealOr(text, Get(data, EnergyField), start.energy),
      LongOr(Get(data, LastEnergyTickField), start.lastEnergyTick),
      LongOr(Get(data, LastHarvestAtField), start.lastHarvestAt),
      LongOr(Get(data, ActionCooldownEndField), start.actionCooldownEnd),
      Get(data, LastBlockTypeField),
      IntOr(Get(data, ComboCountField), start.comboCount),
      LongOr(Get(data, ComboExpireAtField), start.comboExpireAt),
      ov.0,
      ov.1,
      RealOr(text, Get(data, LastYawField), start.lastYaw),
      RealOr(text, Get(data, LastPitchField), start.lastPitch),
      RealOr(text, Get(data, LastTargetDistanceField), start.lastTargetDistance),
      SkillCodec.Decode(Get(data, HoeSkillsField)),
      Get(data, GuildIdField),
      LongOr(Get(data, LastGuildHarvestAtField), start.lastGuildHarvestAt)
    )
  }

  /** A hash with none of the profile's fields reads as a fresh profile. */
  lemma ApplyNothing(uuid: Uuid, now: int, text: RealText)
    ensures Apply(map[], uuid, now, text) == Fresh(uuid, now)
  {
  }

  /** The fields of a profile that fit the hash: 32-bit level and combo count,
      64-bit clock readings. */
  predicate Storable(p: Profile) {
    && InIntRange(p.level) && InIntRange(p.comboCount)
    && InLongRange(p.lastEnergyTick) && InLongRange(p.lastHarvestAt) && InLongRange(p.actionCooldownEnd)
    && InLongRange(p.comboExpireAt) && InLongRange(p.comboOverrideUntil) && InLongRange(p.lastGuildHarvestAt)
    && forall t | t in p.skills :: p.skills[t] <= INT_MAX
  }

  /** What a profile reads back as: skills at a non-positive level are not
      written, and a half-set override is cleared. */
  function Restored(p: Profile): (r: Profile)
    ensures r.skills.Keys <= p.skills.Keys
    ensures NoOverride(r) || r.comboOverrideWindow == p.comboOverrideWindow
  {
    var ov := NormalOverride(p.comboOverrideWindow, p.comboOverrideUntil);
    p.(skills := map t | t in p.skills && p.skills[t] > 0 :: p.skills[t],
       comboOverrideWindow := ov.0, comboOverrideUntil := ov.1)
  }

  /** Round trip: reading a written profile back gives the profile itself,
      except for the skills and override `Restored` drops; the clock reading of
      the read does not matter. */
  lemma SerializeApply(p: Profile, now: int, text: RealText)
    requires RealsReadBackFor(text, p)
    requires Storable(p)
    ensures Apply(Serialize(p, text), p.uuid, now, text) == Restored(p)
  {
    var r := Apply(Serialize(p, text), p.uuid, now, text);
    IntegersReadBack(p, now, text);
    ClockReadingsReadBack(p, now, text);
    RealsReadBack(p, now, text);
    ViewReadBack(p, now, text);
    OverrideReadBack(p, now, text);
    OptionalsReadBack(p, now, text);
    var q := Restored(p);
    assert r.uuid == q.uuid && r.skills == q.skills;
    assert r.comboOverrideWindow == q.comboOverrideWindow && r.comboOverrideUntil == q.comboOverrideUntil;
  }

  lemma OptionalsReadBack(p: Profile, now: int, text: RealText)
    requires forall t | t in p.skills :: p.skills[t] <= INT_MAX
    ensures var r := Apply(Serialize(p, text), p.uuid, now, text);
            && r.lastBlockType == p.lastBlockType && r.guildId == p.guildId
            && r.skills == map t | t in p.skills && p.skills[t] > 0 :: p.skills[t]
  {
    var m := Serialize(p, text);
    assert Get(m, HoeSkillsField) == SkillCodec.Encode(p.skills);
    assert Get(m, LastBlockTypeField) == p.lastBlockType;
    assert Get(m, GuildIdField) == p.guildId;
    SkillCodec.EncodeDecode(p.skills);
  }

  lemma IntegersReadBack(p: Profile, now: int, text: RealText)
    requires Storable(p)
    ensures var r := Apply(Serialize(p, text), p.uuid, now, text);
            && r.level == p.level && r.comboCount == p.comboCount
  {
    var start := Fresh(p.uuid, now);
    IntReadsBack(p, text, LevelField, p.level, start.level);
    IntReadsBack(p, text, ComboCountField, p.comboCount, start.comboCount);
  }

  lemma ClockReadingsReadBack(p: Profile, now: int, text: RealText)
    requires Storable(p)
    ensures var r := Apply(Serialize(p, text), p.uuid, now, text);
            && r.lastEnergyTick == p.lastEnergyTick && r.lastHarvestAt == p.lastHarvestAt
            && r.actionCooldownEnd == p.actionCooldownEnd && r.comboExpireAt == p.comboExpireAt
            && r.lastGuildHarvestAt == p.lastGuildHarvestAt
  {
    EnergyTickReadBack(p, now, text);
    HarvestAtReadBack(p, now, text);
    CooldownEndReadBack(p, now, text);
    ExpireAtReadBack(p, now, text);
    GuildHarvestAtReadBack(p, now, text);
  }

  lemma EnergyTickReadBack(p: Profile, now: int, text: RealText)
    requires InLongRange(p.lastEnergyTick)
    ensures Apply(Serialize(p, text), p.uuid, now, text).lastEnergyTick == p.lastEnergyTick
  {
    LongReadsBack(p, text, LastEnergyTickField, p.lastEnergyTick, now);
  }

  lemma HarvestAtReadBack(p: Profile, now: int, text: RealText)
    requires InLongRange(p.lastHarvestAt)
    ensures Apply(Serialize(p, text), p.uuid, now, text).lastHarvestAt == p.lastHarvestAt
  {
    LongReadsBack(p, text, LastHarvestAtField, p.lastHarvestAt, 0);
  }

  lemma CooldownEndReadBack(p: Profile, now: int, text: RealText)
    requires InLongRange(p.actionCooldownEnd)
    ensures Apply(Serialize(p, text), p.uuid, now, text).actionCooldownEnd == p.actionCooldownEnd
  {
    LongReadsBack(p, text, ActionCooldownEndField, p.actionCooldownEnd, 0);
  }

  lemma ExpireAtReadBack(p: Profile, now: int, text: RealText)
    requires InLongRange(p.comboExpireAt)
    ensures Apply(Serialize(p, text), p.uuid, now, text).comboExpireAt == p.comboExpireAt
  {
    LongReadsBack(p, text, ComboExpireAtField, p.comboExpireAt, 0);
  }

  lemma GuildHarvestAtReadBack(p: Profile, now: int, text: RealText)
    requires InLongRange(p.lastGuildHarvestAt)
    ensures Apply(Serialize(p, text), p.uuid, now, text).lastGuildHarvestAt == p.lastGuildHarvestAt
  {
    LongReadsBack(p, text, LastGuildHarvestAtField, p.lastGuildHarvestAt, 0);
  }

  /** A 32-bit integer written in decimal is read back, whatever the fallback. */
  lemma IntReadsBack(p: Profile, text: RealText, f: Field, x: int, fallback: int)
    requires InIntRange(x) && FieldValue(p, text, f) == Some(ShowInt(x))
    ensures IntOr(Get(Serialize(p, text), f), fallback) == x
  {
    SerializeGet(p, text, f);
    ParseShowInt(x, INT_MIN, INT_MAX);
  }

  /** A 64-bit integer written in decimal is read back, whatever the fallback. */
  lemma LongReadsBack(p: Profile, text: RealText, f: Field, x: int, fallback: int)
    requires InLongRange(x) && FieldValue(p, text, f) == Some(ShowInt(x))
    ensures LongOr(Get(Serialize(p, text), f), fallback) == x
  {
    SerializeGet(p, text, f);
    ParseShowInt(x, LONG_MIN, LONG_MAX);
  }

  lemma RealsReadBack(p: Profile, now: int, text: RealText)
    requires ReadsBack(text, p.xp) && ReadsBack(text, p.mastery) && ReadsBack(text, p.energy)
    ensures var r := Apply(Serialize(p, text), p.uuid, now, text);
            && r.xp == p.xp && r.mastery == p.mastery && r.energy == p.energy
  {
    var start := Fresh(p.uuid, now);
    RealReadsBack(p, text, XpField, p.xp, start.xp);
    RealReadsBack(p, text, MasteryField, p.mastery, start.mastery);
    RealReadsBack(p, text, EnergyField, p.energy, start.energy);
  }

  lemma ViewReadBack(p: Profile, now: int, text: RealText)
    requires ReadsBack(text, p.lastYaw) && ReadsBack(text, p.lastPitch) && ReadsBack(text, p.lastTargetDistance)
    ensures var r := Apply(Serialize(p, text), p.uuid, now, text);
            && r.lastYaw == p.lastYaw && r.lastPitch == p.lastPitch
            && r.lastTargetDistance == p.lastTargetDistance
  {
    var start := Fresh(p.uuid, now);
    RealReadsBack(p, text, LastYawField, p.lastYaw, start.lastYaw);
    RealReadsBack(p, text, LastPitchField, p.lastPitch, start.lastPitch);
    RealReadsBack(p, text, LastTargetDistanceField, p.lastTargetDistance, start.lastTargetDistance);
  }

  lemma OverrideReadBack(p: Profile, now: int, text: RealText)
    requires ReadsBack(text, p.comboOverrideWindow)
    requires InLongRange(p.comboOverrideUntil)
    ensures var r := Apply(Serialize(p, text), p.uuid, now, text);
            && r.comboOverrideWindow == NormalOverride(p.comboOverrideWindow, p.comboOverrideUntil).0
            && r.comboOverrideUntil == NormalOverride(p.comboOverrideWindow, p.comboOverrideUntil).1
  {
    RealReadsBack(p, text, ComboOverrideWindowField, p.comboOverrideWindow, 0.0);
    LongReadsBack(p, text, ComboOverrideUntilField, p.comboOverrideUntil, 0);
  }

  /** Reading a field of the written hash gives the text written for it. */
  lemma SerializeGet(p: Profile, text: RealText, f: Field)
    ensures Get(Serialize(p, text), f) == FieldValue(p, text, f)
  {
  }

  /** A real the text form reads back is read back from its field, whatever
      the fallback. */
  lemma RealReadsBack(p: Profile, text: RealText, f: Field, x: real, fallback: real)
    requires ReadsBack(text, x) && FieldValue(p, text, f) == Some(text.show(x))
    ensures RealOr(text, Get(Serialize(p, text), f), fallback) == x
  {
    SerializeGet(p, text, f);
  }

  /** The hashes the server holds, by key. */
  type Hashes = map<string, Hash>

  /** `loadProfile` on the hashes: an absent or empty hash is no profile, not a
      fresh one. */
  function Load(hashes: Hashes, uuid: Uuid, now: int, text: RealText): (r: Option<Profile>)
    ensures r.None? <==> Key(uuid) !in hashes || |hashes[Key(uuid)]| == 0
    ensures r.Some? ==> r.value == Apply(hashes[Key(uuid)], uuid, now, text)
  {
    var k := Key(uuid);
    if k !in hashes || |hashes[k]| == 0 then None else Some(Apply(hashes[k], uuid, now, text))
  }

  /** `del key(uuid)`: the player's hash is gone; other keys are untouched. */
  function Delete(hashes: Hashes, u: Uuid): (r: Hashes)
    ensures Key(u) !in r
    ensures forall k | k != Key(u) :: (k in r <==> k in hashes) && (k in r ==> r[k] == hashes[k])
  {
    map j | j in hashes && j != Key(u) :: hashes[j]
  }

  /** After its hash is deleted a player loads as no profile, and every other
      player loads as before. */
  lemma LoadAfterDelete(hashes: Hashes, u: Uuid, other: Uuid, now: int, text: RealText)
    ensures Load(Delete(hashes, u), u, now, text).None?
    ensures other != u ==> Load(Delete(hashes, u), other, now, text) == Load(hashes, other, now, text)
  {
  }

  /** `saveProfile` on the hashes: the key is deleted and then written, so the
      hash becomes exactly the payload; other keys are untouched. */
  function Save(hashes: Hashes, p: Profile, text: RealText): (r: Hashes)
    ensures Key(p.uuid) in r && r[Key(p.uuid)] == Serialize(p, text)
    ensures forall k | k != Key(p.uuid) :: (k in r <==> k in hashes) && (k in r ==> r[k] == hashes[k])
  {
    Delete(hashes, p.uuid)[Key(p.uuid) := Serialize(p, text)]
  }

  /** Loading right after a save reads the saved profile back. */
  lemma LoadAfterSave(hashes: Hashes, p: Profile, now: int, text: RealText)
    requires RealsReadBackFor(text, p) && Storable(p)
    ensures Load(Save(hashes, p, text), p.uuid, now, text) == Some(Restored(p))
  {
    SerializeApply(p, now, text);
  }

  /** A save leaves every other player's load as it was. */
  lemma SaveIsolated(hashes: Hashes, p: Profile, other: Uuid, now: int, text: RealText)
    requires other != p.uuid
    ensures Load(Save(hashes, p, text), other, now, text) == Load(hashes, other, now, text)
  {
    if Key(other) == Key(p.uuid) {
      KeyInjective(other, p.uuid);
    }
  }
}

=== FILE: skill_codec.dfy ===
/**
 * `ProfileSkillCodec`: the skill loadout as text, `TYPE:level` pairs joined by
 * commas in declaration order. Encoding skips non-positive levels; decoding is
 * lenient and drops each malformed pair on its own.
 */
module SkillCodec {
  import opened Wrappers
  import opened JavaText
  import opened HoeSkills
  import opened Profiles

  /** The skills held at a positive level, the only ones the encoding keeps. */
  function Positive(m: map<SkillType, int>): map<SkillType, int> {
    map t | t in m && m[t] > 0 :: m[t]
  }

  /** One pair of the encoding: the type's name, a colon, the level in decimal. */
  function Token(t: SkillType, level: int): string {
    Name(t) + ":" + ShowInt(level)
  }

  /** `t` is held at a positive level, so the encoder writes it. */
  predicate Written(m: map<SkillType, int>, t: SkillType) {
    t in m && m[t] > 0
  }

  /** The pairs for the first `n` types in declaration order (the `EnumMap`
      iteration order), non-positive levels skipped. */
  function TokensUpTo(m: map<SkillType, int>, n: nat): (r: seq<string>)
    requires n <= |AllTypes|
    ensures |r| <= n
  {
    if n == 0 then []
    else
      var t := AllTypes[n - 1];
      TokensUpTo(m, n - 1) + (if Written(m, t) then [Token(t, m[t])] else [])
  }

  /** `encode`: `None` (Java's null) when the map is empty or holds no positive
      level, otherwise the pairs joined by commas. */
  function Encode(m: map<SkillType, int>): (r: Option<string>)
    ensures r.None? <==> forall t | t in m :: m[t] <= 0
    ensures r.Some? ==> |r.value| > 0 && r.value[0] != ',' && r.value[|r.value| - 1] != ','
  {
    var tokens := TokensUpTo(m, |AllTypes|);
    NoWrittenMeansNoTokens(m);
    if |m| == 0 || |tokens| == 0 then None
    else
      TokensWellFormed(m, |AllTypes|);
      JoinEnds(tokens, ',');
      Some(Join(tokens, ','))
  }

  /** The type and positive level one pair decodes to, or `None` when the pair
      is malformed: not exactly two colon-separated parts, an unknown type, a
      level `Integer.parseInt` refuses, or a level that is not positive. */
  function DecodeToken(token: string): (r: Option<(SkillType, int)>)
    ensures r.Some? ==> r.value.1 > 0 && InIntRange(r.value.1)
    ensures r.Some? <==>
              var pair := JavaSplit(token, ':');
              |pair| == 2 && FromKey(pair[0]).Success? && ParseJavaInt(pair[1]).Some? && ParseJavaInt(pair[1]).value > 0
    ensures r.Some? ==> NameMatches(JavaSplit(token, ':')[0], r.value.0)
    ensures r.Some? ==> r.value.1 == ParseJavaInt(JavaSplit(token, ':')[1]).value
  {
    var pair := JavaSplit(token, ':');
    if |pair| != 2 then None
    else match FromKey(pair[0])
      case Failure(_) => None
      case Success(t) =>
        match ParseJavaInt(pair[1])
        case None => None
        case Some(level) => if level > 0 then Some((t, level)) else None
  }

  /** The type and level the last well-formed pair for `t` carries, if any. */
  function LastFor(tokens: seq<string>, t: SkillType): Option<int> {
    if |tokens| == 0 then None
    else
      var last := DecodeToken(tokens[|tokens| - 1]);
      if last.Some? && last.value.0 == t then Some(last.value.1)
      else LastFor(tokens[..|tokens| - 1], t)
  }

  /** The decoding loop over `tokens`, starting from the skills in `acc`: each
      well-formed pair overwrites its type's entry, malformed pairs are skipped.
      Afterwards every type holds the level of its last well-formed pair, or
      what it held before when it has none. */
  function ApplyTokens(acc: map<SkillType, int>, tokens: seq<string>): (r: map<SkillType, int>)
    ensures forall t :: t in r <==> t in acc || LastFor(tokens, t).Some?
    ensures forall t | LastFor(tokens, t).Some? :: r[t] == LastFor(tokens, t).value
    ensures forall t | LastFor(tokens, t).None? && t in acc :: r[t] == acc[t]
  {
    if |tokens| == 0 then acc
    else
      var before := ApplyTokens(acc, tokens[..|tokens| - 1]);
      match DecodeToken(tokens[|tokens| - 1])
      case None => before
      case Some((t, level)) => before[t := level]
  }

  /** `decode`: the skills the profile holds afterwards. The old skills are
      always cleared; null or blank text leaves none. */
  function Decode(encoded: Option<string>): (r: map<SkillType, int>)
    ensures encoded.None? || IsBlank(encoded.value) ==> r == map[]
    ensures forall t | t in r :: r[t] > 0
  {
    if encoded.None? || IsBlank(encoded.value) then map[]
    else
      var r := ApplyTokens(map[], JavaSplit(encoded.value, ','));
      assert forall t | t in r :: LastFor(JavaSplit(encoded.value, ','), t).Some?;
      LastForPositive(JavaSplit(encoded.value, ','));
      r
  }

  /** `decode(encoded, profile)`: the profile with its skills replaced. */
  function DecodeInto(p: Profile, encoded: Option<string>): (r: Profile)
    ensures r.uuid == p.uuid && r.skills == Decode(encoded)
    ensures r.(skills := p.skills) == p
  {
    ClearSkills(p).(skills := Decode(encoded))
  }

  // ---------------------------------------------------------------------------
  // Properties
  // ---------------------------------------------------------------------------

  lemma {:induction false} LastForPositive(tokens: seq<string>)
    ensures forall t | LastFor(tokens, t).Some? :: LastFor(tokens, t).value > 0
  {
    if |tokens| > 0 {
      LastForPositive(tokens[..|tokens| - 1]);
    }
  }

  /** Splitting a pair on its colon gives back the name and the digits. */
  lemma TokenSplits(t: SkillType, level: int)
    ensures JavaSplit(Token(t, level), ':') == [Name(t), ShowInt(level)]
  {
    var pieces := [Name(t), ShowInt(level)];
    ShowIntChars(level);
    assert pieces[1..] == [ShowInt(level)];
    assert Join(pieces, ':') == Token(t, level);
    assert SeparatorFree(pieces, ':') by {
      forall k, j | 0 <= k < 2 && 0 <= j < |pieces[k]| ensures pieces[k][j] != ':' {
        if k == 0 { assert t == Sweep || t == Focus || t == DoubleTap || t == Shears; }
      }
    }
    JavaSplitJoin(pieces, ':');
  }

  /** A pair the encoder writes decodes to its own type and level. */
  lemma TokenDecodes(t: SkillType, level: int)
    requires 0 < level <= INT_MAX
    ensures DecodeToken(Token(t, level)) == Some((t, level))
  {
    TokenSplits(t, level);
    FromKeyName(t);
    ParseShowInt(level, INT_MIN, INT_MAX);
  }

  /** The encoder's pairs are non-empty and hold neither separator comma. */
  lemma {:induction false} TokensWellFormed(m: map<SkillType, int>, n: nat)
    requires n <= |AllTypes|
    ensures forall k | 0 <= k < |TokensUpTo(m, n)| :: TokensUpTo(m, n)[k] != ""
    ensures forall k | 0 <= k < |TokensUpTo(m, n)| :: 'A' <= TokensUpTo(m, n)[k][0] <= 'Z'
    ensures SeparatorFree(TokensUpTo(m, n), ',')
  {
    if n > 0 {
      TokensWellFormed(m, n - 1);
      var t := AllTypes[n - 1];
      if Written(m, t) {
        ShowIntChars(m[t]);
        var tok := Token(t, m[t]);
        assert forall j | 0 <= j < |tok| :: tok[j] != ',' by {
          assert t == Sweep || t == Focus || t == DoubleTap || t == Shears;
        }
      }
    }
  }

  lemma {:induction false} NoTokensUpTo(m: map<SkillType, int>, n: nat)
    requires n <= |AllTypes|
    ensures |TokensUpTo(m, n)| == 0 <==> forall i | 0 <= i < n :: !Written(m, AllTypes[i])
  {
    if n > 0 {
      NoTokensUpTo(m, n - 1);
    }
  }

  /** Without a positive level there is no pair to write. */
  lemma NoWrittenMeansNoTokens(m: map<SkillType, int>)
    ensures |TokensUpTo(m, |AllTypes|)| == 0 <==> forall t | t in m :: m[t] <= 0
  {
    NoTokensUpTo(m, |AllTypes|);
    forall t | t in m && m[t] > 0 ensures exists i | 0 <= i < |AllTypes| :: Written(m, AllTypes[i]) {
      assert Written(m, AllTypes[Ordinal(t)]);
    }
  }

  /** A join of non-empty, comma-free pieces neither starts nor ends with a comma. */
  lemma {:induction false} JoinEnds(pieces: seq<string>, c: char)
    requires |pieces| >= 1
    requires forall k | 0 <= k < |pieces| :: pieces[k] != ""
    requires SeparatorFree(pieces, c)
    ensures |Join(pieces, c)| > 0
    ensures Join(pieces, c)[0] == pieces[0][0]
    ensures Join(pieces, c)[|Join(pieces, c)| - 1] == pieces[|pieces| - 1][|pieces[|pieces| - 1]| - 1]
    ensures Join(pieces, c)[0] != c && Join(pieces, c)[|Join(pieces, c)| - 1] != c
  {
    if |pieces| > 1 {
      var rest := pieces[1..];
      assert SeparatorFree(rest, c) by {
        forall k, j | 0 <= k < |rest| && 0 <= j < |rest[k]| ensures rest[k][j] != c {
          assert rest[k] == pieces[k + 1];
        }
      }
      JoinEnds(rest, c);
      assert rest[|rest| - 1] == pieces[|pieces| - 1];
      assert pieces[0][|pieces[0]| - 1] != c;
    }
    assert pieces[|pieces| - 1][|pieces[|pieces| - 1]| - 1] != c;
  }

  /** A well-formed pair at the end decides its own type and passes the others
      to the pairs before it. */
  lemma LastForSnoc(prefix: seq<string>, tok: string, t: SkillType)
    requires DecodeToken(tok).Some?
    ensures LastFor(prefix + [tok], t) ==
              if DecodeToken(tok).value.0 == t then Some(DecodeToken(tok).value.1) else LastFor(prefix, t)
  {
    assert (prefix + [tok])[..|prefix|] == prefix;
  }

  /** The last pair the encoder writes for `t` carries `t`'s level, and there is
      none for a type it skips. */
  lemma {:induction false} LastForTokens(m: map<SkillType, int>, n: nat, t: SkillType)
    requires n <= |AllTypes|
    requires forall u | Written(m, u) :: m[u] <= INT_MAX
    ensures LastFor(TokensUpTo(m, n), t) == Expected(m, n, t)
  {
    if n > 0 {
      LastForTokens(m, n - 1, t);
      var u := AllTypes[n - 1];
      if Written(m, u) {
        LastForTokensWritten(m, n, t);
      } else {
        LastForTokensSkipped(m, n, t);
      }
    }
  }

  /** What the last pair for `t` among the first `n` types' pairs carries. */
  function Expected(m: map<SkillType, int>, n: nat, t: SkillType): Option<int> {
    if Ordinal(t) < n && Written(m, t) then Some(m[t]) else None
  }

  lemma LastForTokensWritten(m: map<SkillType, int>, n: nat, t: SkillType)
    requires 0 < n <= |AllTypes| && Written(m, AllTypes[n - 1]) && m[AllTypes[n - 1]] <= INT_MAX
    requires LastFor(TokensUpTo(m, n - 1), t) == Expected(m, n - 1, t)
    ensures LastFor(TokensUpTo(m, n), t) == Expected(m, n, t)
  {
    var u := AllTypes[n - 1];
    assert Ordinal(u) == n - 1;
    assert TokensUpTo(m, n) == TokensUpTo(m, n - 1) + [Token(u, m[u])];
    LastForAppended(TokensUpTo(m, n - 1), u, m[u], t);
  }

  lemma LastForTokensSkipped(m: map<SkillType, int>, n: nat, t: SkillType)
    requires 0 < n <= |AllTypes| && !Written(m, AllTypes[n - 1])
    requires LastFor(TokensUpTo(m, n - 1), t) == Expected(m, n - 1, t)
    ensures LastFor(TokensUpTo(m, n), t) == Expected(m, n, t)
  {
    var u := AllTypes[n - 1];
    assert Ordinal(u) == n - 1;
    assert TokensUpTo(m, n) == TokensUpTo(m, n - 1) + [];
    assert TokensUpTo(m, n - 1) + [] == TokensUpTo(m, n - 1);
  }

  /** A pair the encoder writes, put last, decides its own type. */
  lemma LastForAppended(prefix: seq<string>, u: SkillType, level: int, t: SkillType)
    requires 0 < level <= INT_MAX
    ensures LastFor(prefix + [Token(u, level)], t) == if u == t then Some(level) else LastFor(prefix, t)
  {
    TokenDecodes(u, level);
    LastForSnoc(prefix, Token(u, level), t);
  }

  /** Round trip: decoding what `encode` wrote gives back exactly the skills
      held at a positive level. */
  lemma EncodeDecode(m: map<SkillType, int>)
    requires forall t | t in m :: m[t] <= INT_MAX
    ensures Decode(Encode(m)) == Positive(m)
  {
    NoWrittenMeansNoTokens(m);
    if Encode(m).None? {
      assert Positive(m) == map[];
    } else {
      EncodedSplits(m);
      TokensDecode(m);
    }
  }

  /** The text `encode` writes is not blank and splits back into its pairs. */
  lemma EncodedSplits(m: map<SkillType, int>)
    requires Encode(m).Some?
    ensures !IsBlank(Encode(m).value)
    ensures JavaSplit(Encode(m).value, ',') == TokensUpTo(m, |AllTypes|)
  {
    var tokens := TokensUpTo(m, |AllTypes|);
    NoWrittenMeansNoTokens(m);
    TokensWellFormed(m, |AllTypes|);
    JavaSplitJoin(tokens, ',');
    JoinEnds(tokens, ',');
    var s := Join(tokens, ',');
    assert Encode(m).value == s;
    assert s[0] == tokens[0][0];
    BlankHasNoLetterStart(s);
  }

  /** Decoding the encoder's pairs from no skills gives the positive levels. */
  lemma TokensDecode(m: map<SkillType, int>)
    requires forall t | t in m :: m[t] <= INT_MAX
    ensures ApplyTokens(map[], TokensUpTo(m, |AllTypes|)) == Positive(m)
  {
    var positive := Positive(m);
    var r := ApplyTokens(map[], TokensUpTo(m, |AllTypes|));
    forall t ensures (t in r <==> t in positive) && (t in r ==> r[t] == positive[t]) {
      LastForTokens(m, |AllTypes|, t);
    }
    assert r == positive;
  }

  /** A malformed pair contributes nothing to any type's last pair. */
  lemma {:induction false} LastForSkips(a: seq<string>, bad: string, b: seq<string>, t: SkillType)
    requires DecodeToken(bad).None?
    ensures LastFor(a + [bad] + b, t) == LastFor(a + b, t)
    decreases |b|
  {
    if |b| == 0 {
      LastForBadLast(a, bad, b, t);
    } else {
      LastForSkips(a, bad, b[..|b| - 1], t);
      LastForSkipsStep(a, bad, b, t);
    }
  }

  lemma LastForSkipsStep(a: seq<string>, bad: string, b: seq<string>, t: SkillType)
    requires |b| > 0
    requires LastFor(a + [bad] + b[..|b| - 1], t) == LastFor(a + b[..|b| - 1], t)
    ensures LastFor(a + [bad] + b, t) == LastFor(a + b, t)
  {
    SnocSplit(a + [bad], b);
    SnocSplit(a, b);
    LastForSameLast(a + [bad] + b[..|b| - 1], a + b[..|b| - 1], b[|b| - 1], t);
  }

  /** A non-empty tail splits off its last element. */
  lemma SnocSplit(x: seq<string>, b: seq<string>)
    requires |b| > 0
    ensures x + b == (x + b[..|b| - 1]) + [b[|b| - 1]]
  {
    assert b == b[..|b| - 1] + [b[|b| - 1]];
  }

  /** A malformed pair at the end is skipped. */
  lemma LastForBadLast(a: seq<string>, bad: string, b: seq<string>, t: SkillType)
    requires DecodeToken(bad).None? && |b| == 0
    ensures LastFor(a + [bad] + b, t) == LastFor(a + b, t)
  {
    assert a + [bad] + b == a + [bad];
    assert a + b == a;
    assert (a + [bad])[..|a|] == a;
  }

  /** The same pair appended to two token lists that agree on `t` keeps them agreeing. */
  lemma LastForSameLast(x: seq<string>, y: seq<string>, tok: string, t: SkillType)
    requires LastFor(x, t) == LastFor(y, t)
    ensures LastFor(x + [tok], t) == LastFor(y + [tok], t)
  {
    assert (x + [tok])[..|x|] == x;
    assert (y + [tok])[..|y|] == y;
  }

  /** A malformed pair is dropped on its own: decoding with it gives the same
      skills as decoding without it, whatever surrounds it. */
  lemma DropMalformed(acc: map<SkillType, int>, a: seq<string>, bad: string, b: seq<string>)
    requires DecodeToken(bad).None?
    ensures ApplyTokens(acc, a + [bad] + b) == ApplyTokens(acc, a + b)
  {
    forall t ensures LastFor(a + [bad] + b, t) == LastFor(a + b, t) {
      LastForSkips(a, bad, b, t);
    }
    ApplyTokensAgree(acc, a + [bad] + b, a + b);
  }

  /** Token lists that agree on every type's last pair decode alike. */
  lemma ApplyTokensAgree(acc: map<SkillType, int>, x: seq<string>, y: seq<string>)
    requires forall t :: LastFor(x, t) == LastFor(y, t)
    ensures ApplyTokens(acc, x) == ApplyTokens(acc, y)
  {
    var rx, ry := ApplyTokens(acc, x), ApplyTokens(acc, y);
    assert forall t :: t in rx <==> t in ry;
    assert forall t | t in rx :: rx[t] == ry[t];
  }

  /** Of two well-formed pairs for the same type, the later one wins. */
  lemma LaterPairWins(acc: map<SkillType, int>, a: seq<string>, first: string, b: seq<string>, second: string)
    requires DecodeToken(first).Some? && DecodeToken(second).Some?
    requires DecodeToken(first).value.0 == DecodeToken(second).value.0
    ensures var r := ApplyTokens(acc, a + [first] + b + [second]);
            var t := DecodeToken(second).value.0;
            t in r && r[t] == DecodeToken(second).value.1
  {
    var tokens := a + [first] + b + [second];
    assert tokens[|tokens| - 1] == second;
  }

  /** A level written in another script's digits decodes as Java's
      `Integer.parseInt` reads it: fullwidth three is level 3. */
  lemma ScriptDigitLevel()
    ensures DecodeToken("SWEEP:\U{FF13}") == Some((Sweep, 3))
  {
    var pieces := ["SWEEP", "\U{FF13}"];
    assert Join(pieces, ':') == "SWEEP:\U{FF13}";
    assert SeparatorFree(pieces, ':') by {
      forall k, j | 0 <= k < 2 && 0 <= j < |pieces[k]| ensures pieces[k][j] != ':' {
      }
    }
    JavaSplitJoin(pieces, ':');
    FromKeyName(Sweep);
    ScriptDigits();
  }

  /** Every pair the encoder writes starts with an upper-case letter, so the
      text is never blank. */
  lemma BlankHasNoLetterStart(s: string)
    requires |s| > 0 && 'A' <= s[0] <= 'Z'
    ensures !IsBlank(s)
  {
  }
}

=== FILE: skills.dfy ===
/**
 * `SkillManager` and `PlayerSkillState`: the once-a-second energy
 * regeneration, the focus skill with its cooldown and energy gates, and the
 * per-player skill state the focus cooldown lives in.
 */
module Skills {
  import opened Wrappers
  import opened Config
  import opened HoeSkills
  import opened Profiles
  import opened JavaMath

  // ---------------------------------------------------------------------------
  // PlayerSkillState
  // ---------------------------------------------------------------------------

  /** `PlayerSkillState`: a cooldown end per skill type and the end of an active focus. */
  datatype SkillState = SkillState(cooldowns: map<SkillType, int>, focusActiveUntil: int)

  /** `new PlayerSkillState()`. */
  const NewState := SkillState(map[], 0)

  /** `getCooldownEnd`: 0 for a type never set. */
  function CooldownEnd(s: SkillState, t: SkillType): (r: int)
    ensures t !in s.cooldowns ==> r == 0
    ensures t in s.cooldowns ==> r == s.cooldowns[t]
  {
    if t in s.cooldowns then s.cooldowns[t] else 0
  }

  /** `setCooldownEnd`: overwrites, with no stacking. */
  function SetCooldownEnd(s: SkillState, t: SkillType, end: int): (r: SkillState)
    ensures CooldownEnd(r, t) == end
    ensures forall u | u != t :: CooldownEnd(r, u) == CooldownEnd(s, u)
    ensures r.focusActiveUntil == s.focusActiveUntil
  {
    s.(cooldowns := s.cooldowns[t := end])
  }

  /** `setFocusActiveUntil`: independent of the cooldowns. */
  function SetFocusActiveUntil(s: SkillState, until: int): (r: SkillState)
    ensures r.focusActiveUntil == until
    ensures forall t :: CooldownEnd(r, t) == CooldownEnd(s, t)
  {
    s.(focusActiveUntil := until)
  }

  /** A fresh state has no cooldown and no active focus; a later setting of the
      same cooldown replaces the earlier one. */
  lemma CooldownDefaults(s: SkillState, t: SkillType, a: int, b: int)
    ensures CooldownEnd(NewState, t) == 0 && NewState.focusActiveUntil == 0
    ensures SetCooldownEnd(SetCooldownEnd(s, t, a), t, b) == SetCooldownEnd(s, t, b)
  {
  }

  /** `onPlayerQuit`: the player's state is dropped. */
  function OnQuit(states: map<Uuid, SkillState>, u: Uuid): (r: map<Uuid, SkillState>)
    ensures u !in r
    ensures forall v | v != u :: (v in r <==> v in states) && (v in r ==> r[v] == states[v])
  {
    states - {u}
  }

  // ---------------------------------------------------------------------------
  // Energy
  // ---------------------------------------------------------------------------

  /** Milliseconds since the last harvest after which an idle player stops regenerating. */
  const AFK_MILLIS: int := 60000

  /** The player counts as away: regeneration while away is off, the player has
      harvested before, and that was more than a minute ago. */
  predicate Away(cfg: EnergyConfig, p: Profile, now: int) {
    !cfg.regenIfAfk && p.lastHarvestAt != 0 && now - p.lastHarvestAt > AFK_MILLIS
  }

  /** One player's share of `tickEnergy`: below the maximum and not away, the
      energy grows by the fixed regeneration amount, capped at the maximum. */
  function TickOne(cfg: EnergyConfig, p: Profile, now: int): (r: Profile)
    ensures p.energy >= cfg.max as real || Away(cfg, p, now) ==> r == p
    ensures p.energy < cfg.max as real && !Away(cfg, p, now) ==>
              r == p.(energy := MinReal(cfg.max as real, p.energy + cfg.regenPerSec), lastEnergyTick := now)
    ensures r.energy <= cfg.max as real || r == p
  {
    if p.energy >= cfg.max as real then p
    else if Away(cfg, p, now) then p
    else p.(energy := MinReal(cfg.max as real, p.energy + cfg.regenPerSec), lastEnergyTick := now)
  }

  /** `tickEnergy`: every online player with a session takes one tick; sessions
      of players not online are untouched. */
  function TickEnergy(cfg: EnergyConfig, active: map<Uuid, Profile>, online: set<Uuid>, now: int): (r: map<Uuid, Profile>)
    ensures r.Keys == active.Keys
    ensures forall u | u in active && u in online :: r[u] == TickOne(cfg, active[u], now)
    ensures forall u | u in active && u !in online :: r[u] == active[u]
  {
    map u | u in active :: if u in online then TickOne(cfg, active[u], now) else active[u]
  }

  /** Ticks at the given clock readings. */
  function Ticks(cfg: EnergyConfig, p: Profile, nows: seq<int>): Profile
    decreases |nows|
  {
    if |nows| == 0 then p else Ticks(cfg, TickOne(cfg, p, nows[0]), nows[1..])
  }

  /** Energy after `n` regeneration steps from `e`, each capped at `max`. */
  function Filled(max: real, regen: real, e: real, n: nat): real
    decreases n
  {
    if n == 0 then e else Filled(max, regen, MinReal(max, e + regen), n - 1)
  }

  /** Ticks of a player who is never away follow `Filled` and leave the last
      harvest time alone. */
  lemma {:induction false} TicksFollowFilled(cfg: EnergyConfig, p: Profile, nows: seq<int>)
    requires cfg.regenPerSec >= 0.0 && p.energy <= cfg.max as real
    requires forall i | 0 <= i < |nows| :: !Away(cfg, p, nows[i])
    ensures Ticks(cfg, p, nows).energy == Filled(cfg.max as real, cfg.regenPerSec, p.energy, |nows|)
    ensures Ticks(cfg, p, nows).lastHarvestAt == p.lastHarvestAt
    decreases |nows|
  {
    if |nows| > 0 {
      var q := TickOne(cfg, p, nows[0]);
      var rest := nows[1..];
      assert q.lastHarvestAt == p.lastHarvestAt && q.energy <= cfg.max as real;
      assert q.energy == MinReal(cfg.max as real, p.energy + cfg.regenPerSec);
      forall i | 0 <= i < |rest| ensures !Away(cfg, q, rest[i]) {
        assert rest[i] == nows[i + 1];
      }
      TicksFollowFilled(cfg, q, rest);
    }
  }

  /** `n` regeneration amounts added up. */
  function Gain(regen: real, n: nat): (r: real)
    ensures regen >= 0.0 ==> r >= 0.0
    decreases n
  {
    if n == 0 then 0.0 else Gain(regen, n - 1) + regen
  }

  /** The regeneration amounts of `n` ticks add up to `n · regen`. */
  lemma {:induction false} GainIsProduct(regen: real, n: nat)
    ensures Gain(regen, n) == n as real * regen
    decreases n
  {
    if n > 0 {
      GainIsProduct(regen, n - 1);
      assert n as real * regen == (n - 1) as real * regen + regen;
    }
  }

  /** `Filled` in closed form: `min(max, e + gain)`. */
  lemma {:induction false} FilledClosed(max: real, regen: real, e: real, n: nat)
    requires regen >= 0.0 && e <= max
    ensures Filled(max, regen, e, n) == MinReal(max, e + Gain(regen, n))
    decreases n
  {
    if n > 0 {
      FilledClosed(max, regen, MinReal(max, e + regen), n - 1);
      MinStep(e, max, regen, Gain(regen, n - 1));
    }
  }

  /** A present player regains the regeneration amount each tick until the
      maximum, and then stays there: after `n` ticks the energy is
      `min(max, energy + Gain(regen, n))`. */
  lemma TicksFill(cfg: EnergyConfig, p: Profile, nows: seq<int>)
    requires cfg.regenPerSec >= 0.0 && p.energy <= cfg.max as real
    requires forall i | 0 <= i < |nows| :: !Away(cfg, p, nows[i])
    ensures Ticks(cfg, p, nows).energy == MinReal(cfg.max as real, p.energy + Gain(cfg.regenPerSec, |nows|))
    ensures Ticks(cfg, p, nows).lastHarvestAt == p.lastHarvestAt
  {
    TicksFollowFilled(cfg, p, nows);
    FilledClosed(cfg.max as real, cfg.regenPerSec, p.energy, |nows|);
  }

  /** One more regeneration step under the cap. */
  lemma MinStep(e: real, max: real, regen: real, g: real)
    requires e <= max && regen >= 0.0 && g >= 0.0
    ensures MinReal(max, MinReal(max, e + regen) + g) == MinReal(max, e + (g + regen))
  {
  }

  // ---------------------------------------------------------------------------
  // Focus
  // ---------------------------------------------------------------------------

  /** The combo window, in seconds, a focus imposes while it lasts. */
  const FOCUS_WINDOW: real := 3.0

  datatype FocusOutcome = OnCooldown(remainingMillis: int) | MissingEnergy | Activated(until: int)

  /** The focus duration in seconds for a skill level. */
  function FocusDuration(cfg: FocusConfig, skillLevel: int): real {
    cfg.durationBase + (skillLevel - 1) as real * cfg.durationPerLevel
  }

  /** `handleFocus` at clock reading `now`, for a player holding the focus skill
      at `skillLevel`: the skill states (the player's is created if absent),
      the profile and what happened. */
  function HandleFocus(cfg: FocusConfig, states: map<Uuid, SkillState>, p: Profile, skillLevel: int, now: int)
    : (r: (map<Uuid, SkillState>, Profile, FocusOutcome))
    ensures r.0.Keys == states.Keys + {p.uuid}
    ensures forall v | v in states && v != p.uuid :: r.0[v] == states[v]
    ensures var before := if p.uuid in states then states[p.uuid] else NewState;
            && (now < CooldownEnd(before, Focus) <==> r.2.OnCooldown?)
            && (r.2.OnCooldown? || r.2.MissingEnergy? ==> r.0[p.uuid] == before && r.1 == p)
            && (r.2.Activated? ==>
                  && CooldownEnd(r.0[p.uuid], Focus) == now + Trunc(cfg.cooldown * 1000.0)
                  && (forall t | t != Focus :: CooldownEnd(r.0[p.uuid], t) == CooldownEnd(before, t))
                  && r.0[p.uuid].focusActiveUntil == r.2.until)
    ensures r.2.MissingEnergy? <==> !r.2.OnCooldown? && p.energy < cfg.energyCost
    ensures r.2.Activated? ==>
              && r.2.until == now + Trunc(FocusDuration(cfg, skillLevel) * 1000.0)
              && r.1 == p.(energy := MaxReal(0.0, p.energy - cfg.energyCost), lastEnergyTick := now,
                          comboOverrideWindow := FOCUS_WINDOW, comboOverrideUntil := r.2.until)
  {
    var state := if p.uuid in states then states[p.uuid] else NewState;
    var cooldownEnd := CooldownEnd(state, Focus);
    if now < cooldownEnd then (states[p.uuid := state], p, OnCooldown(cooldownEnd - now))
    else if p.energy < cfg.energyCost then (states[p.uuid := state], p, MissingEnergy)
    else
      var spent := p.(energy := MaxReal(0.0, p.energy - cfg.energyCost), lastEnergyTick := now);
      var until := now + Trunc(FocusDuration(cfg, skillLevel) * 1000.0);
      var focused := SetComboOverride(spent, FOCUS_WINDOW, until);
      var state' := SetCooldownEnd(SetFocusActiveUntil(state, until), Focus, now + Trunc(cfg.cooldown * 1000.0));
      (states[p.uuid := state'], focused, Activated(until))
  }

  /** Right after an activation the focus is on cooldown for as long as the
      configured cooldown lasts: a second use before then changes nothing. */
  lemma FocusTwice(cfg: FocusConfig, states: map<Uuid, SkillState>, p: Profile, skillLevel: int, now: int, later: int)
    requires HandleFocus(cfg, states, p, skillLevel, now).2.Activated?
    requires later < now + Trunc(cfg.cooldown * 1000.0)
    ensures var first := HandleFocus(cfg, states, p, skillLevel, now);
            var second := HandleFocus(cfg, first.0, first.1, skillLevel, later);
            second.2.OnCooldown? && second.1 == first.1 && second.0 == first.0
  {
    var first := HandleFocus(cfg, states, p, skillLevel, now);
    assert first.1.uuid == p.uuid;
    assert first.0[first.1.uuid] == first.0[p.uuid];
  }
}

=== FILE: stores.dfy ===
/**
 * The `PlayerDataStore` contract — load, save, close — and its implementations
 * as one datatype: the in-memory map, the Redis hash store, the database
 * store, and the cache-aside composition of a primary with a Redis cache.
 * Each future becomes a value returned in sequence: the store afterwards and
 * the outcome. Which calls fail is fixed by each store's fault flags.
 */
module Stores {
  import opened Wrappers
  import opened Profiles
  import RedisStore
  import JdbcStore

  /** What makes an operation fail. `LoadFailed` and `SaveFailed` complete the
      future exceptionally. `StoreClosed` (the store's executor is shut and
      refuses the task) and `CloseFailed` (the database close hook fails) are
      thrown by the call itself, before any future exists, so a caller's
      `exceptionally` never sees them. */
  datatype Fault = LoadFailed | SaveFailed | CloseFailed | StoreClosed

  /** Which operations of a store fail (a lost connection, a database error). */
  datatype Faults = Faults(loadFails: bool, saveFails: bool, closeFails: bool)

  const NoFaults := Faults(false, false, false)

  /** `RedisPlayerDataStore`: the hashes, its faults, whether its pool is
      closed, and where a failing save fails: before its `del`, or after it, at
      the `hset` (the two commands are not sent as one transaction). */
  datatype RedisCache = RedisCache(hashes: RedisStore.Hashes, faults: Faults, closed: bool, text: RedisStore.RealText,
                                   saveFailsAfterDelete: bool)

  datatype Store =
    | Memory(records: map<Uuid, Profile>)
      /** `InMemoryPlayerDataStore`. */
    | Redis(cache: RedisCache)
      /** `RedisPlayerDataStore` on its own. */
    | Durable(rows: map<Uuid, JdbcStore.Row>, faults: Faults, closed: bool)
      /** `JdbcPlayerDataStore`: one row per player, upserted whole. */
    | Hybrid(primary: Store, cache: RedisCache)
      /** `HybridPlayerDataStore`: cache-aside over a primary store. */

  // ---------------------------------------------------------------------------
  // Redis
  // ---------------------------------------------------------------------------

  /** `RedisPlayerDataStore.loadProfile`: fails on a fault or a closed pool. */
  function RedisLoad(c: RedisCache, u: Uuid, now: int): (r: Result<Option<Profile>, Fault>)
    ensures r.Failure? <==> c.faults.loadFails || c.closed
    ensures r.Success? ==> r.value == RedisStore.Load(c.hashes, u, now, c.text)
  {
    if c.closed then Failure(StoreClosed)
    else if c.faults.loadFails then Failure(LoadFailed)
    else Success(RedisStore.Load(c.hashes, u, now, c.text))
  }

  /** `RedisPlayerDataStore.saveProfile`: replaces the player's hash unless it
      fails. A save that fails after its `del` leaves the player with no hash. */
  function RedisSave(c: RedisCache, p: Profile): (r: (RedisCache, Outcome<Fault>))
    ensures r.1.Fail? <==> c.faults.saveFails || c.closed
    ensures r.1.Fail? && (c.closed || !c.saveFailsAfterDelete) ==> r.0 == c
    ensures r.1.Fail? && !c.closed && c.saveFailsAfterDelete ==>
              r.0 == c.(hashes := RedisStore.Delete(c.hashes, p.uuid))
    ensures r.1.Pass? ==> r.0 == c.(hashes := RedisStore.Save(c.hashes, p, c.text))
  {
    if c.closed then (c, Fail(StoreClosed))
    else if c.faults.saveFails then
      if c.saveFailsAfterDelete then (c.(hashes := RedisStore.Delete(c.hashes, p.uuid)), Fail(SaveFailed))
      else (c, Fail(SaveFailed))
    else (c.(hashes := RedisStore.Save(c.hashes, p, c.text)), Pass)
  }

  /** `RedisPlayerDataStore.close`: shuts the pool and completes normally. */
  function RedisClose(c: RedisCache): (r: (RedisCache, Outcome<Fault>))
    ensures r.1 == Pass && r.0.closed
    ensures r.0.(closed := c.closed) == c
  {
    (c.(closed := true), Pass)
  }

  // ---------------------------------------------------------------------------
  // The store operations
  // ---------------------------------------------------------------------------

  /** `loadProfile`: the store afterwards (a hybrid load may fill its cache)
      and the profile found, none, or the fault. `now` is the clock reading a
      profile rebuilt from a hash is constructed at. */
  function Load(s: Store, u: Uuid, now: int): (r: (Store, Result<Option<Profile>, Fault>))
    ensures s.Memory? ==> r == (s, Success(if u in s.records then Some(s.records[u]) else None))
    ensures s.Redis? ==> r == (s, RedisLoad(s.cache, u, now))
    ensures s.Durable? ==> r.0 == s && (r.1.Failure? <==> s.closed || s.faults.loadFails)
    ensures s.Durable? && r.1.Success? ==>
              r.1.value == if u in s.rows then Some(JdbcStore.MapProfile(u, s.rows[u])) else None
    ensures s.Hybrid? ==> r.0.Hybrid?
    ensures s.Hybrid? && s.cache.closed ==> r == (s, Failure(StoreClosed))
    ensures s.Hybrid? && RedisLoad(s.cache, u, now).Success? && RedisLoad(s.cache, u, now).value.Some? ==>
              r == (s, RedisLoad(s.cache, u, now))
    ensures s.Hybrid? && !s.cache.closed && !(RedisLoad(s.cache, u, now).Success? && RedisLoad(s.cache, u, now).value.Some?) ==>
              r.1 == Load(s.primary, u, now).1 && r.0.primary == Load(s.primary, u, now).0
    decreases s
  {
    match s
    case Memory(records) => (s, Success(if u in records then Some(records[u]) else None))
    case Redis(c) => (s, RedisLoad(c, u, now))
    case Durable(rows, faults, closed) =>
      if closed then (s, Failure(StoreClosed))
      else if faults.loadFails then (s, Failure(LoadFailed))
      else (s, Success(if u in rows then Some(JdbcStore.MapProfile(u, rows[u])) else None))
    case Hybrid(primary, c) =>
      if c.closed then (s, Failure(StoreClosed))
      else
      var cached := RedisLoad(c, u, now);
      if cached.Success? && cached.value.Some? then (s, cached)
      else
        var (primary', found) := Load(primary, u, now);
        match found
        case Failure(e) => (Hybrid(primary', c), Failure(e))
        case Success(None) => (Hybrid(primary', c), Success(None))
        case Success(Some(p)) => (Hybrid(primary', RedisSave(c, p).0), Success(Some(p)))
  }

  /** `saveProfile`: the store afterwards and whether the save completed. */
  function Save(s: Store, p: Profile): (r: (Store, Outcome<Fault>))
    ensures s.Memory? ==> r == (Memory(s.records[p.uuid := p]), Pass)
    ensures s.Redis? ==> r == (Redis(RedisSave(s.cache, p).0), RedisSave(s.cache, p).1)
    ensures s.Durable? ==> (r.1.Fail? <==> s.closed || s.faults.saveFails)
    ensures s.Durable? && r.1.Fail? ==> r.0 == s
    ensures s.Durable? && r.1.Pass? ==> r.0 == s.(rows := s.rows[p.uuid := JdbcStore.Bind(p)])
    ensures s.Hybrid? ==> r.0.Hybrid? && r.0.primary == Save(s.primary, p).0
    ensures s.Hybrid? ==> (r.1.Fail? <==> s.cache.closed || Save(s.primary, p).1.Fail?)
    ensures s.Hybrid? && (s.cache.closed || Save(s.primary, p).1 == Fail(StoreClosed)) ==>
              r.0.cache == s.cache && r.1 == Fail(StoreClosed)
    ensures s.Hybrid? && !s.cache.closed && Save(s.primary, p).1 != Fail(StoreClosed) ==>
              r.0.cache == RedisSave(s.cache, p).0 && r.1 == Save(s.primary, p).1
    decreases s
  {
    match s
    case Memory(records) => (Memory(records[p.uuid := p]), Pass)
    case Redis(c) =>
      var (c', o) := RedisSave(c, p);
      (Redis(c'), o)
    case Durable(rows, faults, closed) =>
      if closed then (s, Fail(StoreClosed))
      else if faults.saveFails then (s, Fail(SaveFailed))
      else (Durable(rows[p.uuid := JdbcStore.Bind(p)], faults, closed), Pass)
    case Hybrid(primary, c) =>
      var (primary', o) := Save(primary, p);
      if o == Fail(StoreClosed) || c.closed then (Hybrid(primary', c), Fail(StoreClosed))
      else (Hybrid(primary', RedisSave(c, p).0), o)
  }

  /** `close`: the store afterwards and whether closing completed. Every
      failing close throws, so a hybrid's `exceptionally` never absorbs its
      primary's failure: the hybrid's close fails with it, and the cache is
      never reached and stays open. */
  function Close(s: Store): (r: (Store, Outcome<Fault>))
    ensures s.Memory? ==> r == (Memory(map[]), Pass)
    ensures s.Redis? ==> r.1 == Pass && r.0 == Redis(RedisClose(s.cache).0) && r.0.cache.closed
    ensures s.Durable? ==> r.0 == s.(closed := true) && (r.1.Fail? <==> s.faults.closeFails)
    ensures s.Hybrid? ==> r.0.Hybrid? && r.0.primary == Close(s.primary).0 && r.1 == Close(s.primary).1
    ensures s.Hybrid? && r.1.Pass? ==> r.0.cache == RedisClose(s.cache).0
    ensures s.Hybrid? && r.1.Fail? ==> r.0.cache == s.cache
    decreases s
  {
    match s
    case Memory(_) => (Memory(map[]), Pass)
    case Redis(c) =>
      var (c', o) := RedisClose(c);
      (Redis(c'), o)
    case Durable(rows, faults, _) =>
      (Durable(rows, faults, true), if faults.closeFails then Fail(CloseFailed) else Pass)
    case Hybrid(primary, c) =>
      var (primary', o) := Close(primary);
      if o.Fail? then (Hybrid(primary', c), o)
      else (Hybrid(primary', RedisClose(c).0), Pass)
  }

  // ---------------------------------------------------------------------------
  // Properties
  // ---------------------------------------------------------------------------

  /** No operation of the in-memory store fails; an unknown uuid loads as none. */
  lemma MemoryNeverFails(records: map<Uuid, Profile>, u: Uuid, p: Profile, now: int)
    ensures Load(Memory(records), u, now).1.Success?
    ensures u !in records ==> Load(Memory(records), u, now).1 == Success(None)
    ensures Save(Memory(records), p).1 == Pass && Close(Memory(records)).1 == Pass
  {
  }

  /** After closing the in-memory store every load finds nothing. */
  lemma MemoryCloseForgets(records: map<Uuid, Profile>, u: Uuid, now: int)
    ensures Load(Close(Memory(records)).0, u, now).1 == Success(None)
  {
  }

  /** The database store's executor is shut before its close hook runs, so
      even a close that fails leaves it refusing every later load and save. */
  lemma DurableClosedRefuses(rows: map<Uuid, JdbcStore.Row>, faults: Faults, p: Profile, u: Uuid, now: int)
    ensures var closed := Close(Durable(rows, faults, false)).0;
            Load(closed, u, now).1 == Failure(StoreClosed) && Save(closed, p).1 == Fail(StoreClosed)
  {
  }

  /** A store whose every part answers: no fault flags and nothing closed. */
  predicate Healthy(s: Store)
    decreases s
  {
    match s
    case Memory(_) => true
    case Redis(c) => HealthyCache(c)
    case Durable(_, faults, closed) => faults == NoFaults && !closed
    case Hybrid(primary, c) => Healthy(primary) && HealthyCache(c)
  }

  predicate HealthyCache(c: RedisCache) {
    c.faults == NoFaults && !c.closed
  }

  /** Every Redis text form of the store reads back the real fields of `p`;
      nothing is asked of a store without a Redis part. */
  ghost predicate TextsReadBack(s: Store, p: Profile)
    decreases s
  {
    match s
    case Redis(c) => RedisStore.RealsReadBackFor(c.text, p)
    case Hybrid(primary, c) => TextsReadBack(primary, p) && RedisStore.RealsReadBackFor(c.text, p)
    case _ => true
  }

  /** What a saved profile reads back as: the in-memory store keeps the profile
      itself; a Redis hash and a database row both drop skills at a
      non-positive level and a half-set override. */
  function ReadBack(s: Store, p: Profile): Profile {
    if s.Memory? then p else RedisStore.Restored(p)
  }

  /** Loading right after a save of `p` finds `p` again (as the store can hold
      it), and a save to a healthy store completes. */
  lemma LoadAfterSave(s: Store, p: Profile, now: int)
    requires Healthy(s) && RedisStore.Storable(p) && TextsReadBack(s, p)
    ensures Save(s, p).1 == Pass
    ensures Load(Save(s, p).0, p.uuid, now).1 == Success(Some(ReadBack(s, p)))
    decreases s
  {
    match s
    case Memory(_) =>
    case Durable(_, _, _) =>
      JdbcStore.MapBind(p);
    case Redis(c) =>
      RedisStore.LoadAfterSave(c.hashes, p, now, c.text);
    case Hybrid(primary, c) =>
      LoadAfterSave(primary, p, now);
      RedisStore.LoadAfterSave(c.hashes, p, now, c.text);
  }

  /** A save of one player leaves what any other player loads unchanged. */
  lemma {:induction false} SaveIsolated(s: Store, p: Profile, other: Uuid, now: int)
    requires other != p.uuid
    ensures Load(Save(s, p).0, other, now).1 == Load(s, other, now).1
    decreases s
  {
    match s
    case Memory(_) =>
    case Durable(_, _, _) =>
    case Redis(c) =>
      RedisSaveIsolated(c, p, other, now);
    case Hybrid(primary, c) =>
      RedisSaveIsolated(c, p, other, now);
      SaveIsolated(primary, p, other, now);
  }

  /** A Redis save of one player, completed or failed at any point, leaves
      what any other player reads from that cache unchanged. */
  lemma RedisSaveIsolated(c: RedisCache, p: Profile, other: Uuid, now: int)
    requires other != p.uuid
    ensures RedisLoad(RedisSave(c, p).0, other, now) == RedisLoad(c, other, now)
  {
    if !c.closed && c.faults.saveFails && c.saveFailsAfterDelete {
      RedisStore.LoadAfterDelete(c.hashes, p.uuid, other, now, c.text);
    } else if !c.closed && !c.faults.saveFails {
      RedisStore.SaveIsolated(c.hashes, p, other, now, c.text);
    }
  }

  /** A hybrid's cache hit is returned as it is and leaves the store, the
      primary included, untouched. */
  lemma HybridHitSkipsPrimary(primary: Store, c: RedisCache, u: Uuid, now: int, p: Profile)
    requires RedisLoad(c, u, now) == Success(Some(p))
    ensures Load(Hybrid(primary, c), u, now) == (Hybrid(primary, c), Success(Some(p)))
  {
  }

  /** On a miss — or a failed read from an open cache, which counts as one —
      the hybrid answers what the primary answers, failure included; a record
      found in the primary is written into the cache when the cache accepts it. */
  lemma HybridMissAsksPrimary(primary: Store, c: RedisCache, u: Uuid, now: int)
    requires !c.closed
    requires !(RedisLoad(c, u, now).Success? && RedisLoad(c, u, now).value.Some?)
    ensures Load(Hybrid(primary, c), u, now).1 == Load(primary, u, now).1
    ensures Load(primary, u, now).1.Success? && Load(primary, u, now).1.value.Some? ==>
              Load(Hybrid(primary, c), u, now).0.cache == RedisSave(c, Load(primary, u, now).1.value.value).0
    ensures !(Load(primary, u, now).1.Success? && Load(primary, u, now).1.value.Some?) ==>
              Load(Hybrid(primary, c), u, now).0.cache == c
  {
  }

  /** A hybrid save fails exactly when the primary's does or the cache is
      closed. Over an open cache and a primary that takes the call, a failed
      cache write is swallowed and both stores are written either way; a
      closed cache or a primary that throws leaves the cache untouched. */
  lemma HybridSaveFollowsPrimary(primary: Store, c: RedisCache, p: Profile)
    ensures Save(Hybrid(primary, c), p).1.Fail? <==> c.closed || Save(primary, p).1.Fail?
    ensures !c.closed && Save(primary, p).1 != Fail(StoreClosed) ==>
              Save(Hybrid(primary, c), p) == (Hybrid(Save(primary, p).0, RedisSave(c, p).0), Save(primary, p).1)
    ensures c.closed || Save(primary, p).1 == Fail(StoreClosed) ==>
              Save(Hybrid(primary, c), p) == (Hybrid(Save(primary, p).0, c), Fail(StoreClosed))
  {
  }

  /** Once its cache is closed the hybrid's loads and saves throw: the cache
      refuses the call before any fallback is attached. The primary is not
      asked on a load, and still takes the save it was handed first. */
  lemma HybridClosedCacheThrows(primary: Store, c: RedisCache, u: Uuid, now: int, p: Profile)
    requires c.closed
    ensures Load(Hybrid(primary, c), u, now) == (Hybrid(primary, c), Failure(StoreClosed))
    ensures Save(Hybrid(primary, c), p) == (Hybrid(Save(primary, p).0, c), Fail(StoreClosed))
  {
  }

  /** A hybrid close ends as its primary's close ends. When the primary closes
      the cache is closed after it; when the primary's close throws, the
      throw escapes and the cache is left open. */
  lemma HybridCloseFollowsPrimary(primary: Store, c: RedisCache)
    ensures Close(Hybrid(primary, c)).1 == Close(primary).1
    ensures Close(primary).1.Pass? ==> Close(Hybrid(primary, c)).0 == Hybrid(Close(primary).0, RedisClose(c).0)
    ensures Close(primary).1.Fail? ==> Close(Hybrid(primary, c)).0 == Hybrid(Close(primary).0, c)
  {
  }

  /** A database primary whose close hook fails makes the hybrid's close fail:
      the database is closed, the cache is still open, and a later load
      still reaches the cache. */
  lemma HybridCloseOverFailingDatabase(rows: map<Uuid, JdbcStore.Row>, faults: Faults, c: RedisCache, u: Uuid, now: int)
    requires faults.closeFails && !c.closed
    ensures Close(Hybrid(Durable(rows, faults, false), c)) == (Hybrid(Durable(rows, faults, true), c), Fail(CloseFailed))
    ensures RedisLoad(Close(Hybrid(Durable(rows, faults, false), c)).0.cache, u, now) == RedisLoad(c, u, now)
  {
  }

  /** A cache write that fails before its `del` leaves the old cached copy in
      place, so a later load answers the older profile from the cache even
      though the primary holds the newer one. */
  lemma HybridStaleAfterFailedCacheWrite(primary: Store, c: RedisCache, p: Profile, now: int)
    requires c.faults.saveFails && !c.saveFailsAfterDelete && !c.faults.loadFails && !c.closed
    requires RedisStore.Load(c.hashes, p.uuid, now, c.text).Some?
    ensures Save(Hybrid(primary, c), p).0.cache == c
    ensures Load(Save(Hybrid(primary, c), p).0, p.uuid, now).1 == Success(RedisStore.Load(c.hashes, p.uuid, now, c.text))
  {
  }

  /** A cache write that fails after its `del` leaves the player with no
      cached hash, so a later load misses the cache and answers what the
      primary answers after the save. (A primary that throws keeps the cache
      write from starting, and the cache is left as it was.) */
  lemma HybridMissAfterPartialCacheWrite(primary: Store, c: RedisCache, p: Profile, now: int)
    requires c.faults.saveFails && c.saveFailsAfterDelete && !c.faults.loadFails && !c.closed
    ensures Save(primary, p).1 == Fail(StoreClosed) ==> Save(Hybrid(primary, c), p).0.cache == c
    ensures Save(primary, p).1 != Fail(StoreClosed) ==>
              Save(Hybrid(primary, c), p).0.cache == c.(hashes := RedisStore.Delete(c.hashes, p.uuid))
    ensures Save(primary, p).1 != Fail(StoreClosed) ==>
              Load(Save(Hybrid(primary, c), p).0, p.uuid, now).1 == Load(Save(primary, p).0, p.uuid, now).1
  {
    RedisStore.LoadAfterDelete(c.hashes, p.uuid, p.uuid, now, c.text);
  }

  /** On its own, a Redis store whose save fails after the `del` has lost the
      player: the next load finds no profile. */
  lemma RedisLosesAfterPartialSave(c: RedisCache, p: Profile, now: int)
    requires c.faults.saveFails && c.saveFailsAfterDelete && !c.faults.loadFails && !c.closed
    ensures Save(Redis(c), p).1 == Fail(SaveFailed)
    ensures Load(Save(Redis(c), p).0, p.uuid, now).1 == Success(None)
  {
    RedisStore.LoadAfterDelete(c.hashes, p.uuid, p.uuid, now, c.text);
  }
}

=== FILE: world_rules.dfy ===
/**
 * `WorldRuleListener`: inside the harvest worlds only whitelisted commands may
 * be typed, and blocks may be clicked only with a farm hoe in the main hand.
 * The whitelist is normalised on reload (trimmed, lowercased, led by "/"), and
 * a typed command is reduced to its label the same way before the lookup.
 */
module WorldRules {
  import opened Wrappers
  import opened Config
  import opened JavaText

  /** The listener's two sets, rebuilt from scratch on every reload. */
  datatype Rules = Rules(restrictedWorlds: set<string>, whitelist: set<string>)

  /** `/` followed by `lowered` unless it already starts with it. */
  function Slashed(lowered: string): (r: string)
    ensures |r| > 0 && r[0] == '/'
    ensures StartsWith(lowered, "/") ==> r == lowered
    ensures !StartsWith(lowered, "/") ==> r == "/" + lowered
  {
    if StartsWith(lowered, "/") then lowered else "/" + lowered
  }

  /** A whitelist entry as stored: trimmed, lowercased, led by "/". */
  function NormalizeEntry(entry: string): (r: string)
    ensures |r| > 0 && r[0] == '/'
  {
    Slashed(ToLower(Trim(entry)))
  }

  /** The entries kept from the configured whitelist: null and blank ones are skipped. */
  function WhitelistOf(entries: seq<Option<string>>): (r: set<string>)
    ensures forall e :: e in r <==>
              exists i | 0 <= i < |entries| :: entries[i].Some? && !IsBlank(entries[i].value)
                                              && NormalizeEntry(entries[i].value) == e
    decreases |entries|
  {
    if |entries| == 0 then {}
    else
      var rest := WhitelistOf(entries[1..]);
      assert forall i | 1 <= i < |entries| :: entries[i] == entries[1..][i - 1];
      var head := entries[0];
      if head.None? || IsBlank(head.value) then rest else rest + {NormalizeEntry(head.value)}
  }

  /** `reload`: the restricted worlds are the harvest worlds, and the whitelist
      holds exactly the normalised non-blank entries; nothing from before survives. */
  function Reload(cfg: PluginConfig): (r: Rules)
    ensures forall w :: w in r.restrictedWorlds <==> w in cfg.harvest.worlds
    ensures forall e | e in r.whitelist :: |e| > 0 && e[0] == '/'
  {
    var worlds := set w | w in cfg.harvest.worlds;
    Rules(worlds, WhitelistOf(cfg.world.commandWhitelist))
  }

  // ---------------------------------------------------------------------------
  // Commands
  // ---------------------------------------------------------------------------

  /** The position of the first `\s` character, or `|s|` when there is none. */
  function FirstSpace(s: string): (i: nat)
    ensures i <= |s|
    ensures i < |s| ==> IsRegexSpace(s[i])
    ensures forall k | 0 <= k < i :: !IsRegexSpace(s[k])
  {
    if |s| == 0 || IsRegexSpace(s[0]) then 0 else 1 + FirstSpace(s[1..])
  }

  /** The command label of a message: the first piece of splitting it on runs of
      `\s` (empty when the message starts with one), lowercased and led by "/". */
  function CommandLabel(message: string): (r: string)
    ensures |r| > 0 && r[0] == '/'
  {
    Slashed(ToLower(message[..FirstSpace(message)]))
  }

  /** `onCommandPreprocess`: whether the typed command is cancelled. Outside the
      restricted worlds, for a player with the bypass permission, and for a
      missing or blank message nothing is cancelled; otherwise the command is
      cancelled exactly when its label is not whitelisted. */
  function CommandCancelled(rules: Rules, world: string, bypass: bool, message: Option<string>): (r: bool)
    ensures r ==> world in rules.restrictedWorlds && !bypass && message.Some? && !IsBlank(message.value)
    ensures world in rules.restrictedWorlds && !bypass && message.Some? && !IsBlank(message.value) ==>
              (r <==> CommandLabel(message.value) !in rules.whitelist)
  {
    if world !in rules.restrictedWorlds then false
    else if bypass then false
    else if message.None? || IsBlank(message.value) then false
    else CommandLabel(message.value) !in rules.whitelist
  }

  /** A typed command whose first word is, up to letter case, a whitelisted entry
      (one with no spaces around or inside it) is never cancelled, whatever
      arguments follow it. */
  lemma WhitelistedCommandPasses(cfg: PluginConfig, i: nat, world: string, args: string)
    requires i < |cfg.world.commandWhitelist| && cfg.world.commandWhitelist[i].Some?
    requires var e := cfg.world.commandWhitelist[i].value;
             !IsBlank(e) && (forall k | 0 <= k < |e| :: !IsTrimmable(e[k]))
    ensures var e := cfg.world.commandWhitelist[i].value;
            !CommandCancelled(Reload(cfg), world, false, Some(e + " " + args))
  {
    var e := cfg.world.commandWhitelist[i].value;
    var message := e + (" " + args);
    assert e + " " + args == message;
    assert !IsBlank(message) by {
      var j :| 0 <= j < |e| && !IsWhitespace(e[j]);
      assert message[j] == e[j];
    }
    assert Trim(e) == e by { TrimUntouched(e); }
    assert FirstSpace(message) == |e| by { FirstSpaceAfterWord(e, " " + args); }
    assert message[..|e|] == e;
    assert CommandLabel(message) == NormalizeEntry(e);
    assert NormalizeEntry(e) in Reload(cfg).whitelist;
  }

  /** `trim` leaves a string with no character at or below U+0020 alone. */
  lemma TrimUntouched(e: string)
    requires forall k | 0 <= k < |e| :: !IsTrimmable(e[k])
    ensures Trim(e) == e
  {
    if |e| > 0 {
      assert !IsTrimmable(e[0]) && !IsTrimmable(e[|e| - 1]);
      TrimStartUntouched(e);
      TrimEndUntouched(e);
    }
  }

  lemma TrimStartUntouched(e: string)
    requires |e| > 0 && !IsTrimmable(e[0])
    ensures TrimStart(e) == e
  {
  }

  lemma TrimEndUntouched(e: string)
    requires |e| > 0 && !IsTrimmable(e[|e| - 1])
    ensures TrimEnd(e) == e
  {
  }

  /** The first `\s` of `word + rest` is where `word` ends when `word` has none
      and `rest` starts with one. */
  lemma {:induction false} FirstSpaceAfterWord(word: string, rest: string)
    requires forall k | 0 <= k < |word| :: !IsTrimmable(word[k])
    requires |rest| > 0 && IsRegexSpace(rest[0])
    ensures FirstSpace(word + rest) == |word|
    decreases |word|
  {
    if |word| > 0 {
      assert (word + rest)[1..] == word[1..] + rest;
      FirstSpaceAfterWord(word[1..], rest);
    } else {
      assert word + rest == rest;
    }
  }

  // ---------------------------------------------------------------------------
  // Interaction
  // ---------------------------------------------------------------------------

  datatype Hand = MainHand | OffHand

  /** The `PlayerInteractEvent` actions. */
  datatype ClickAction = LeftClickBlock | RightClickBlock | LeftClickAir | RightClickAir | Physical

  /** `onInteract`: whether the interaction is cancelled. Only main-hand clicks
      on a block in a restricted world are judged, and of those the left and
      right clicks are cancelled unless the main-hand item is a farm hoe. */
  function InteractCancelled(rules: Rules, hand: Hand, clickedWorld: Option<string>, action: ClickAction,
                             holdsFarmHoe: bool): (r: bool)
    ensures r ==> hand == MainHand && clickedWorld.Some? && clickedWorld.value in rules.restrictedWorlds
    ensures r ==> !holdsFarmHoe && (action == LeftClickBlock || action == RightClickBlock)
    ensures (hand == MainHand && clickedWorld.Some? && clickedWorld.value in rules.restrictedWorlds
             && (action == LeftClickBlock || action == RightClickBlock) && !holdsFarmHoe) ==> r
  {
    if hand != MainHand then false
    else if clickedWorld.None? then false
    else if clickedWorld.value !in rules.restrictedWorlds then false
    else match action
      case RightClickBlock => !holdsFarmHoe
      case LeftClickBlock => !holdsFarmHoe
      case _ => false
  }

  /** After a reload the interact rule reads the configured harvest worlds
      directly: a main-hand block click in one of them is cancelled exactly
      when the player does not hold a farm hoe, and nothing else is. */
  lemma InteractAfterReload(cfg: PluginConfig, hand: Hand, world: string, action: ClickAction, holdsFarmHoe: bool)
    ensures InteractCancelled(Reload(cfg), hand, Some(world), action, holdsFarmHoe) <==>
              hand == MainHand && world in cfg.harvest.worlds && !holdsFarmHoe
              && (action == LeftClickBlock || action == RightClickBlock)
  {
  }

  /** Neither the order nor repetitions of the configured world list matter:
      two configurations naming the same worlds cancel the same interactions. */
  lemma InteractIgnoresWorldOrder(a: PluginConfig, b: PluginConfig)
    requires forall w :: w in a.harvest.worlds <==> w in b.harvest.worlds
    ensures forall hand, world, action, holdsFarmHoe ::
              InteractCancelled(Reload(a), hand, world, action, holdsFarmHoe)
              == InteractCancelled(Reload(b), hand, world, action, holdsFarmHoe)
  {
  }
}

=== FILE: wrappers.dfy ===
/** Failure-carrying values that stand in for Java's null, exceptions and failed futures. */
module Wrappers {

  /** A value that may be absent: Java's `null` or an empty `Optional`. */
  datatype Option<+T> = None | Some(value: T) {
    function GetOr(default: T): T {
      match this
      case Some(v) => v
      case None => default
    }
  }

  /** A computation that either produced a value or failed with an error. */
  datatype Result<+R, +E> = Success(value: R) | Failure(error: E)

  /** A computation without a value (a `CompletableFuture<Void>`) that passed or failed. */
  datatype Outcome<+E> = Pass | Fail(error: E)
}
